=== FILE: README.md ===
# search-tweets-python, modelled in Dafny

This project models the core of the Python client for Twitter's premium and
enterprise search APIs. The client exists in three near-identical revisions:
`searchtweets`, `twittersearchapi` and `twittersearch`. The model covers:

- **The pagination engine.** This is `ResultStream.stream` and
  `execute_request` of all three revisions. It is one parametric method over
  a `Revision`, which fixes four things: is there a request cap, does
  `stream` close the session, the retry sleep schedule, and whether the
  session can use a bearer token. The network is a finite oracle. The n-th
  request of a stream is answered by the n-th "exchange", which is the
  sequence of attempts the `retry` decorator makes for it.
- **The `retry` decorator.** It is a function of the attempt oracle. It
  returns the outcome, the number of calls and the list of sleeps.
- **Session construction.** `make_session` is modelled as the headers and
  basic-authentication pair it configures.
- **Request and endpoint builders:**
  - `gen_rule_payload`, including the revision with swapped date guards;
  - `change_to_count_endpoint`, `gen_endpoint` of both revisions,
    `infer_endpoint` and `validate_count_api`;
  - `convert_utc_time` and `gen_params_from_config` of both revisions.
- **Utilities:** `take`, `partition` and `merge_dicts`, and the chunking of
  `write_result_stream`.
- **Credentials:** the environment renaming of `_load_env_credentials`, the
  account-type inference of `_parse_credentials`, and the merge precedence
  of `load_credentials`.
- **`name_munger`** for ASCII rules.
- **`parse_version`** of setup.py, with Python's backtracking regular
  expression semantics for `\d+.\d+.\d+`.

Python exceptions become `Err` values of a `Result` (module `Wrappers`).
Configuration and payload dicts are maps from strings to JSON scalars
(module `Values`), and Python's truthiness is stated explicitly.

Several pieces of code exist in identical copies, and each is modelled once:

| modelled once | also found in |
|---|---|
| `convert_utc_time` | searchtweets/api_utils.py, twittersearchapi/utils.py, twittersearch/api_utils.py |
| `take`, `partition`, `merge_dicts` | searchtweets/utils.py, twittersearchapi/utils.py |
| `validate_count_api` | both copies |
| basic-auth `make_session` | both twittersearchapi files |
| swapped `gen_rule_payload` | both copies |

Modules: `Wrappers`, `Values`, `Text` (the Python `str` behaviour relied
on), `Collections`, `Dates`, `Endpoints`, `Payloads`, `Config`,
`Credentials`, `Sessions`, `Retry`, `ResultStream`, `Names`, `Versioning`.

## Model

| member | source | states |
|---|---|---|
| Sessions.MakeSession | searchtweets/result_stream.py:42-56 | `KeyError` exactly when password and bearer token are both `None`. A truthy token gives exactly the gzip and "Authorization: Bearer <token>" headers and no basic auth. Otherwise it gives the basic-auth session with only the gzip header. |
| Sessions.MakeBasicSession | twittersearchapi/result_stream.py:18-29 | Basic auth with (username, password), and the gzip Accept-encoding header as the only header. |
| Sessions.EmptyBearerFallsBackToBasic | searchtweets/result_stream.py:42-56 | An empty bearer token is not `None`, so it avoids the `KeyError`. It is falsy, so the session still uses basic auth, even with a `None` password. |
| Sessions.RevisionsAgreeWithoutBearer | twittersearchapi/twitter_search_api.py:57-68 | Without a bearer token and with a password, searchtweets builds exactly the twittersearchapi session. |
| Retry.Retry | searchtweets/result_stream.py:71-101 | Makes at most four calls. Every call before the last answered with a non-200 status. A raised exception propagates at once. A 200 returns that body. A non-200 after three retries raises `HTTPError`, or `KeyError` for a status outside `GNIP_RESP_CODES`. The i-th sleep is the backoff after i retries. |
| Retry.SleepSchedules | searchtweets/result_stream.py:86-92 | The quadratic sleeps are a prefix of 1, 4, 9. The twittersearchapi sleeps (twittersearchapi/utils.py:91-96) are all 1 second. |
| Retry.PersistentFailure | searchtweets/result_stream.py:86-101 | A call that keeps failing is attempted exactly four times, after sleeps 1, 4, 9 (or 1, 1, 1). It ends in `HTTPError` or `KeyError` according to the last status. |
| Retry.ImmediateSuccess | searchtweets/result_stream.py:86-103 | A first-attempt 200 is returned after one call and no sleep. |
| Retry.BackoffOnlyChangesSleeps | twittersearchapi/utils.py:76-107 | The one-second and quadratic schedules make the same calls with the same outcome. |
| ResultStream.OpenSession | searchtweets/result_stream.py:223-231 | `init_session` of each revision: the bearer-capable revision fails exactly as `make_session` does, and the basic-auth revisions always build the basic session. |
| ResultStream.Requests | searchtweets/result_stream.py:204-218 | The number of requests of a stream: every page before the last continues the paging test, and the last one stops it. |
| ResultStream.StopsAtUnique | searchtweets/result_stream.py:211-218 | The stopping request is unique. |
| ResultStream.RefreshCount | searchtweets/result_stream.py:247-249 | The session is refreshed before a request when `n_requests` is a multiple of 20 above 1. So `n` requests make `(n - 1) / 20` refreshes. |
| ResultStream.EmitPage | searchtweets/result_stream.py:205-209 | Yielding one page extends the output to the first `max_results` items of all pages so far. Each item is marked as a `Tweet` or as passed through. |
| ResultStream.PayloadFor | searchtweets/result_stream.py:212-213 | The payload of each request holds every key of the original payload other than "next", unchanged, and no other key besides "next". |
| ResultStream.PayloadStep | searchtweets/result_stream.py:212-213 | Merging `{"next": token}` into a request's payload gives the next request's payload. |
| ResultStream.PagingTest | searchtweets/result_stream.py:211-218 | A successful page continues the stream exactly when: its "next" is truthy, fewer than `max_results` items were yielded, and (with the request cap) `n_requests <= max_requests`. |
| ResultStream.Step | searchtweets/result_stream.py:241-258 | One `execute_request` plus the items of its page. It keeps the loop invariant and reports a `KeyError` for a body without "results". It continues exactly when the paging test holds, and then hands on the next payload. |
| ResultStream.Pages | searchtweets/result_stream.py:202-218 | The request loop stops at the unique stopping request. Throughout, it keeps the invariant on emitted items, payloads, sleeps and sessions. |
| ResultStream.Stream | searchtweets/result_stream.py:187-221 | For each revision (twittersearchapi/result_stream.py:135-159, twittersearchapi/twitter_search_api.py:128-149): a session failure escapes before any request. Otherwise the output is the first `max_results` items of all pages in order, and one payload is sent per request. The outcome is the error of the last page, if any. There is one session plus one per refresh. The session is closed, and the page dropped, only by the revisions that close and only on a normal end. The sleeps are those of the requests made. |
| ResultStream.EmittedGrow | searchtweets/result_stream.py:204-209 | The yielded items only grow from page to page, and never exceed `max_results`. |
| ResultStream.StopsWithoutNext | searchtweets/result_stream.py:211-218 | The stream stops at the latest after the first page without a truthy "next". |
| ResultStream.RequestCapBound | searchtweets/result_stream.py:211 | With the request cap, at most `max(1, max_requests + 1)` requests are made. |
| ResultStream.CapAllowsOneExtraRequest | searchtweets/result_stream.py:211 | The `<=` test lets exactly `max_requests + 1` requests through when every page has a "next" and the item cap is not reached. |
| ResultStream.BackoffKeepsResults | twittersearchapi/result_stream.py:31-75 | The sleep schedule does not change what any request ends with. |
| ResultStream.CapIsTheOnlyDifference | twittersearchapi/result_stream.py:151-156 | With a request cap above the number of pages, the three revisions page identically. |
| ResultStream.NewStream | searchtweets/result_stream.py:164-184 | The constructor: a non-int `max_results` becomes 10**15, and a bool counts as an int. A `None` `max_requests` becomes 10**9. The endpoint is replaced by `change_to_count_endpoint` of itself exactly when the payload's "bucket" is truthy. That rewrite raises `IndexError` on an endpoint with no tokens. |
| ResultStream.CountsPayloadStreamsCounts | searchtweets/result_stream.py:182-184 | A counts payload on a non-counts endpoint is sent to a URL that passes `validate_count_api`, and its items are passed through untouched. |
| ResultStream.NewApiStream | twittersearchapi/result_stream.py:101-132 | The twittersearchapi constructor keeps the URL, the payload and `max_tweets` as given, and its session is the basic one. |
| ResultStream.EndStream | twittersearchapi/twitter_search_api.py:161-163 | `end_stream` drops the page and closes the session, and leaves everything else alone. Before any session, `None.close()` raises `AttributeError`. |
| ResultStream.EndStreamLaws | twittersearchapi/twitter_search_api.py:161-163 | `end_stream` is idempotent once it succeeds, and it fails on an unstarted stream. |
| ResultStream.StreamArgsOf | searchtweets/result_stream.py:298-301 | Splatting the stream-arguments dict into the constructor raises `TypeError` when "endpoint" is missing or when "rule_payload" or "max_results" is repeated. Otherwise the endpoint and credentials are read from the dict, unknown keys are ignored, `tweetify` defaults to true, and a missing or `None` `max_requests` selects the default. |
| ResultStream.CollectResults | searchtweets/result_stream.py:293-301 | `KeyError` without stream arguments, and `TypeError` when they cannot be splatted into the constructor. Otherwise it is the error of constructing or running the stream, or the list of everything it yields. |
| Dates.ConvertUtcTime | searchtweets/api_utils.py:81-93 | `None` exactly for a missing or empty argument. `ValueError` exactly when no accepted form parses. Otherwise twelve digits that parse back, in the compact form, to the stamp that was read. |
| Dates.CompactRoundTrip | searchtweets/api_utils.py:84-93 | `strptime("%Y%m%d%H%M")` of `strftime("%Y%m%d%H%M")` gives back the stamp. |
| Dates.ConvertIdempotent | searchtweets/api_utils.py:83-84 | The output converts to itself: it has no '-' or ':'. |
| Dates.FormsAgree | searchtweets/api_utils.py:83-93 | The compact, space-separated and 'T'-separated forms of a minute all give its compact form. At midnight, so does the date-only form. |
| Dates.DocumentedExamples | searchtweets/api_utils.py:70-79 | The four documented inputs all give '201708020000'. |
| Text.CollapseWhitespace | searchtweets/api_utils.py:149 | `' '.join(s.split())` keeps the words of `s` and leaves no leading, trailing or repeated whitespace. |
| Text.CollapseWhitespaceIdempotent | searchtweets/api_utils.py:149 | Normalising a normalised query changes nothing. |
| Text.ParseIntText | searchtweets/api_utils.py:185 | `int` of an integer's decimal text gives back the integer. |
| Values.ToInt | searchtweets/api_utils.py:185 | `int(None)` raises `TypeError`; a bool is 0 or 1; a string is parsed or raises `ValueError`. |
| Endpoints.ChangeToCountEndpoint | searchtweets/api_utils.py:106-113 | `IndexError` exactly when the URL has no tokens. A counts endpoint is returned unchanged. Any other URL becomes an "https://" URL ending in "/counts.json" that is itself a counts endpoint. Its tokens are the URL's tokens with the last one cut at its first '.', followed by "counts.json". A cut token that is empty or "https" does not show up as a token. |
| Endpoints.CountsUrl | searchtweets/api_utils.py:108-113 | The rebuilt URL starts with "https://", ends with "/counts.json", and passes every counts test. Its tokens are the original tokens, the last one cut at its first '.', then "counts.json". |
| Endpoints.ChangeToCountIdempotent | searchtweets/api_utils.py:108-113 | Applying it twice is applying it once. |
| Endpoints.GenEndpoint | twittersearchapi/twitter_search_api.py:44-54 | The URL is the base URL, then "{api}/accounts/{account}/", then the label's stem, then "/counts.json" or ".json"; the stem sits exactly between prefix and suffix. The stem is a prefix of the label. For a label ending in ".json" it has no '.', and any other label is kept whole. |
| Endpoints.GenCountEndpointRecognised | twittersearchapi/twitter_search_api.py:48-49 | A generated counts URL has the "counts.json" segment and the "counts" token, and `change_to_count_endpoint` keeps it. |
| Endpoints.LabelJsonSuffixIgnored | twittersearchapi/twitter_search_api.py:44 | A label and the same label with ".json" give the same URL. |
| Endpoints.DocumentedLabelStem | twittersearchapi/twitter_search_api.py:35-41 | The documented labels "python.json" and "python" give the same URL. |
| Endpoints.GenEndpointForKind | twittersearch/api_utils.py:140-159 | `ValueError` exactly for a kind other than "enterprise" or "premium". Enterprise gives the twittersearchapi URL. Premium gives the 30-day URL of the whole label, which is not cut at '.', followed by exactly the suffix. The suffix is "/counts.json" or ".json". |
| Endpoints.PremiumIgnoresAccount | twittersearch/api_utils.py:86-92 | The premium URL does not depend on the search API or the account name. |
| Endpoints.CountsSuffix | searchtweets/result_stream.py:237 | A URL ending in "/counts.json" is a counts endpoint, has the "counts.json" segment, and has the "counts" token. |
| Payloads.ConvertArg | searchtweets/api_utils.py:151-154 | A falsy date gives `None`. A date string gives its compact conversion, or `ValueError`. Any other truthy value raises `TypeError`. |
| Payloads.GenRulePayload | searchtweets/api_utils.py:149-166 | Fails exactly with the first error among: the end date, the start date, an invalid bucket. Otherwise: "query" is the normalised rule. "maxResults" is present iff there is no bucket. "toDate", "fromDate", "bucket" and "tag" are each present iff their argument is truthy, dates converted. No other key is present. |
| Payloads.GenRulePayloadSwapped | twittersearch/api_utils.py:193-209 | The revision with swapped guards (twittersearchapi/utils.py:177-193). It fails exactly with the first error among: the end date, converted only when the start date is truthy; the start date, converted only when the end date is truthy; an invalid bucket. Otherwise "toDate" is set iff the start date is truthy, and "fromDate" iff the end date is. A date key holds its own date converted, or `None` when that date is falsy. "bucket" holds the bucket and "maxResults" the given count, each present as in the corrected version. |
| Payloads.SwappedSkipsStartDateCheck | twittersearch/api_utils.py:197-200 | Without an end date, any start date is accepted, even an unreadable one, and it is dropped. The corrected version fails exactly when the start date cannot be converted. |
| Payloads.SwappedAgreesWhenBothOrNeither | twittersearch/api_utils.py:197-200 | When both dates or neither are given, the swapped revision builds the corrected payload. |
| Payloads.SwappedDropsStartDate | twittersearch/api_utils.py:197-200 | With only a start date, the swapped revision drops it and sends `"toDate": null`. The corrected version sends the converted start date. |
| Payloads.SwappedGuardsExample | twittersearchapi/utils.py:181-184 | The same, for the start date "2017-08-21". |
| Payloads.InferEndpointOfPayload | searchtweets/api_utils.py:199-205 | A generated payload goes to "counts" iff a bucket was asked for. |
| Payloads.ValidateCountApi | searchtweets/api_utils.py:212-222 | `ValueError` exactly when the bucket is not `None` and no '/'-segment of the endpoint is "counts.json". |
| Payloads.CountEndpointsValidate | twittersearch/api_utils.py:244-254 | URLs rewritten by `change_to_count_endpoint` or generated as counts URLs pass validation. So does any payload without a bucket. |
| Payloads.CountTestsDisagree | searchtweets/api_utils.py:110-111 | `change_to_count_endpoint` accepts ".../counts" as a counts endpoint, but `validate_count_api` rejects it for a payload with a bucket. |
| Config.GenParamsFromConfig | searchtweets/api_utils.py:169-196 | Fails exactly with the first error in evaluation order: `change_to_count_endpoint` when the bucket is truthy (`TypeError` for a non-string endpoint), a missing "pt_rule", `int(results_per_call)`, a rule that is not a string, `gen_rule_payload`, then `int` of "results_per_file" and "max_results". On success: the payload is `gen_rule_payload` of the configured values, and with a bucket the endpoint is exactly `change_to_count_endpoint` of the configured one, which is kept as it is otherwise. The remaining values are copied, or converted with `int`. |
| Config.ConfigEndpointStable | searchtweets/api_utils.py:174-180 | Feeding the produced endpoint back into the configuration gives the same parameters. |
| Config.EndpointFromConfig | twittersearch/api_utils.py:217-222 | `gen_endpoint` as called from the configuration: a bad kind raises `ValueError`, and an enterprise label that is not a string raises `AttributeError`. The enterprise URL is `gen_endpoint`'s for the label. The premium URL is the premium base, then the label as `str` renders it, then the suffix. A truthy bucket gives a counts URL that `change_to_count_endpoint` keeps, and otherwise a ".json" URL. |
| Config.GenParamsFromConfigForKind | twittersearch/api_utils.py:212-241 | Fails exactly with the first error in evaluation order: a missing endpoint key, `gen_endpoint`, a missing "pt_rule", `int(max_results)`, a rule that is not a string, the swapped `gen_rule_payload`, then `int` of "results_per_file" and "max_tweets". On success, the URL is exactly the one `gen_endpoint` builds from the configuration's kind, API, account and label, with the bucket's truthiness as `count_endpoint`; it is a counts URL iff there is a bucket, and the payload is the swapped revision's and validates against the URL. "results_per_file" and "max_tweets" are converted with `int`, and the credentials and "max_pages" are copied. |
| Credentials.RenamedKey | searchtweets/credentials.py:49 | Removing the prefix and lower-casing turns each variable into its credential key. |
| Credentials.LoadEnvCredentials | searchtweets/credentials.py:42-53 | Every credential key is present iff its variable is set, with the variable's value. No other key is present. |
| Credentials.ParseCredentials | searchtweets/credentials.py:56-91 | Only `KeyError` is raised, and it is raised for a resolved type other than premium or enterprise. Premium succeeds iff "bearer_token" and "endpoint" are present, and returns exactly those. Enterprise does the same with "username", "password" and "endpoint". Values are copied. |
| Credentials.AccountTypePrecedence | searchtweets/credentials.py:58-67 | The type is the argument, else "account_type", else premium if there is a bearer token, else enterprise if there is a password, else `KeyError`. |
| Credentials.LoadCredentials | searchtweets/credentials.py:173-185 | The result is `_parse_credentials` of a key-wise precedence map, defined independently of the dict merge. That map holds every key of the YAML section and of the environment. A key's value comes from the environment when `env_overwrite` is set or the YAML lacks the key, and from the YAML otherwise. Errors, too, are exactly those of parsing that map. |
| Credentials.OverwriteOnlyMattersForSharedKeys | searchtweets/credentials.py:179-183 | When the YAML section and the environment share no key, `env_overwrite` does not change the result. |
| Credentials.EnvironmentOnlyExample | searchtweets/credentials.py:163-170 | With no YAML entry and the endpoint, username and password set in the environment, the enterprise credentials are returned. |
| Collections.Take | searchtweets/utils.py:24-31 | The first `min(n, len)` items, in order; a negative `n` raises `ValueError`. |
| Collections.Partition | searchtweets/utils.py:46-48 | `len / k` chunks of exactly `k` consecutive items; the incomplete tail is dropped. |
| Collections.PartitionPadded | searchtweets/utils.py:49-50 | The fewest chunks of `k` that cover the input: the items in order, then `None` padding. |
| Collections.PartitionPaddedRestores | searchtweets/utils.py:43-50 | Flattening the padded chunks and dropping the padding gives back the input. |
| Collections.Merge | searchtweets/utils.py:72-73 | `{**a, **b}`: the union of keys, `b` winning. |
| Collections.MergeDicts | searchtweets/utils.py:53-75 | `TypeError` for no dicts. Otherwise every key of every dict, each with its value in the last dict that holds it. |
| Collections.MergeLaws | searchtweets/utils.py:72-75 | Merging is associative and idempotent, and `{}` is its identity. |
| Collections.WriteResultStream | searchtweets/utils.py:107-131 | What is handed back is what is written. Without chunking, it is one file with the stream unchanged. With `k` per file, it is every non-`None` item in order, in files of at most `k` items each, with as many files as padded chunks. File `i` holds exactly the non-`None` items among the stream's items `i*k` up to `(i+1)*k`. |
| Collections.FilteredChunks | searchtweets/utils.py:119-125 | Filtering each chunk and then concatenating gives the same as concatenating and then filtering. |
| Collections.ChunkFileNames | searchtweets/utils.py:83-130 | Chunk file names (`Collections.OutputFileName`) coincide exactly when their timestamps do, so chunks written within one second share a file, which `write_ndjson`'s "wb" mode overwrites. The unchunked name does not depend on the clock and never equals a chunk name. |
| Names.NameMunger | twittersearchapi/utils.py:196-224 | Fails exactly when the rule cannot be taken. Otherwise it returns the munged rule. |
| Names.RuleOf | twittersearchapi/utils.py:205-212 | The rule is the dict's "query". For a string containing "query", it is the "query" of its decoding. Any other string is the rule itself. |
| Names.Munge | twittersearchapi/utils.py:214-223 | The name is ASCII. For an ASCII rule it is exactly the first 42 characters of the substituted rule, so at most 42 characters and none of ' ', ':', '"', '(' or ')'. |
| Names.SquashRun | twittersearchapi/utils.py:214 | A run of spaces between non-spaces becomes a single '_'. |
| Names.ReplaceChainIsOnePass | twittersearchapi/utils.py:215-218 | The four chained `replace` calls equal one pass that escapes each character. |
| Names.SafeRuleIsItsOwnName | twittersearchapi/utils.py:208-223 | A short ASCII rule with no unsafe character and no "query" is its own name. |
| Names.JsonStringLikeDict | twittersearchapi/utils.py:205-210 | A JSON string mentioning "query" is named like the dict it decodes to. |
| Versioning.ParseVersion | setup.py:8-17 | `KeyError` exactly when nothing matches. Otherwise the result is the text of a match, and no match starts further left. |
| Versioning.MatchAt | setup.py:12 | The backtracking match at a position: the longest first group that lets the rest match, then the longest second group, with a greedy last group. |
| Versioning.VersionIsDigitsAtBothEnds | setup.py:12-14 | The version has at least five characters and begins and ends with a digit. |
| Versioning.FindsVersion | setup.py:12-14 | In a line whose prefix has no digit, a version `x?y?z` with non-digit separators is found exactly. |
| Versioning.AnySeparator | setup.py:12 | The unescaped '.' accepts "1-2-3". |
| Versioning.NoVersionInShortLine | setup.py:15-17 | A line shorter than five characters raises `KeyError`. |

## Left out

- HTTP is not modelled: `requests.Session`, `session.post` and response decoding. A request's outcome is the attempt oracle, and a decoded body is its "results" list and "next" token.
- `time.sleep` is not modelled: sleeps are recorded, not slept.
- Logging, `print` and `__repr__` are not modelled, nor the `stream_started` flag, which nothing in the core reads.
- The process-wide `ResultStream.session_request_counter` is not modelled. It is a global counter that nothing in the core reads.
- The `tweet_parser.Tweet` constructor is foreign code. A yielded item is only marked as passed through `Tweet` or handed on as it is.
- File and environment I/O is not modelled: `write_ndjson`, `read_configfile`, `_load_yaml_credentials`, `os.environ`, and the `utcnow()` timestamps. The environment and the parsed YAML document are maps, and the timestamp is a parameter.
- The `stringify=True` JSON text of `gen_rule_payload` is not modelled; payloads are dicts. For the same reason the JSON-string payloads that the constructors, `infer_endpoint` and `validate_count_api` decode are left out.
- JSON decoding of string payloads, in `name_munger`, is a `decode` parameter.
- The twittersearchapi copy of `write_result_stream` is left out: its `write_ndjson` generators are never consumed, so it writes nothing.
- Names.Munge: NFKD normalisation is not modelled, so the contract pins the output only for ASCII rules. A non-ASCII character is dropped rather than decomposed. For non-ASCII rules Python can produce unsafe characters: "⑴" becomes "(1)", U+FF1A becomes ':' and U+00A0 becomes ' '. It can also exceed 42 characters: 42 × "ﬁ" becomes 84. So the length bound and the absence of unsafe characters are stated for ASCII rules only.
- Dates.ConvertUtcTime: only the fixed-width, zero-padded forms with four-digit years are accepted. `strptime` is looser in ways that are not modelled, and on each of these inputs Python returns a stamp where the model raises `ValueError`: it accepts single-digit fields; the format's space matches any run of whitespace, so a tab or several spaces pass; `%d` accepts a day with a leading space (" 1"); and the `\d` in every numeric field also matches non-ASCII digits.
- ResultStream.Page: a "results" key holding `null` is treated like a missing key, with `KeyError`. In Python `resp["results"]` then stores `None`, dropping the held page, and the `TypeError` comes from iterating it in `stream`. A "results" value that is not a list is not modelled either.
- Dates.ConvertUtcTime: years 1 to 999 are written as four zero-padded digits. That is what `strftime("%Y")` does on platforms that pad. On CPython builds that hand `%Y` to glibc the year is not padded. There, "0999-01-01" becomes the 11-digit "99901010000", which does not convert back to itself. So the 12-digit bound, and Dates.ConvertIdempotent, hold there only for years from 1000.
- Text.ParseInt: Python's `int(str)` also accepts '_' between digits and non-ASCII digits; these are not modelled.
- Versioning.ParseVersion: `\d` is taken to be the ASCII digits. Python's `\d` also matches other Unicode decimal digits.
- Names.RuleOf: inputs that are neither a dict nor a string (an unbound `rule` in Python) are not modelled.
- ResultStream.Stream: what happens when the caller abandons the generator midway is not modelled. The method requires a finite oracle, meaning some page stops the stream. Without a request cap, Python would also page forever against a server that never stops.
- ResultStream.StreamArgsOf: two ill-typed values are rejected with `TypeError` when the stream is constructed, earlier than Python rejects them. A non-string "endpoint" fails in Python at its first `re.split`: in the constructor for a counts payload, otherwise in `check_counts` after the session is opened. A string "max_requests" fails in Python only when the paging test reaches its comparison.
- Endpoints.DocumentedLabelStem: the documented full URLs are stated structurally, as the label stem and the URL's parts, not as the literal strings.

## Findings

| source | as written | input that shows it | evidently intended | confidence | as-written member | corrected member |
|---|---|---|---|---|---|---|
| twittersearch/api_utils.py:197-200 (and twittersearchapi/utils.py:181-184) | "toDate" is set when `from_date` is truthy, and "fromDate" when `to_date` is truthy | `gen_rule_payload(rule, from_date="2017-08-21")` sends `"toDate": null` and no "fromDate" | each date key is set when its own argument is truthy, as in searchtweets/api_utils.py:151-154 | not executed | Payloads.GenRulePayloadSwapped (shown by Payloads.SwappedDropsStartDate, Payloads.SwappedGuardsExample and Payloads.SwappedSkipsStartDateCheck; used by Config.GenParamsFromConfigForKind, which models twittersearch as written) | Payloads.GenRulePayload |

=== FILE: collections.dfy ===
/** The sequence and dictionary utilities of searchtweets/utils.py (identical
    copies live in twittersearchapi/utils.py): `take`, `partition`,
    `merge_dicts`, and the chunking and pass-through behaviour of
    `write_result_stream`. Python iterators are modelled as finite sequences. */
module Collections {
  import opened Wrappers

  function Min(a: int, b: int): int {
    if a <= b then a else b
  }

  /** `islice(xs, n)` for a valid bound: the first `n` items, all of them when
      there are fewer, none when `n` is not positive. */
  function FirstN<T>(n: int, xs: seq<T>): (r: seq<T>)
    ensures r <= xs
    ensures |r| == if n <= 0 then 0 else Min(n, |xs|)
  {
    if n <= 0 then [] else if n < |xs| then xs[..n] else xs
  }

  /** `take(n, xs)`: `islice` rejects a negative bound with `ValueError`. */
  function Take<T>(n: int, xs: seq<T>): (r: Result<seq<T>>)
    ensures r.Err? <==> n < 0
    ensures r.Err? ==> r.error == ValueError
    ensures r.Ok? ==> r.value <= xs && |r.value| == Min(n, |xs|)
  {
    if n < 0 then Err(ValueError) else Ok(FirstN(n, xs))
  }

  /** The concatenation of the chunks, in order. */
  function Flatten<T>(xss: seq<seq<T>>): seq<T> {
    if |xss| == 0 then [] else xss[0] + Flatten(xss[1..])
  }

  lemma {:induction false} FlattenAppend<T>(a: seq<seq<T>>, b: seq<seq<T>>)
    ensures Flatten(a + b) == Flatten(a) + Flatten(b)
    decreases |a|
  {
    if |a| > 0 {
      assert (a + b)[1..] == a[1..] + b;
      FlattenAppend(a[1..], b);
    } else {
      assert a + b == b;
    }
  }

  /** Each item wrapped in `Some`. */
  function Wrap<T>(xs: seq<T>): (r: seq<Option<T>>)
    ensures |r| == |xs|
    ensures forall i :: 0 <= i < |xs| ==> r[i] == Some(xs[i])
  {
    seq(|xs|, i requires 0 <= i < |xs| => Some(xs[i]))
  }

  lemma WrapAppend<T>(a: seq<T>, b: seq<T>)
    ensures Wrap(a + b) == Wrap(a) + Wrap(b)
  {
  }

  /** `n` copies of `None`: the padding `zip_longest` adds. */
  function Nones<T>(n: nat): (r: seq<Option<T>>)
    ensures |r| == n
    ensures forall i :: 0 <= i < n ==> r[i] == None
  {
    seq(n, i => None)
  }

  /** The items that are not `None`, in order: `filter(lambda x: x is not None, xs)`. */
  function Values<T>(xs: seq<Option<T>>): seq<T> {
    if |xs| == 0 then []
    else (if xs[0].Some? then [xs[0].value] else []) + Values(xs[1..])
  }

  lemma {:induction false} ValuesAppend<T>(a: seq<Option<T>>, b: seq<Option<T>>)
    ensures Values(a + b) == Values(a) + Values(b)
    decreases |a|
  {
    if |a| > 0 {
      assert (a + b)[1..] == a[1..] + b;
      ValuesAppend(a[1..], b);
    } else {
      assert a + b == b;
    }
  }

  lemma {:induction false} ValuesOfPadded<T>(xs: seq<T>, n: nat)
    ensures Values(Wrap(xs) + Nones(n)) == xs
    decreases |xs| + n
  {
    if |xs| > 0 {
      assert (Wrap(xs) + Nones(n))[1..] == Wrap(xs[1..]) + Nones(n);
      ValuesOfPadded(xs[1..], n);
    } else if n > 0 {
      assert (Wrap(xs) + Nones(n))[1..] == Wrap(xs) + Nones(n - 1);
      ValuesOfPadded(xs, n - 1);
    }
  }

  /** `partition(xs, k)` without padding: `zip(*[iter(xs)] * k)` yields
      consecutive chunks of exactly `k` items and drops an incomplete tail,
      so there are floor(|xs| / k) of them; a non-positive `k` gives no chunks. */
  function Partition<T>(xs: seq<T>, k: int): (r: seq<seq<T>>)
    ensures k <= 0 ==> r == []
    ensures k > 0 ==> |r| * k <= |xs| < |r| * k + k
    ensures forall i :: 0 <= i < |r| ==> |r[i]| == k
    ensures k > 0 ==> Flatten(r) == xs[..|r| * k]
    decreases |xs|
  {
    if k <= 0 || |xs| < k then []
    else
      var rest := Partition(xs[k..], k);
      assert (1 + |rest|) * k == k + |rest| * k;
      assert xs[..k + |rest| * k] == xs[..k] + xs[k..][..|rest| * k];
      [xs[..k]] + rest
  }

  /** `partition(xs, k, pad_none=True)`: `zip_longest` yields
      ceil(|xs| / k) chunks of exactly `k` items, the last one padded with
      `None`; a non-positive `k` gives no chunks. */
  function PartitionPadded<T>(xs: seq<T>, k: int): (r: seq<seq<Option<T>>>)
    ensures k <= 0 ==> r == []
    ensures k > 0 ==> |xs| <= |r| * k < |xs| + k
    ensures forall i :: 0 <= i < |r| ==> |r[i]| == k
    ensures k > 0 ==> Flatten(r) == Wrap(xs) + Nones(|r| * k - |xs|)
    decreases |xs|
  {
    if k <= 0 || |xs| == 0 then []
    else if |xs| <= k then
      assert Flatten([Wrap(xs) + Nones(k - |xs|)]) == Wrap(xs) + Nones(k - |xs|);
      [Wrap(xs) + Nones(k - |xs|)]
    else
      var rest := PartitionPadded(xs[k..], k);
      PaddedCons(xs, k, rest);
      [Wrap(xs[..k])] + rest
  }

  /** `k` padded chunks of a tail, with the first `k` items before them, are
      padded chunks of the whole. */
  lemma PaddedCons<T>(xs: seq<T>, k: int, rest: seq<seq<Option<T>>>)
    requires 0 < k < |xs|
    requires |xs| - k <= |rest| * k < |xs|
    requires forall i :: 0 <= i < |rest| ==> |rest[i]| == k
    requires Flatten(rest) == Wrap(xs[k..]) + Nones(|rest| * k - (|xs| - k))
    ensures var r := [Wrap(xs[..k])] + rest;
      && |xs| <= |r| * k < |xs| + k
      && (forall i :: 0 <= i < |r| ==> |r[i]| == k)
      && Flatten(r) == Wrap(xs) + Nones(|r| * k - |xs|)
  {
    var r := [Wrap(xs[..k])] + rest;
    assert |r| * k == k + |rest| * k by {
      assert (1 + |rest|) * k == k + |rest| * k;
    }
    assert r[1..] == rest;
    assert Wrap(xs) == Wrap(xs[..k]) + Wrap(xs[k..]);
  }

  /** The items of the `i`-th chunk of `k`: from `i * k` up to
      `(i + 1) * k`, or to the end of the input. */
  function ChunkOf<T>(xs: seq<T>, k: int, i: int): seq<T>
    requires k > 0 && 0 <= i && i * k < |xs|
  {
    xs[i * k .. Min((i + 1) * k, |xs|)]
  }

  lemma Distribute(m: int, k: int)
    ensures (m + 1) * k == m * k + k
  {
  }

  /** The chunks of a tail past the first `k` items are the later chunks
      of the whole. */
  lemma ChunkOfTail<T>(xs: seq<T>, k: int, i: int)
    requires k > 0 && |xs| > k && 0 < i && (i - 1) * k < |xs| - k
    ensures i * k < |xs|
    ensures ChunkOf(xs[k..], k, i - 1) == ChunkOf(xs, k, i)
  {
    var lo := (i - 1) * k;
    Distribute(i - 1, k);
    Distribute(i, k);
    assert i * k == lo + k && (i + 1) * k == lo + k + k;
  }

  /** The `i`-th padded chunk holds `ChunkOf(xs, k, i)`, padded with `None`
      up to `k` items. */
  lemma {:induction false} PaddedChunk<T>(xs: seq<T>, k: int, i: int)
    requires k > 0 && 0 <= i < |PartitionPadded(xs, k)|
    ensures i * k < |xs|
    ensures PartitionPadded(xs, k)[i] == Wrap(ChunkOf(xs, k, i)) + Nones(k - |ChunkOf(xs, k, i)|)
    decreases |xs|
  {
    if |xs| > k {
      if i > 0 {
        assert PartitionPadded(xs, k)[i] == PartitionPadded(xs[k..], k)[i - 1];
        PaddedChunk(xs[k..], k, i - 1);
        ChunkOfTail(xs, k, i);
      } else {
        assert ChunkOf(xs, k, 0) == xs[..k];
      }
    } else {
      assert ChunkOf(xs, k, 0) == xs;
    }
  }

  /** A chunk file holds the chunk's items with `None` filtered out. */
  lemma ChunkFile<T>(stream: seq<Option<T>>, k: int, i: int)
    requires k > 0 && 0 <= i < |PartitionPadded(stream, k)|
    ensures i * k < |stream|
    ensures Wrap(Values(Values(PartitionPadded(stream, k)[i]))) == Wrap(Values(ChunkOf(stream, k, i)))
  {
    PaddedChunk(stream, k, i);
    ValuesOfPadded(ChunkOf(stream, k, i), k - |ChunkOf(stream, k, i)|);
  }

  /** Dropping the padding from the flattened padded chunks gives back the input. */
  lemma PartitionPaddedRestores<T>(xs: seq<T>, k: int)
    requires k > 0
    ensures Values(Flatten(PartitionPadded(xs, k))) == xs
  {
    var r := PartitionPadded(xs, k);
    ValuesOfPadded(xs, |r| * k - |xs|);
  }

  /** `{**a, **b}`: the keys of both, `b`'s value winning on a shared key. */
  function Merge<K, V>(a: map<K, V>, b: map<K, V>): (r: map<K, V>)
    ensures r.Keys == a.Keys + b.Keys
    ensures forall k :: k in b ==> r[k] == b[k]
    ensures forall k :: k in a && k !in b ==> r[k] == a[k]
  {
    a + b
  }

  /** No dict after position `i` of `ds` holds `k`. */
  ghost predicate LastHolder<K, V>(ds: seq<map<K, V>>, i: int, k: K)
    requires 0 <= i < |ds|
  {
    forall j :: i < j < |ds| ==> k !in ds[j]
  }

  /** `r` holds every key of `ds`, each with its value in the last dict
      holding it. */
  ghost predicate Folded<K(!new), V>(ds: seq<map<K, V>>, r: map<K, V>) {
    && (forall k :: k in r <==> exists i :: 0 <= i < |ds| && k in ds[i])
    && (forall i, k :: 0 <= i < |ds| && k in ds[i] && LastHolder(ds, i, k) ==> r[k] == ds[i][k])
  }

  /** Merging the next dict into the fold of the ones before it. */
  lemma FoldStep<K(!new), V>(ds: seq<map<K, V>>, acc: map<K, V>)
    requires |ds| > 1 && Folded(ds[..|ds| - 1], acc)
    ensures Folded(ds, Merge(acc, ds[|ds| - 1]))
  {
    var n := |ds|;
    var init, last := ds[..n - 1], ds[n - 1];
    var r := Merge(acc, last);
    assert forall i :: 0 <= i < n - 1 ==> init[i] == ds[i];
    forall k
      ensures k in r <==> exists i :: 0 <= i < n && k in ds[i]
    {
      if k in last {
        assert k in ds[n - 1];
      }
    }
    forall i, k | 0 <= i < n && k in ds[i] && LastHolder(ds, i, k)
      ensures r[k] == ds[i][k]
    {
      if i < n - 1 {
        assert k !in last;
        assert LastHolder(init, i, k);
      }
    }
  }

  /** `reduce(_merge_dicts, ds)` on a non-empty list, folding from the left. */
  function MergeFold<K(!new), V>(ds: seq<map<K, V>>): (r: map<K, V>)
    requires |ds| > 0
    ensures forall k :: k in r <==> exists i :: 0 <= i < |ds| && k in ds[i]
    ensures forall i, k :: 0 <= i < |ds| && k in ds[i] && LastHolder(ds, i, k) ==> r[k] == ds[i][k]
  {
    if |ds| == 1 then ds[0]
    else
      var acc := MergeFold(ds[..|ds| - 1]);
      FoldStep(ds, acc);
      Merge(acc, ds[|ds| - 1])
  }

  /** `merge_dicts(*ds)`: every key of every dict, mapped to the value in the
      last dict holding it; `reduce` of an empty list raises `TypeError`. */
  function MergeDicts<K(!new), V>(ds: seq<map<K, V>>): (r: Result<map<K, V>>)
    ensures r.Err? <==> |ds| == 0
    ensures r.Err? ==> r.error == TypeError
    ensures r.Ok? ==> forall k :: k in r.value <==> exists i :: 0 <= i < |ds| && k in ds[i]
    ensures r.Ok? ==> forall i, k :: 0 <= i < |ds| && k in ds[i] && LastHolder(ds, i, k) ==> r.value[k] == ds[i][k]
  {
    if |ds| == 0 then Err(TypeError) else Ok(MergeFold(ds))
  }

  /** Merging is associative, has `{}` as identity and is idempotent. */
  lemma MergeLaws<K, V>(a: map<K, V>, b: map<K, V>, c: map<K, V>)
    ensures Merge(Merge(a, b), c) == Merge(a, Merge(b, c))
    ensures Merge(map[], a) == a && Merge(a, map[]) == a
    ensures Merge(a, a) == a
  {
  }

  /** The files written and the items handed back by `write_result_stream`. */
  datatype Written<T> = Written(files: seq<seq<T>>, passed: seq<T>)

  /** Python truthiness of `results_per_file` (an int or `None`). */
  predicate Chunked(resultsPerFile: Option<int>) {
    resultsPerFile.Some? && resultsPerFile.value != 0
  }

  /** `write_result_stream` on a finite stream: with a truthy
      `results_per_file` the stream is cut by the padded `partition` and each
      chunk, with `None` filtered out, goes to its own file and back to the
      caller; otherwise the whole stream goes to one file and back unchanged. */
  function WriteResultStream<T>(stream: seq<Option<T>>, resultsPerFile: Option<int>): (w: Written<Option<T>>)
    ensures w.passed == Flatten(w.files)
    ensures !Chunked(resultsPerFile) ==> w.files == [stream] && w.passed == stream
    ensures Chunked(resultsPerFile) && resultsPerFile.value > 0 ==>
      var k := resultsPerFile.value;
      && w.passed == Wrap(Values(stream))
      && |stream| <= |w.files| * k < |stream| + k
      && forall i :: 0 <= i < |w.files| ==> |w.files[i]| <= k
    ensures Chunked(resultsPerFile) && resultsPerFile.value > 0 ==>
      var k := resultsPerFile.value;
      forall i :: 0 <= i < |w.files| ==>
        i * k < |stream| && w.files[i] == Wrap(Values(ChunkOf(stream, k, i)))
    ensures Chunked(resultsPerFile) && resultsPerFile.value < 0 ==> w.files == [] && w.passed == []
  {
    if Chunked(resultsPerFile) then
      var chunks := PartitionPadded(stream, resultsPerFile.value);
      var files := seq(|chunks|, i requires 0 <= i < |chunks| => Wrap(Values(Values(chunks[i]))));
      if resultsPerFile.value > 0 then
        PartitionPaddedRestores(stream, resultsPerFile.value);
        FilteredChunks(chunks);
        var k := resultsPerFile.value;
        forall i | 0 <= i < |files|
          ensures |files[i]| <= k
          ensures i * k < |stream| && files[i] == Wrap(Values(ChunkOf(stream, k, i)))
        {
          ValuesShorter(chunks[i]);
          ValuesShorter(Values(chunks[i]));
          ChunkFile(stream, k, i);
        }
        Written(files, Flatten(files))
      else
        Written(files, Flatten(files))
    else
      assert Flatten([stream]) == stream;
      Written([stream], stream)
  }

  lemma {:induction false} ValuesShorter<T>(xs: seq<Option<T>>)
    ensures |Values(xs)| <= |xs|
    decreases |xs|
  {
    if |xs| > 0 {
      ValuesShorter(xs[1..]);
    }
  }

  /** Filtering each chunk and flattening is flattening and then filtering. */
  lemma {:induction false} FilteredChunks<T>(chunks: seq<seq<Option<Option<T>>>>)
    ensures
      var files := seq(|chunks|, i requires 0 <= i < |chunks| => Wrap(Values(Values(chunks[i]))));
      Flatten(files) == Wrap(Values(Values(Flatten(chunks))))
    decreases |chunks|
  {
    var files := seq(|chunks|, i requires 0 <= i < |chunks| => Wrap(Values(Values(chunks[i]))));
    if |chunks| > 0 {
      FilteredChunks(chunks[1..]);
      var tail := seq(|chunks[1..]|, i requires 0 <= i < |chunks[1..]| => Wrap(Values(Values(chunks[1..][i]))));
      assert files[1..] == tail;
      ValuesAppend(chunks[0], Flatten(chunks[1..]));
      ValuesAppend(Values(chunks[0]), Values(Flatten(chunks[1..])));
      WrapAppend(Values(Values(chunks[0])), Values(Values(Flatten(chunks[1..]))));
    }
  }

  /** The name of an output file: `<prefix>_<timestamp>.json` when chunking,
      `<prefix>.json` otherwise; the prefix defaults to
      "twitter_search_results". The timestamp is a parameter because the
      source reads the clock. */
  function OutputFileName(prefix: Option<string>, chunked: bool, timestamp: string): (name: string)
    ensures var p := if prefix.Some? then prefix.value else "twitter_search_results";
      && |name| >= |p| + 5
      && name[..|p|] == p
      && name[|name| - 5..] == ".json"
      && (chunked ==> name[|p|..|name| - 5] == "_" + timestamp)
      && (!chunked ==> |name| == |p| + 5)
  {
    var p := if prefix.Some? then prefix.value else "twitter_search_results";
    if chunked then p + "_" + timestamp + ".json" else p + ".json"
  }

  /** Chunk files are told apart only by their timestamps: two chunks
      stamped in the same second get the same name, and `write_ndjson`
      opens it with "wb", so the later one replaces the earlier. The single
      file of an unchunked run is named without the clock, and never like a
      chunk file. */
  lemma ChunkFileNames(prefix: Option<string>, t1: string, t2: string)
    ensures OutputFileName(prefix, true, t1) == OutputFileName(prefix, true, t2) <==> t1 == t2
    ensures OutputFileName(prefix, false, t1) == OutputFileName(prefix, false, t2)
    ensures OutputFileName(prefix, true, t1) != OutputFileName(prefix, false, t2)
  {
    var p := if prefix.Some? then prefix.value else "twitter_search_results";
    var n1 := OutputFileName(prefix, true, t1);
    var n2 := OutputFileName(prefix, true, t2);
    if n1 == n2 {
      assert ("_" + t1)[1..] == t1;
      assert ("_" + t2)[1..] == t2;
    }
  }
}

=== FILE: config.dfy ===
/** `gen_params_from_config` of searchtweets/api_utils.py and of
    twittersearch/api_utils.py: the keyword arguments of a `ResultStream`
    built from a configuration dict. */
module Config {
  import opened Wrappers
  import opened Values
  import opened Text
  import opened Endpoints
  import opened Payloads

  /** The dict `gen_params_from_config` returns. In the twittersearch
      revision `endpoint` is stored under "url" and `maxResults` under
      "max_tweets". */
  datatype StreamParams = StreamParams(
    endpoint: Json,
    username: Json,
    password: Json,
    bearerToken: Json,
    rulePayload: Dict,
    resultsPerFile: int,
    maxResults: int,
    maxPages: Json)

  /** `change_to_count_endpoint` applied to a configuration value: `re.split`
      of anything but a string raises `TypeError`. */
  function CountEndpointOf(v: Json): (r: Result<Json>)
    ensures !v.JStr? ==> r == Err(TypeError)
    ensures v.JStr? ==> r.Err? == ChangeToCountEndpoint(v.s).Err?
    ensures r.Ok? ==> r.value.JStr? && IsCountEndpoint(r.value.s)
    ensures v.JStr? && IsCountEndpoint(v.s) ==> r == Ok(v)
  {
    if !v.JStr? then Err(TypeError)
    else
      var url :- ChangeToCountEndpoint(v.s);
      Ok(JStr(url))
  }

  /** `' '.join(pt_rule.split())` needs a string; anything else has no
      `split` and raises `AttributeError`. */
  function RuleText(v: Json): Result<string> {
    if v.JStr? then Ok(v.s) else Err(AttributeError)
  }

  /** The endpoint `gen_params_from_config` settles on: the counts endpoint
      exactly when "count_bucket" is truthy. */
  function ConfiguredEndpoint(config: Dict): (r: Result<Json>)
    ensures Truthy(Get(config, "count_bucket")) ==> r == CountEndpointOf(Get(config, "endpoint"))
    ensures !Truthy(Get(config, "count_bucket")) ==> r == Ok(Get(config, "endpoint"))
  {
    if Truthy(Get(config, "count_bucket")) then CountEndpointOf(Get(config, "endpoint"))
    else Ok(Get(config, "endpoint"))
  }

  /** The exception the payload steps of searchtweets'
      `gen_params_from_config` raise first, in evaluation order: a missing
      "pt_rule", `int(results_per_call)`, a rule that is not a string,
      `gen_rule_payload`, then `int` of "results_per_file" and
      "max_results". */
  function PayloadStepsError(config: Dict): Option<PyError> {
    if "pt_rule" !in config then Some(KeyError)
    else if ToInt(Get(config, "results_per_call")).Err? then Some(ToInt(Get(config, "results_per_call")).error)
    else if !config["pt_rule"].JStr? then Some(AttributeError)
    else if PayloadError(Get(config, "from_date"), Get(config, "to_date"), Get(config, "count_bucket")).Some? then
      PayloadError(Get(config, "from_date"), Get(config, "to_date"), Get(config, "count_bucket"))
    else if ToInt(Get(config, "results_per_file")).Err? then Some(ToInt(Get(config, "results_per_file")).error)
    else if ToInt(Get(config, "max_results")).Err? then Some(ToInt(Get(config, "max_results")).error)
    else None
  }

  /** The exception searchtweets' `gen_params_from_config` raises first:
      `change_to_count_endpoint` when "count_bucket" is truthy, then the
      payload steps. */
  function ParamsError(config: Dict): Option<PyError> {
    if Truthy(Get(config, "count_bucket")) && CountEndpointOf(Get(config, "endpoint")).Err? then
      Some(CountEndpointOf(Get(config, "endpoint")).error)
    else PayloadStepsError(config)
  }

  /** The rest of `gen_params_from_config` once the endpoint is settled. It
      does not read "endpoint" again, so it is given the configuration
      without that key. */
  function ParamsWith(config: Dict, endpoint: Json): (r: Result<StreamParams>)
    ensures r.Err? <==> PayloadStepsError(config).Some?
    ensures r.Err? ==> r.error == PayloadStepsError(config).value
    ensures r.Ok? ==>
      && "pt_rule" in config
      && config["pt_rule"].JStr?
      && ToInt(Get(config, "results_per_call")).Ok?
      && r.value.rulePayload.Keys <= PayloadKeys - {"tag"}
      && GenRulePayload(config["pt_rule"].s, ToInt(Get(config, "results_per_call")).value,
           Get(config, "from_date"), Get(config, "to_date"), Get(config, "count_bucket"), JNull)
         == Ok(r.value.rulePayload)
    ensures r.Ok? ==>
      && r.value.endpoint == endpoint
      && ToInt(Get(config, "results_per_file")) == Ok(r.value.resultsPerFile)
      && ToInt(Get(config, "max_results")) == Ok(r.value.maxResults)
      && r.value.username == Get(config, "username")
      && r.value.password == Get(config, "password")
      && r.value.bearerToken == Get(config, "bearer_token")
      && r.value.maxPages == Get(config, "max_pages")
  {
    if "pt_rule" !in config then Err(KeyError)
    else
      var perCall :- ToInt(Get(config, "results_per_call"));
      var rule :- RuleText(config["pt_rule"]);
      var payload :- GenRulePayload(rule, perCall, Get(config, "from_date"), Get(config, "to_date"),
                                    Get(config, "count_bucket"), JNull);
      var perFile :- ToInt(Get(config, "results_per_file"));
      var maxResults :- ToInt(Get(config, "max_results"));
      Ok(StreamParams(endpoint, Get(config, "username"), Get(config, "password"),
                      Get(config, "bearer_token"), payload, perFile, maxResults, Get(config, "max_pages")))
  }

  /** searchtweets' `gen_params_from_config`: the endpoint is changed to the
      counts endpoint exactly when "count_bucket" is truthy; the payload is
      built from "pt_rule", the dates, `int(results_per_call)` and the
      bucket; "results_per_file" and "max_results" go through `int`. Errors
      surface in evaluation order. */
  function GenParamsFromConfig(config: Dict): (r: Result<StreamParams>)
    ensures r.Err? <==> ParamsError(config).Some?
    ensures r.Err? ==> r.error == ParamsError(config).value
    ensures Truthy(Get(config, "count_bucket")) && !Get(config, "endpoint").JStr? ==> r == Err(TypeError)
    ensures !Truthy(Get(config, "count_bucket")) && "pt_rule" !in config ==> r == Err(KeyError)
    ensures r.Ok? ==>
      && "pt_rule" in config
      && config["pt_rule"].JStr?
      && ToInt(Get(config, "results_per_call")).Ok?
      && r.value.rulePayload.Keys <= PayloadKeys - {"tag"}
      && GenRulePayload(config["pt_rule"].s, ToInt(Get(config, "results_per_call")).value,
           Get(config, "from_date"), Get(config, "to_date"), Get(config, "count_bucket"), JNull)
         == Ok(r.value.rulePayload)
    ensures r.Ok? && Truthy(Get(config, "count_bucket")) ==>
      && Ok(r.value.endpoint) == CountEndpointOf(Get(config, "endpoint"))
      && r.value.endpoint.JStr?
      && IsCountEndpoint(r.value.endpoint.s)
      && (IsCountEndpoint(Get(config, "endpoint").s) ==> r.value.endpoint == Get(config, "endpoint"))
    ensures r.Ok? && !Truthy(Get(config, "count_bucket")) ==> r.value.endpoint == Get(config, "endpoint")
    ensures r.Ok? ==>
      && ToInt(Get(config, "results_per_file")) == Ok(r.value.resultsPerFile)
      && ToInt(Get(config, "max_results")) == Ok(r.value.maxResults)
      && r.value.username == Get(config, "username")
      && r.value.password == Get(config, "password")
      && r.value.bearerToken == Get(config, "bearer_token")
      && r.value.maxPages == Get(config, "max_pages")
  {
    var endpoint :- ConfiguredEndpoint(config);
    var rest := config - {"endpoint"};
    SameExceptEndpoint(config, rest);
    ParamsWith(rest, endpoint)
  }

  /** Every key but "endpoint" reads the same in `config` and `rest`. */
  lemma SameExceptEndpoint(config: Dict, rest: Dict)
    requires rest == config - {"endpoint"}
    ensures "pt_rule" in rest <==> "pt_rule" in config
    ensures "pt_rule" in config ==> rest["pt_rule"] == config["pt_rule"]
    ensures Get(rest, "count_bucket") == Get(config, "count_bucket")
    ensures Get(rest, "results_per_call") == Get(config, "results_per_call")
    ensures Get(rest, "from_date") == Get(config, "from_date")
    ensures Get(rest, "to_date") == Get(config, "to_date")
    ensures Get(rest, "results_per_file") == Get(config, "results_per_file")
    ensures Get(rest, "max_results") == Get(config, "max_results")
    ensures Get(rest, "username") == Get(config, "username")
    ensures Get(rest, "password") == Get(config, "password")
    ensures Get(rest, "bearer_token") == Get(config, "bearer_token")
    ensures Get(rest, "max_pages") == Get(config, "max_pages")
    ensures PayloadStepsError(rest) == PayloadStepsError(config)
  {
  }

  /** Feeding the produced endpoint back into the configuration changes
      nothing: the counts rewrite is applied at most once. */
  lemma ConfigEndpointStable(config: Dict)
    requires GenParamsFromConfig(config).Ok?
    ensures var params := GenParamsFromConfig(config).value;
      GenParamsFromConfig(config["endpoint" := params.endpoint]) == Ok(params)
  {
    var params := GenParamsFromConfig(config).value;
    var endpoint := ConfiguredEndpoint(config).value;
    var config' := config["endpoint" := params.endpoint];
    assert Get(config', "count_bucket") == Get(config, "count_bucket");
    assert ConfiguredEndpoint(config') == Ok(endpoint);
    assert config' - {"endpoint"} == config - {"endpoint"};
  }

  /** twittersearch's `gen_endpoint` on configuration values: the kind must
      be "enterprise" or "premium" (`ValueError` otherwise); the enterprise
      label must be a string for `endswith` (`AttributeError` otherwise);
      every other field is rendered with `str`. */
  function EndpointFromConfig(kind: Json, api: Json, account: Json, endpointLabel: Json, countEndpoint: bool): (r: Result<string>)
    ensures kind != JStr("enterprise") && kind != JStr("premium") ==> r == Err(ValueError)
    ensures kind == JStr("enterprise") && endpointLabel.JStr? ==>
      r == Ok(GenEndpoint(Show(api), Show(account), endpointLabel.s, countEndpoint))
    ensures kind == JStr("enterprise") && !endpointLabel.JStr? ==> r == Err(AttributeError)
    ensures kind == JStr("premium") ==>
      && r == GenEndpointForKind("premium", Show(api), Show(account), Show(endpointLabel), countEndpoint)
      && r.Ok?
      && Framed(r.value, PremiumBaseUrl, Show(endpointLabel), Suffix(countEndpoint))
    ensures r.Ok? && countEndpoint ==> HasCountsSegment(r.value) && ChangeToCountEndpoint(r.value) == Ok(r.value)
    ensures r.Ok? && !countEndpoint ==> EndsWith(r.value, ".json")
  {
    if kind == JStr("enterprise") then
      if !endpointLabel.JStr? then Err(AttributeError)
      else
        var url := GenEndpoint(Show(api), Show(account), endpointLabel.s, countEndpoint);
        if countEndpoint then
          GenCountEndpointRecognised(Show(api), Show(account), endpointLabel.s);
          Ok(url)
        else Ok(url)
    else if kind == JStr("premium") then
      var url := GenEndpointForKind("premium", Show(api), Show(account), Show(endpointLabel), countEndpoint);
      if countEndpoint then
        CountsSuffix(PremiumEndpoint(Show(endpointLabel)));
        url
      else url
    else Err(ValueError)
  }

  /** The keys twittersearch's `gen_params_from_config` reads with `[]`
      before generating the endpoint. */
  predicate HasEndpointKeys(config: Dict) {
    "account_type" in config && "search_api" in config && "account_name" in config && "endpoint_label" in config
  }

  /** The exception twittersearch's `gen_params_from_config` raises first,
      in evaluation order: a missing endpoint key, the endpoint itself, a
      missing "pt_rule", `int(max_results)`, a rule that is not a string,
      the payload, then `int` of "results_per_file" and "max_tweets". */
  function ForKindError(config: Dict): Option<PyError> {
    if !HasEndpointKeys(config) then Some(KeyError)
    else
      var bucket := Get(config, "count_bucket");
      var url := EndpointFromConfig(config["account_type"], config["search_api"], config["account_name"],
                                    config["endpoint_label"], Truthy(bucket));
      if url.Err? then Some(url.error)
      else if "pt_rule" !in config then Some(KeyError)
      else if ToInt(Get(config, "max_results")).Err? then Some(ToInt(Get(config, "max_results")).error)
      else if !config["pt_rule"].JStr? then Some(AttributeError)
      else if SwappedPayloadError(Get(config, "from_date"), Get(config, "to_date"), bucket).Some? then
        SwappedPayloadError(Get(config, "from_date"), Get(config, "to_date"), bucket)
      else if ToInt(Get(config, "results_per_file")).Err? then Some(ToInt(Get(config, "results_per_file")).error)
      else if ToInt(Get(config, "max_tweets")).Err? then Some(ToInt(Get(config, "max_tweets")).error)
      else None
  }

  /** twittersearch's `gen_params_from_config`. The endpoint is generated
      with `count_bucket` passed as `count_endpoint`, so a truthy bucket
      selects the counts URL. The payload comes from that revision's own
      `gen_rule_payload`, whose date guards are swapped. */
  function GenParamsFromConfigForKind(config: Dict): (r: Result<StreamParams>)
    ensures r.Err? <==> ForKindError(config).Some?
    ensures r.Err? ==> r.error == ForKindError(config).value
    ensures !HasEndpointKeys(config) ==> r == Err(KeyError)
    ensures r.Ok? ==>
      && r.value.endpoint.JStr?
      && HasEndpointKeys(config)
      && Ok(r.value.endpoint.s) == EndpointFromConfig(config["account_type"], config["search_api"],
           config["account_name"], config["endpoint_label"], Truthy(Get(config, "count_bucket")))
      && (Truthy(Get(config, "count_bucket")) ==> HasCountsSegment(r.value.endpoint.s))
      && (!Truthy(Get(config, "count_bucket")) ==> EndsWith(r.value.endpoint.s, ".json"))
      && ValidateCountApi(r.value.rulePayload, r.value.endpoint.s) == Pass
      && "pt_rule" in config
      && config["pt_rule"].JStr?
      && ToInt(Get(config, "max_results")).Ok?
      && GenRulePayloadSwapped(config["pt_rule"].s, ToInt(Get(config, "max_results")).value,
           Get(config, "from_date"), Get(config, "to_date"), Get(config, "count_bucket"))
         == Ok(r.value.rulePayload)
      && ToInt(Get(config, "results_per_file")) == Ok(r.value.resultsPerFile)
      && ToInt(Get(config, "max_tweets")) == Ok(r.value.maxResults)
      && r.value.username == Get(config, "username")
      && r.value.password == Get(config, "password")
      && r.value.bearerToken == Get(config, "bearer_token")
      && r.value.maxPages == Get(config, "max_pages")
  {
    if !HasEndpointKeys(config) then Err(KeyError)
    else
      var bucket := Get(config, "count_bucket");
      var url :- EndpointFromConfig(config["account_type"], config["search_api"], config["account_name"],
                                    config["endpoint_label"], Truthy(bucket));
      if "pt_rule" !in config then Err(KeyError)
      else
        var maxResults :- ToInt(Get(config, "max_results"));
        var rule :- RuleText(config["pt_rule"]);
        var payload :- GenRulePayloadSwapped(rule, maxResults, Get(config, "from_date"), Get(config, "to_date"), bucket);
        var perFile :- ToInt(Get(config, "results_per_file"));
        var maxTweets :- ToInt(Get(config, "max_tweets"));
        Ok(StreamParams(JStr(url), Get(config, "username"), Get(config, "password"),
                        Get(config, "bearer_token"), payload, perFile, maxTweets, Get(config, "max_pages")))
  }
}

=== FILE: credentials.dfy ===
/** Credential resolution of searchtweets/credentials.py: the environment
    renaming of `_load_env_credentials`, the account-type inference and key
    selection of `_parse_credentials`, and the merge precedence of
    `load_credentials`. The environment is a map and the YAML document an
    already parsed map; reading either is outside the model. */
module Credentials {
  import opened Wrappers
  import opened Values
  import opened Text
  import Collections

  const EnvPrefix: string := "SEARCHTWEETS_"

  /** The environment variables `_load_env_credentials` looks at, without
      their common prefix. */
  const EnvSuffixes: seq<string> := ["ENDPOINT", "ACCOUNT", "USERNAME", "PASSWORD", "BEARER_TOKEN", "ACCOUNT_TYPE"]

  /** The credential keys, in the same order. */
  const KeyNames: seq<string> := ["endpoint", "account", "username", "password", "bearer_token", "account_type"]

  /** Every key the environment can contribute. */
  const CredentialKeys: set<string> := {"endpoint", "account", "username", "password", "bearer_token", "account_type"}

  /** The i-th variable, "SEARCHTWEETS_ENDPOINT" to "SEARCHTWEETS_ACCOUNT_TYPE". */
  function EnvVar(i: int): (name: string)
    requires 0 <= i < |EnvSuffixes|
    ensures StartsWith(name, EnvPrefix)
    ensures name[|EnvPrefix|..] == EnvSuffixes[i]
  {
    EnvPrefix + EnvSuffixes[i]
  }

  /** The credential key of an environment variable: the prefix removed and
      the rest lower-cased. */
  function EnvKey(name: string): string
    requires StartsWith(name, EnvPrefix)
  {
    Lower(name[|EnvPrefix|..])
  }

  /** The renaming lower-cases each suffix into its credential key. */
  lemma LoweredSuffixes()
    ensures Lower(EnvSuffixes[0]) == KeyNames[0]
    ensures Lower(EnvSuffixes[1]) == KeyNames[1]
    ensures Lower(EnvSuffixes[2]) == KeyNames[2]
    ensures Lower(EnvSuffixes[3]) == KeyNames[3]
    ensures Lower(EnvSuffixes[4]) == KeyNames[4]
    ensures Lower(EnvSuffixes[5]) == KeyNames[5]
  {
  }

  /** Each variable is renamed to the key in the same position. */
  lemma RenamedKey(i: int)
    requires 0 <= i < |EnvSuffixes|
    ensures EnvKey(EnvVar(i)) == KeyNames[i]
  {
    LoweredSuffixes();
  }

  /** The six variables are different, and so are their six keys. */
  lemma DistinctNames()
    ensures forall i, j :: 0 <= i < j < |EnvSuffixes| ==> KeyNames[i] != KeyNames[j]
    ensures forall i, j :: 0 <= i < j < |EnvSuffixes| ==> EnvVar(i) != EnvVar(j)
  {
    assert forall i, j :: 0 <= i < j < |EnvSuffixes| ==> EnvSuffixes[i] != EnvSuffixes[j];
  }

  /** The keys are exactly the credential keys. */
  lemma KeysAreCredentialKeys()
    ensures forall i :: 0 <= i < |EnvSuffixes| ==> KeyNames[i] in CredentialKeys
    ensures forall k :: k in CredentialKeys ==> exists i :: 0 <= i < |EnvSuffixes| && KeyNames[i] == k
  {
    assert KeyNames[0] == "endpoint" && KeyNames[1] == "account" && KeyNames[2] == "username";
    assert KeyNames[3] == "password" && KeyNames[4] == "bearer_token" && KeyNames[5] == "account_type";
  }

  /** What `_load_env_credentials` has built after the first `n` variables:
      each set variable under its key, the unset and the later ones absent. */
  ghost predicate EnvLoaded(env: map<string, string>, n: int, r: Dict)
    requires 0 <= n <= |EnvSuffixes|
  {
    && r.Keys <= CredentialKeys
    && (forall i :: 0 <= i < n ==> (KeyNames[i] in r <==> EnvVar(i) in env))
    && (forall i :: 0 <= i < n && EnvVar(i) in env ==> r[KeyNames[i]] == JStr(env[EnvVar(i)]))
    && (forall i :: n <= i < |EnvSuffixes| ==> KeyNames[i] !in r)
  }

  /** Looking at the next variable extends what has been built. */
  lemma EnvStep(env: map<string, string>, n: int, earlier: Dict)
    requires 0 < n <= |EnvSuffixes|
    requires EnvLoaded(env, n - 1, earlier)
    ensures var name := EnvVar(n - 1);
      EnvLoaded(env, n, if name in env then earlier[EnvKey(name) := JStr(env[name])] else earlier)
  {
    var name, key := EnvVar(n - 1), KeyNames[n - 1];
    RenamedKey(n - 1);
    assert key in CredentialKeys by { KeysAreCredentialKeys(); }
    if name in env {
      var r := earlier[key := JStr(env[name])];
      DistinctNames();
      assert forall i :: 0 <= i < n - 1 ==> KeyNames[i] != key;
      assert forall i :: n <= i < |EnvSuffixes| ==> KeyNames[i] != key;
      assert forall i :: 0 <= i < n - 1 ==> (KeyNames[i] in r <==> KeyNames[i] in earlier);
    }
  }

  /** `_load_env_credentials` over the first `n` variables. */
  function EnvCredentialsUpTo(env: map<string, string>, n: nat): (r: Dict)
    requires n <= |EnvSuffixes|
    ensures EnvLoaded(env, n, r)
  {
    if n == 0 then map[]
    else
      var name := EnvVar(n - 1);
      var earlier := EnvCredentialsUpTo(env, n - 1);
      EnvStep(env, n, earlier);
      if name in env then earlier[EnvKey(name) := JStr(env[name])] else earlier
  }

  /** `_load_env_credentials`: every set variable under its renamed key,
      unset ones dropped, and nothing else. */
  function LoadEnvCredentials(env: map<string, string>): (r: Dict)
    ensures r.Keys <= CredentialKeys
    ensures forall i :: 0 <= i < |EnvSuffixes| ==> (KeyNames[i] in r <==> EnvVar(i) in env)
    ensures forall i :: 0 <= i < |EnvSuffixes| && EnvVar(i) in env ==> r[KeyNames[i]] == JStr(env[EnvVar(i)])
  {
    EnvCredentialsUpTo(env, |EnvSuffixes|)
  }

  /** The account type `_parse_credentials` settles on: the argument, else
      the stored "account_type", else "premium" when a bearer token is
      present, else "enterprise" when a password is present, else `None`. */
  function ResolveAccountType(creds: Dict, accountType: Json): Json {
    if accountType != JNull then accountType
    else if Get(creds, "account_type") != JNull then Get(creds, "account_type")
    else if Get(creds, "bearer_token") != JNull then JStr("premium")
    else if Get(creds, "password") != JNull then JStr("enterprise")
    else JNull
  }

  const PremiumKeys: set<string> := {"bearer_token", "endpoint"}
  const EnterpriseKeys: set<string> := {"username", "password", "endpoint"}

  /** `_parse_credentials`: the credentials the resolved account type needs,
      and nothing else. An account type other than "premium" or
      "enterprise", or a missing required key, raises `KeyError`. */
  function ParseCredentials(creds: Dict, accountType: Json): (r: Result<Dict>)
    ensures r.Err? ==> r.error == KeyError
    ensures var kind := ResolveAccountType(creds, accountType);
      kind != JStr("premium") && kind != JStr("enterprise") ==> r.Err?
    ensures ResolveAccountType(creds, accountType) == JStr("premium") ==>
      (r.Ok? <==> PremiumKeys <= creds.Keys) && (r.Ok? ==> r.value.Keys == PremiumKeys)
    ensures ResolveAccountType(creds, accountType) == JStr("enterprise") ==>
      (r.Ok? <==> EnterpriseKeys <= creds.Keys) && (r.Ok? ==> r.value.Keys == EnterpriseKeys)
    ensures r.Ok? ==> forall k :: k in r.value ==> k in creds && r.value[k] == creds[k]
  {
    var kind := ResolveAccountType(creds, accountType);
    if kind == JStr("premium") then
      if PremiumKeys <= creds.Keys then
        Ok(map["bearer_token" := creds["bearer_token"], "endpoint" := creds["endpoint"]])
      else Err(KeyError)
    else if kind == JStr("enterprise") then
      if EnterpriseKeys <= creds.Keys then
        Ok(map["username" := creds["username"], "password" := creds["password"], "endpoint" := creds["endpoint"]])
      else Err(KeyError)
    else Err(KeyError)
  }

  /** The explicit argument wins over the stored account type, which wins
      over inference; inference prefers a bearer token to a password, and
      with none of them the call fails. */
  lemma AccountTypePrecedence(creds: Dict, accountType: Json)
    ensures accountType != JNull ==>
      ParseCredentials(creds, accountType) == ParseCredentials(creds["account_type" := accountType], JNull)
    ensures Get(creds, "account_type") == JNull && Get(creds, "bearer_token") != JNull ==>
      ParseCredentials(creds, JNull) == ParseCredentials(creds, JStr("premium"))
    ensures Get(creds, "account_type") == JNull && Get(creds, "bearer_token") == JNull && Get(creds, "password") != JNull ==>
      ParseCredentials(creds, JNull) == ParseCredentials(creds, JStr("enterprise"))
    ensures Get(creds, "account_type") == JNull && Get(creds, "bearer_token") == JNull && Get(creds, "password") == JNull ==>
      ParseCredentials(creds, JNull) == Err(KeyError)
  {
    if accountType != JNull {
      var creds' := creds["account_type" := accountType];
      assert forall k :: k != "account_type" ==> Get(creds', k) == Get(creds, k);
      assert PremiumKeys <= creds.Keys <==> PremiumKeys <= creds'.Keys;
      assert EnterpriseKeys <= creds.Keys <==> EnterpriseKeys <= creds'.Keys;
    }
  }

  const DefaultYamlKey: string := "search_tweets_api"

  /** `_load_yaml_credentials` on a parsed document: the section under the
      key, or `{}` when the key is missing (a missing file reads as an empty
      document). */
  function YamlCredentials(document: map<string, Dict>, yamlKey: Option<string>): (r: Dict)
    ensures var key := if yamlKey.Some? then yamlKey.value else DefaultYamlKey;
      r == (if key in document then document[key] else map[])
  {
    var key := if yamlKey.Some? then yamlKey.value else DefaultYamlKey;
    if key in document then document[key] else map[]
  }

  /** The credentials `load_credentials` hands on, key by key: every key of
      either source, read from the environment when only it has the key or
      when `env_overwrite` is set, and from the YAML section otherwise. */
  function Preferred(yaml: Dict, fromEnv: Dict, envOverwrite: bool): Dict {
    map k | k in yaml.Keys + fromEnv.Keys ::
      if k in fromEnv && (envOverwrite || k !in yaml) then fromEnv[k] else yaml[k]
  }

  /** `load_credentials`: the YAML section and the environment merged, the
      environment winning when `env_overwrite` is set and the YAML file
      otherwise, then parsed for the resolved account type. */
  function LoadCredentials(document: map<string, Dict>, yamlKey: Option<string>, env: map<string, string>,
                           accountType: Json, envOverwrite: bool): (r: Result<Dict>)
    ensures var yaml := YamlCredentials(document, yamlKey);
      var fromEnv := LoadEnvCredentials(env);
      r == ParseCredentials(Preferred(yaml, fromEnv, envOverwrite), accountType)
    ensures var yaml := YamlCredentials(document, yamlKey);
      var fromEnv := LoadEnvCredentials(env);
      r.Ok? ==> forall k :: k in r.value ==>
        && (k in yaml || k in fromEnv)
        && r.value[k] == (if k in fromEnv && (envOverwrite || k !in yaml) then fromEnv[k] else yaml[k])
    ensures r.Err? ==> r.error == KeyError
  {
    var yaml := YamlCredentials(document, yamlKey);
    var fromEnv := LoadEnvCredentials(env);
    var merged := if envOverwrite then Collections.Merge(yaml, fromEnv) else Collections.Merge(fromEnv, yaml);
    assert merged == Preferred(yaml, fromEnv, envOverwrite);
    ParseCredentials(merged, accountType)
  }

  /** When the YAML section and the environment share no key, the
      `env_overwrite` flag makes no difference. */
  lemma OverwriteOnlyMattersForSharedKeys(document: map<string, Dict>, yamlKey: Option<string>,
                                         env: map<string, string>, accountType: Json)
    requires YamlCredentials(document, yamlKey).Keys !! LoadEnvCredentials(env).Keys
    ensures LoadCredentials(document, yamlKey, env, accountType, true)
         == LoadCredentials(document, yamlKey, env, accountType, false)
  {
    PreferredDisjoint(YamlCredentials(document, yamlKey), LoadEnvCredentials(env));
  }

  /** With disjoint sources every key has one provider, whatever the flag. */
  lemma PreferredDisjoint(yaml: Dict, fromEnv: Dict)
    requires yaml.Keys !! fromEnv.Keys
    ensures Preferred(yaml, fromEnv, true) == Preferred(yaml, fromEnv, false)
  {
    var overwrite := Preferred(yaml, fromEnv, true);
    var keep := Preferred(yaml, fromEnv, false);
    forall k | k in yaml.Keys + fromEnv.Keys
      ensures overwrite[k] == keep[k]
    {
    }
    assert overwrite.Keys == keep.Keys;
  }

  /** The documented example: with only the enterprise variables
      (SEARCHTWEETS_ENDPOINT, SEARCHTWEETS_USERNAME, SEARCHTWEETS_PASSWORD)
      set and no YAML section, the enterprise credentials come from the
      environment. */
  lemma EnvironmentOnlyExample(document: map<string, Dict>, endpoint: string, username: string, password: string)
    requires DefaultYamlKey !in document
    ensures var env := map[EnvVar(0) := endpoint, EnvVar(2) := username, EnvVar(3) := password];
      LoadCredentials(document, None, env, JNull, true)
        == Ok(map["username" := JStr(username), "password" := JStr(password), "endpoint" := JStr(endpoint)])
  {
    var env := map[EnvVar(0) := endpoint, EnvVar(2) := username, EnvVar(3) := password];
    var fromEnv := LoadEnvCredentials(env);
    DistinctNames();
    assert EnvVar(1) !in env && EnvVar(4) !in env && EnvVar(5) !in env;
    assert fromEnv.Keys == {"endpoint", "username", "password"};
  }
}

=== FILE: dates.dfy ===
/** `convert_utc_time` (searchtweets/api_utils.py; identical copies in
    twittersearchapi/utils.py and twittersearch/api_utils.py): a date given in
    one of four fixed-width forms is rewritten in the search API's
    `YYYYmmDDHHMM` form. `strptime` and `strftime` are modelled for
    zero-padded fields with four-digit years. */
module Dates {
  import opened Wrappers
  import opened Text

  /** A calendar minute, as `datetime.datetime` holds it. */
  datatype Stamp = Stamp(year: int, month: int, day: int, hour: int, minute: int)

  predicate IsLeap(y: int) {
    y % 4 == 0 && (y % 100 != 0 || y % 400 == 0)
  }

  function DaysIn(y: int, m: int): int {
    if m == 2 then (if IsLeap(y) then 29 else 28)
    else if m == 4 || m == 6 || m == 9 || m == 11 then 30
    else 31
  }

  /** The values `datetime` accepts: years 1 to 9999, real calendar days. */
  predicate Valid(t: Stamp) {
    && 1 <= t.year <= 9999
    && 1 <= t.month <= 12
    && 1 <= t.day <= DaysIn(t.year, t.month)
    && 0 <= t.hour < 24
    && 0 <= t.minute < 60
  }

  function Pow10(w: nat): nat {
    if w == 0 then 1 else 10 * Pow10(w - 1)
  }

  /** `n` written with exactly `w` decimal digits, zero-padded on the left. */
  function Digits(n: nat, w: nat): (s: string)
    requires n < Pow10(w)
    ensures |s| == w && AllDigits(s)
  {
    if w == 0 then ""
    else Digits(n / 10, w - 1) + [('0' as int + n % 10) as char]
  }

  /** Reading back a zero-padded rendering gives the number. */
  lemma {:induction false} DigitsRoundTrip(n: nat, w: nat)
    requires n < Pow10(w)
    ensures DigitsValue(Digits(n, w)) == n
  {
    if w > 0 {
      var s := Digits(n, w);
      DigitsRoundTrip(n / 10, w - 1);
      assert s[..|s| - 1] == Digits(n / 10, w - 1);
    }
  }

  /** `strftime("%Y%m%d%H%M")`. */
  function Format(t: Stamp): (s: string)
    requires Valid(t)
    ensures |s| == 12 && AllDigits(s)
  {
    Digits(t.year, 4) + Digits(t.month, 2) + Digits(t.day, 2) + Digits(t.hour, 2) + Digits(t.minute, 2)
  }

  /** `strptime(s, "%Y%m%d%H%M")` for twelve digits. */
  function ParseCompact(s: string): Option<Stamp> {
    if |s| == 12 && AllDigits(s) then
      var t := Stamp(DigitsValue(s[0..4]), DigitsValue(s[4..6]), DigitsValue(s[6..8]),
                     DigitsValue(s[8..10]), DigitsValue(s[10..12]));
      if Valid(t) then Some(t) else None
    else None
  }

  /** `strptime(s, "%Y-%m-%d %H:%M")` for the sixteen-character form. */
  function ParseDateTime(s: string): Option<Stamp> {
    if |s| == 16 && s[4] == '-' && s[7] == '-' && s[10] == ' ' && s[13] == ':'
       && AllDigits(s[0..4]) && AllDigits(s[5..7]) && AllDigits(s[8..10])
       && AllDigits(s[11..13]) && AllDigits(s[14..16]) then
      var t := Stamp(DigitsValue(s[0..4]), DigitsValue(s[5..7]), DigitsValue(s[8..10]),
                     DigitsValue(s[11..13]), DigitsValue(s[14..16]));
      if Valid(t) then Some(t) else None
    else None
  }

  /** `strptime(s, "%Y-%m-%d")` for the ten-character form: midnight. */
  function ParseDate(s: string): Option<Stamp> {
    if |s| == 10 && s[4] == '-' && s[7] == '-'
       && AllDigits(s[0..4]) && AllDigits(s[5..7]) && AllDigits(s[8..10]) then
      var t := Stamp(DigitsValue(s[0..4]), DigitsValue(s[5..7]), DigitsValue(s[8..10]), 0, 0);
      if Valid(t) then Some(t) else None
    else None
  }

  /** The stamp `convert_utc_time` reads from a non-empty string: without '-'
      or ':' the compact form; otherwise, after every 'T' becomes a space, the
      date-and-time form and, failing that, the date-only form. */
  function Read(s: string): Option<Stamp> {
    if '-' !in s && ':' !in s then ParseCompact(s)
    else
      var s' := if 'T' in s then ReplaceChar(s, 'T', " ") else s;
      var full := ParseDateTime(s');
      if full.Some? then full else ParseDate(s')
  }

  /** `convert_utc_time`: `None` for a missing or empty argument, otherwise the
      date in `YYYYmmDDHHMM` form, or `ValueError` when `strptime` rejects it. */
  function ConvertUtcTime(s: Option<string>): (r: Result<Option<string>>)
    ensures r == Ok(None) <==> s.None? || s.value == ""
    ensures r.Err? ==> r.error == ValueError
    ensures r.Err? <==> s.Some? && s.value != "" && Read(s.value).None?
    ensures r.Ok? && r.value.Some? ==>
      && |r.value.value| == 12
      && AllDigits(r.value.value)
      && Read(s.value) == ParseCompact(r.value.value)
  {
    if s.None? || s.value == "" then Ok(None)
    else
      match Read(s.value)
      case None => Err(ValueError)
      case Some(t) =>
        CompactRoundTrip(t);
        Ok(Some(Format(t)))
  }

  /** The five fields of a compact stamp sit at fixed offsets. */
  lemma FieldsOfFormat(y: string, mo: string, d: string, h: string, mi: string)
    requires |y| == 4 && |mo| == 2 && |d| == 2 && |h| == 2 && |mi| == 2
    ensures var s := y + mo + d + h + mi;
      s[0..4] == y && s[4..6] == mo && s[6..8] == d && s[8..10] == h && s[10..12] == mi
  {
    var ymo := y + mo;
    var ymod := ymo + d;
    var ymodh := ymod + h;
    var s := ymodh + mi;
    AfterPrefix(ymodh, mi);
    assert s[..10] == ymodh;
    AfterPrefix(ymod, h);
    assert ymodh[..8] == ymod;
    AfterPrefix(ymo, d);
    assert ymod[..6] == ymo;
    AfterPrefix(y, mo);
    assert ymo[..4] == y;
    assert s[8..10] == ymodh[8..10];
    assert s[6..8] == ymod[6..8];
    assert s[4..6] == ymo[4..6];
    assert s[0..4] == ymo[0..4];
  }

  /** Parsing a formatted stamp gives the stamp back. */
  lemma CompactRoundTrip(t: Stamp)
    requires Valid(t)
    ensures ParseCompact(Format(t)) == Some(t)
  {
    FieldsOfFormat(Digits(t.year, 4), Digits(t.month, 2), Digits(t.day, 2), Digits(t.hour, 2), Digits(t.minute, 2));
    DigitsRoundTrip(t.year, 4);
    DigitsRoundTrip(t.month, 2);
    DigitsRoundTrip(t.day, 2);
    DigitsRoundTrip(t.hour, 2);
    DigitsRoundTrip(t.minute, 2);
  }

  lemma NoSeparators(s: string)
    requires AllDigits(s)
    ensures '-' !in s && ':' !in s && 'T' !in s
  {
  }

  /** The output of `convert_utc_time` converts to itself: it has no '-' or
      ':', so it is read back with the format it was written with. */
  lemma ConvertIdempotent(s: Option<string>)
    requires ConvertUtcTime(s).Ok? && ConvertUtcTime(s).value.Some?
    ensures var out := ConvertUtcTime(s).value;
      ConvertUtcTime(out) == Ok(out)
  {
    var t := Read(s.value).value;
    var out := Format(t);
    NoSeparators(out);
    CompactRoundTrip(t);
  }

  /** `YYYY-mm-DD<sep>HH:MM` */
  function RenderDateTime(t: Stamp, sep: char): string
    requires Valid(t)
  {
    Digits(t.year, 4) + "-" + Digits(t.month, 2) + "-" + Digits(t.day, 2) + [sep]
      + Digits(t.hour, 2) + ":" + Digits(t.minute, 2)
  }

  /** `YYYY-mm-DD` */
  function RenderDate(t: Stamp): string
    requires Valid(t)
  {
    Digits(t.year, 4) + "-" + Digits(t.month, 2) + "-" + Digits(t.day, 2)
  }

  lemma ParseRenderedDateTime(t: Stamp)
    requires Valid(t)
    ensures ParseDateTime(RenderDateTime(t, ' ')) == Some(t)
  {
    var s := RenderDateTime(t, ' ');
    assert s[0..4] == Digits(t.year, 4);
    assert s[5..7] == Digits(t.month, 2);
    assert s[8..10] == Digits(t.day, 2);
    assert s[11..13] == Digits(t.hour, 2);
    assert s[14..16] == Digits(t.minute, 2);
    DigitsRoundTrip(t.year, 4);
    DigitsRoundTrip(t.month, 2);
    DigitsRoundTrip(t.day, 2);
    DigitsRoundTrip(t.hour, 2);
    DigitsRoundTrip(t.minute, 2);
  }

  lemma ParseRenderedDate(t: Stamp)
    requires Valid(t) && t.hour == 0 && t.minute == 0
    ensures ParseDateTime(RenderDate(t)).None?
    ensures ParseDate(RenderDate(t)) == Some(t)
  {
    var s := RenderDate(t);
    assert s[0..4] == Digits(t.year, 4);
    assert s[5..7] == Digits(t.month, 2);
    assert s[8..10] == Digits(t.day, 2);
    DigitsRoundTrip(t.year, 4);
    DigitsRoundTrip(t.month, 2);
    DigitsRoundTrip(t.day, 2);
  }

  lemma ReadSpaced(t: Stamp)
    requires Valid(t)
    ensures Read(RenderDateTime(t, ' ')) == Some(t)
  {
    var spaced := RenderDateTime(t, ' ');
    assert spaced[4] == '-';
    NoSeparators(Digits(t.year, 4));
    NoSeparators(Digits(t.month, 2));
    NoSeparators(Digits(t.day, 2));
    NoSeparators(Digits(t.hour, 2));
    NoSeparators(Digits(t.minute, 2));
    assert 'T' !in spaced;
    ParseRenderedDateTime(t);
  }

  /** `HH:MM` */
  function TimeOfDay(t: Stamp): string
    requires Valid(t)
  {
    Digits(t.hour, 2) + ":" + Digits(t.minute, 2)
  }

  /** The date-and-time form is the date, the separator and the time. */
  lemma RenderSplit(t: Stamp, sep: char)
    requires Valid(t)
    ensures RenderDateTime(t, sep) == RenderDate(t) + [sep] + TimeOfDay(t)
    ensures 'T' !in RenderDate(t) && 'T' !in TimeOfDay(t)
  {
    NoSeparators(Digits(t.year, 4));
    NoSeparators(Digits(t.month, 2));
    NoSeparators(Digits(t.day, 2));
    NoSeparators(Digits(t.hour, 2));
    NoSeparators(Digits(t.minute, 2));
  }

  /** Replacing the only 'T' of a string replaces just that character. */
  lemma ReplaceLoneTee(front: string, back: string)
    requires 'T' !in front && 'T' !in back
    ensures ReplaceChar(front + "T" + back, 'T', " ") == front + " " + back
  {
    ReplaceAppend(front + "T", back, 'T', " ");
    ReplaceAppend(front, "T", 'T', " ");
    ReplaceAbsent(front, 'T', " ");
    ReplaceAbsent(back, 'T', " ");
  }

  /** Replacing 'T' in the 'T'-separated form gives the space-separated form. */
  lemma TeeToSpace(t: Stamp)
    requires Valid(t)
    ensures ReplaceChar(RenderDateTime(t, 'T'), 'T', " ") == RenderDateTime(t, ' ')
  {
    RenderSplit(t, 'T');
    RenderSplit(t, ' ');
    ReplaceLoneTee(RenderDate(t), TimeOfDay(t));
  }

  lemma ReadTee(t: Stamp)
    requires Valid(t)
    ensures Read(RenderDateTime(t, 'T')) == Some(t)
  {
    var tee := RenderDateTime(t, 'T');
    assert tee[4] == '-' && tee[10] == 'T';
    TeeToSpace(t);
    ParseRenderedDateTime(t);
  }

  lemma ReadDate(t: Stamp)
    requires Valid(t) && t.hour == 0 && t.minute == 0
    ensures Read(RenderDate(t)) == Some(t)
  {
    var date := RenderDate(t);
    assert date[4] == '-';
    NoSeparators(Digits(t.year, 4));
    NoSeparators(Digits(t.month, 2));
    NoSeparators(Digits(t.day, 2));
    assert 'T' !in date;
    ParseRenderedDate(t);
  }

  /** The four documented input forms of one midnight all convert to the same
      `YYYYmmDDHHMM` string; with a time of day, the three forms that carry
      one agree. */
  lemma {:induction false} FormsAgree(t: Stamp)
    requires Valid(t)
    ensures ConvertUtcTime(Some(Format(t))) == Ok(Some(Format(t)))
    ensures ConvertUtcTime(Some(RenderDateTime(t, ' '))) == Ok(Some(Format(t)))
    ensures ConvertUtcTime(Some(RenderDateTime(t, 'T'))) == Ok(Some(Format(t)))
    ensures t.hour == 0 && t.minute == 0 ==> ConvertUtcTime(Some(RenderDate(t))) == Ok(Some(Format(t)))
  {
    NoSeparators(Format(t));
    CompactRoundTrip(t);
    ReadSpaced(t);
    ReadTee(t);
    if t.hour == 0 && t.minute == 0 {
      ReadDate(t);
    }
  }

  /** The zero-padded numbers of the documented dates. */
  lemma YearDigits()
    ensures Digits(2017, 4) == "2017"
  {
  }

  lemma FieldDigits()
    ensures Digits(0, 2) == "00"
    ensures Digits(2, 2) == "02"
    ensures Digits(8, 2) == "08"
    ensures Digits(21, 2) == "21"
  {
  }

  /** The documented examples: all four forms give '201708020000'. */
  lemma DocumentedExamples()
    ensures ConvertUtcTime(Some("201708020000")) == Ok(Some("201708020000"))
    ensures ConvertUtcTime(Some("2017-08-02")) == Ok(Some("201708020000"))
    ensures ConvertUtcTime(Some("2017-08-02 00:00")) == Ok(Some("201708020000"))
    ensures ConvertUtcTime(Some("2017-08-02T00:00")) == Ok(Some("201708020000"))
  {
    var t := Stamp(2017, 8, 2, 0, 0);
    YearDigits();
    FieldDigits();
    assert Format(t) == "201708020000";
    assert RenderDate(t) == "2017-08-02";
    assert RenderDateTime(t, ' ') == "2017-08-02 00:00";
    assert RenderDateTime(t, 'T') == "2017-08-02T00:00";
    FormsAgree(t);
  }
}

=== FILE: endpoints.dfy ===
/** Endpoint URLs: `change_to_count_endpoint` (searchtweets/api_utils.py),
    the counts test of `check_counts` (searchtweets/result_stream.py and both
    twittersearchapi stream classes), `gen_endpoint`
    (twittersearchapi/twitter_search_api.py) and the premium/enterprise
    `gen_endpoint` of twittersearch/api_utils.py. */
module Endpoints {
  import opened Wrappers
  import opened Text

  /** `check_counts`: "counts" is one of the pieces of the URL split on '/'
      and '.'; such a stream hands raw items through untouched. */
  predicate HasCountsToken(url: string) {
    "counts" in SplitOn(url, {'/', '.'})
  }

  /** The test of `validate_count_api`: "counts.json" is a '/'-segment. */
  predicate HasCountsSegment(url: string) {
    "counts.json" in SplitOn(url, {'/'})
  }

  /** The tokens `change_to_count_endpoint` keeps: non-empty and not "https". */
  function Significant(tokens: seq<string>): (r: seq<string>)
    ensures forall i :: 0 <= i < |r| ==> r[i] != "" && r[i] != "https"
    ensures forall i :: 0 <= i < |r| ==> r[i] in tokens
    ensures |r| <= |tokens|
  {
    if |tokens| == 0 then []
    else (if tokens[0] != "" && tokens[0] != "https" then [tokens[0]] else []) + Significant(tokens[1..])
  }

  /** Filtering a concatenation filters each side. */
  lemma {:induction false} SignificantConcat(a: seq<string>, b: seq<string>)
    ensures Significant(a + b) == Significant(a) + Significant(b)
    decreases |a|
  {
    if |a| == 0 {
      assert a + b == b;
    } else {
      assert (a + b)[1..] == a[1..] + b;
      SignificantConcat(a[1..], b);
    }
  }

  /** Tokens that are all significant are kept as they are. */
  lemma {:induction false} SignificantKeeps(a: seq<string>)
    requires forall i :: 0 <= i < |a| ==> a[i] != "" && a[i] != "https"
    ensures Significant(a) == a
    decreases |a|
  {
    if |a| > 0 {
      SignificantKeeps(a[1..]);
      assert a == [a[0]] + a[1..];
    }
  }

  lemma {:induction false} SignificantAppend(ts: seq<string>, t: string)
    requires t != "" && t != "https"
    ensures Significant(ts + [t]) == Significant(ts) + [t]
    decreases |ts|
  {
    if |ts| == 0 {
      assert ts + [t] == [t];
    } else {
      assert (ts + [t])[1..] == ts[1..] + [t];
      SignificantAppend(ts[1..], t);
    }
  }

  /** The URL's tokens on '/' and ':', as `change_to_count_endpoint` filters them. */
  function EndpointTokens(url: string): seq<string> {
    Significant(SplitOn(url, {'/', ':'}))
  }

  /** A token cut at its first '.', as `split(".")[0]` does. */
  function DotStem(token: string): (r: string)
    ensures StartsWith(token, r)
    ensures '.' !in r
  {
    SplitHeadIsPrefix(token, {'.'});
    SplitOn(token, {'.'})[0]
  }

  /** `change_to_count_endpoint`'s criterion: the last token, cut at its first
      '.', is "counts". */
  predicate IsCountEndpoint(url: string) {
    var ts := EndpointTokens(url);
    |ts| > 0 && DotStem(ts[|ts| - 1]) == "counts"
  }

  /** No token of a URL holds '/' or ':'. */
  lemma TokensClean(url: string)
    ensures var ts := EndpointTokens(url);
      forall i, j :: 0 <= i < |ts| && 0 <= j < |ts[i]| ==> ts[i][j] != '/' && ts[i][j] != ':'
  {
    var parts := SplitOn(url, {'/', ':'});
    var ts := EndpointTokens(url);
    forall i, j | 0 <= i < |ts| && 0 <= j < |ts[i]|
      ensures ts[i][j] != '/' && ts[i][j] != ':'
    {
      assert ts[i] in parts;
      var k :| 0 <= k < |parts| && parts[k] == ts[i];
      assert parts[k][j] !in {'/', ':'};
    }
  }

  /** A leading delimiter ends an empty piece. */
  lemma LeadingDelim(c: char, j: string, delims: set<char>)
    requires c in delims
    ensures SplitOn([c] + j, delims) == [""] + SplitOn(j, delims)
  {
    SplitUnfold([c] + j, delims);
    assert ([c] + j)[1..] == j;
  }

  lemma SchemeIsOnePiece()
    ensures SplitOn("https", {'/', ':'}) == ["https"]
  {
    SplitNoDelims("https", {'/', ':'});
  }

  lemma SchemeLiteral(j: string)
    ensures "https://" + j == "https" + [':'] + (['/'] + (['/'] + j))
  {
    assert "https://" == "https" + [':', '/', '/'];
  }

  /** "https://" splits into "https" and two empty pieces before the rest. */
  lemma SchemeSplit(j: string)
    ensures SplitOn("https://" + j, {'/', ':'}) == ["https", "", ""] + SplitOn(j, {'/', ':'})
  {
    var d := {'/', ':'};
    var x1 := ['/'] + j;
    var x2 := ['/'] + x1;
    SchemeLiteral(j);
    LeadingDelim('/', j, d);
    LeadingDelim('/', x1, d);
    SplitAppend("https", ':', x2, d);
    SchemeIsOnePiece();
  }

  /** Joining the parts and "counts.json" with '/' and splitting again on
      '/' and ':' gives them back. */
  lemma SplitCountsJoin(ks: seq<string>)
    requires |ks| >= 1
    requires forall i, j :: 0 <= i < |ks| && 0 <= j < |ks[i]| ==> ks[i][j] != '/' && ks[i][j] != ':'
    ensures SplitOn(Join("/", ks) + "/counts.json", {'/', ':'}) == ks + ["counts.json"]
  {
    var all := ks + ["counts.json"];
    forall i, k | 0 <= i < |all| && 0 <= k < |all[i]|
      ensures all[i][k] !in {'/', ':'}
    {
      if i < |ks| {
        assert all[i] == ks[i];
      }
    }
    JoinSnoc("/", ks, "counts.json");
    assert Join("/", ks) + "/counts.json" == Join(['/'], all);
    SplitJoin(all, '/', {'/', ':'});
  }

  /** Dropping the scheme's pieces and keeping "counts.json". */
  lemma SignificantSchemed(ks: seq<string>)
    ensures Significant(["https", "", ""] + (ks + ["counts.json"])) == Significant(ks) + ["counts.json"]
  {
    var scheme: seq<string> := ["https", "", ""];
    SignificantConcat(scheme, ks + ["counts.json"]);
    SignificantConcat(ks, ["counts.json"]);
    assert Significant(scheme) == [] by {
      assert scheme[1..] == ["", ""] && scheme[1..][1..] == [""] && scheme[1..][1..][1..] == [];
    }
    assert Significant(["counts.json"]) == ["counts.json"] by {
      assert ["counts.json"][1..] == [];
    }
  }

  /** The tokens of "https://" + parts joined by '/' + "/counts.json" are
      the significant parts followed by "counts.json". */
  lemma RewrittenTokens(ks: seq<string>)
    requires |ks| >= 1
    requires forall i, j :: 0 <= i < |ks| && 0 <= j < |ks[i]| ==> ks[i][j] != '/' && ks[i][j] != ':'
    ensures EndpointTokens("https://" + Join("/", ks) + "/counts.json") == Significant(ks) + ["counts.json"]
  {
    var tail := Join("/", ks) + "/counts.json";
    assert "https://" + Join("/", ks) + "/counts.json" == "https://" + tail;
    SchemeSplit(tail);
    SplitCountsJoin(ks);
    SignificantSchemed(ks);
  }

  /** The tokens a rewritten URL should have: the given tokens with the
      last one cut at its first '.' (and dropped if that leaves nothing
      significant), then "counts.json". */
  function CountsTokens(ts: seq<string>): seq<string>
    requires |ts| > 0
  {
    var stem := DotStem(ts[|ts| - 1]);
    ts[..|ts| - 1] + (if stem != "" && stem != "https" then [stem] else []) + ["counts.json"]
  }

  /** The rewritten URL has exactly those tokens. */
  lemma RewriteKeepsTokens(url: string)
    requires |EndpointTokens(url)| > 0
    ensures var ts := EndpointTokens(url);
      EndpointTokens("https://" + Join("/", ts[..|ts| - 1] + [DotStem(ts[|ts| - 1])]) + "/counts.json")
        == CountsTokens(ts)
  {
    var ts := EndpointTokens(url);
    var stem := DotStem(ts[|ts| - 1]);
    var ks := ts[..|ts| - 1] + [stem];
    TokensClean(url);
    forall i, j | 0 <= i < |ks| && 0 <= j < |ks[i]|
      ensures ks[i][j] != '/' && ks[i][j] != ':'
    {
      if i < |ts| - 1 {
        assert ks[i] == ts[i];
      } else {
        assert ks[i] == stem && stem == ts[|ts| - 1][..|stem|];
        assert ks[i][j] == ts[|ts| - 1][j];
      }
    }
    RewrittenTokens(ks);
    SignificantConcat(ts[..|ts| - 1], [stem]);
    SignificantKeeps(ts[..|ts| - 1]);
  }

  /** A URL ending in '/' + stem + '.' + ext splits, on any delimiters
      including '/' and '.', into the pieces of its head, then stem and ext. */
  lemma {:induction false} SplitDottedTail(x: string, stem: string, ext: string, delims: set<char>)
    requires '/' in delims && '.' in delims
    requires forall i :: 0 <= i < |stem| ==> stem[i] !in delims
    requires forall i :: 0 <= i < |ext| ==> ext[i] !in delims
    ensures SplitOn(x + ['/'] + stem + ['.'] + ext, delims) == SplitOn(x, delims) + [stem, ext]
  {
    assert x + ['/'] + stem + ['.'] + ext == x + ['/'] + (stem + ['.'] + ext);
    SplitAppend(x, '/', stem + ['.'] + ext, delims);
    SplitAppend(stem, '.', ext, delims);
    SplitNoDelims(stem, delims);
    SplitNoDelims(ext, delims);
  }

  /** A URL ending in '/' + tail, where tail holds no delimiter, splits
      into the pieces of its head followed by tail. */
  lemma {:induction false} SplitPlainTail(x: string, tail: string, delims: set<char>)
    requires '/' in delims
    requires forall i :: 0 <= i < |tail| ==> tail[i] !in delims
    ensures SplitOn(x + ['/'] + tail, delims) == SplitOn(x, delims) + [tail]
  {
    SplitAppend(x, '/', tail, delims);
    SplitNoDelims(tail, delims);
  }

  /** A '.'-free stem followed by '.' + ext is cut back to the stem. */
  lemma {:induction false} CutAtDot(stem: string, ext: string)
    requires forall i :: 0 <= i < |stem| ==> stem[i] != '.'
    ensures SplitOn(stem + ['.'] + ext, {'.'})[0] == stem
  {
    SplitAppend(stem, '.', ext, {'.'});
    SplitNoDelims(stem, {'.'});
  }

  lemma CountsSuffixIsCount(x: string)
    ensures IsCountEndpoint(x + "/counts.json")
  {
    var tail := "counts" + ['.'] + "json";
    assert x + "/counts.json" == x + ['/'] + tail;
    SplitPlainTail(x, tail, {'/', ':'});
    SignificantAppend(SplitOn(x, {'/', ':'}), tail);
    CutAtDot("counts", "json");
  }

  lemma CountsSuffixSegment(x: string)
    ensures HasCountsSegment(x + "/counts.json")
  {
    assert x + "/counts.json" == x + ['/'] + "counts.json";
    SplitPlainTail(x, "counts.json", {'/'});
  }

  lemma CountsSuffixToken(x: string)
    ensures HasCountsToken(x + "/counts.json")
  {
    assert x + "/counts.json" == x + ['/'] + "counts" + ['.'] + "json";
    SplitDottedTail(x, "counts", "json", {'/', '.'});
  }

  /** Any URL ending in "/counts.json" passes all three counts tests. */
  lemma CountsSuffix(x: string)
    ensures IsCountEndpoint(x + "/counts.json")
    ensures HasCountsSegment(x + "/counts.json")
    ensures HasCountsToken(x + "/counts.json")
  {
    CountsSuffixIsCount(x);
    CountsSuffixSegment(x);
    CountsSuffixToken(x);
  }

  /** The rewritten URL: "https://" + the URL's tokens joined by '/', the
      last one cut at its first '.', + "/counts.json". */
  function CountsUrl(url: string): (r: string)
    requires |EndpointTokens(url)| > 0
    ensures StartsWith(r, "https://")
    ensures EndsWith(r, "/counts.json")
    ensures IsCountEndpoint(r) && HasCountsSegment(r) && HasCountsToken(r)
    ensures EndpointTokens(r) == CountsTokens(EndpointTokens(url))
  {
    var ts := EndpointTokens(url);
    var joined := Join("/", ts[..|ts| - 1] + [DotStem(ts[|ts| - 1])]);
    HttpsCountsFrame(joined);
    CountsSuffix("https://" + joined);
    RewriteKeepsTokens(url);
    "https://" + joined + "/counts.json"
  }

  lemma HttpsCountsFrame(x: string)
    ensures StartsWith("https://" + x + "/counts.json", "https://")
    ensures EndsWith("https://" + x + "/counts.json", "/counts.json")
  {
    var r := "https://" + x + "/counts.json";
    assert r[..|"https://"|] == "https://";
    assert r[|r| - |"/counts.json"|..] == "/counts.json";
  }

  /** `change_to_count_endpoint`: a URL that already ends in a "counts" token
      comes back unchanged; otherwise the URL is rebuilt as "https://" + its
      tokens joined by '/' (the last one cut at its first '.') +
      "/counts.json". A URL with no tokens at all makes `filt_tokens[-1]`
      raise `IndexError`. */
  function ChangeToCountEndpoint(url: string): (r: Result<string>)
    ensures r.Err? <==> EndpointTokens(url) == []
    ensures r.Err? ==> r.error == IndexError
    ensures IsCountEndpoint(url) ==> r == Ok(url)
    ensures r.Ok? ==> IsCountEndpoint(r.value)
    ensures r.Ok? && r.value != url ==>
      && StartsWith(r.value, "https://")
      && EndsWith(r.value, "/counts.json")
      && HasCountsSegment(r.value)
      && HasCountsToken(r.value)
    ensures r.Ok? && !IsCountEndpoint(url) ==> EndpointTokens(r.value) == CountsTokens(EndpointTokens(url))
  {
    var ts := EndpointTokens(url);
    if |ts| == 0 then Err(IndexError)
    else if DotStem(ts[|ts| - 1]) == "counts" then Ok(url)
    else Ok(CountsUrl(url))
  }

  /** Changing to the counts endpoint twice is the same as doing it once. */
  lemma ChangeToCountIdempotent(url: string)
    requires ChangeToCountEndpoint(url).Ok?
    ensures ChangeToCountEndpoint(ChangeToCountEndpoint(url).value) == ChangeToCountEndpoint(url)
  {
  }

  const BaseUrl: string := "https://gnip-api.twitter.com/search/"

  /** A label ending in ".json" is cut at its first '.'. */
  function Stem(endpointLabel: string): (r: string)
    ensures StartsWith(endpointLabel, r)
    ensures EndsWith(endpointLabel, ".json") ==> '.' !in r
    ensures !EndsWith(endpointLabel, ".json") ==> r == endpointLabel
  {
    if EndsWith(endpointLabel, ".json") then DotStem(endpointLabel) else endpointLabel
  }

  /** `_gen_enterprise_endpoint` and the path part of twittersearchapi's
      `gen_endpoint`: BASE_URL + "{api}/accounts/{account_name}/{label}". */
  function EnterpriseEndpoint(api: string, account: string, endpointLabel: string): string {
    BaseUrl + api + "/accounts/" + account + "/" + Stem(endpointLabel)
  }

  /** The data-or-counts suffix appended to an endpoint. */
  function Suffix(countEndpoint: bool): string {
    if countEndpoint then "/counts.json" else ".json"
  }

  /** `r` is `prefix`, then `middle`, then `suffix`. */
  predicate Framed(r: string, prefix: string, middle: string, suffix: string) {
    && |r| == |prefix| + |middle| + |suffix|
    && r[..|prefix|] == prefix
    && r[|prefix|..|r| - |suffix|] == middle
    && r[|r| - |suffix|..] == suffix
  }

  lemma FramedConcat(prefix: string, middle: string, suffix: string)
    ensures Framed(prefix + middle + suffix, prefix, middle, suffix)
  {
    var r := prefix + middle + suffix;
    assert r[..|prefix|] == prefix;
    assert r[|prefix|..|r| - |suffix|] == middle;
    assert r[|r| - |suffix|..] == suffix;
  }

  /** twittersearchapi's `gen_endpoint`: the enterprise URL of the label,
      pointing at the counts API or at the data API. */
  function GenEndpoint(api: string, account: string, endpointLabel: string, countEndpoint: bool): (r: string)
    ensures StartsWith(r, BaseUrl + api + "/accounts/" + account + "/")
    ensures countEndpoint ==> EndsWith(r, "/counts.json")
    ensures !countEndpoint ==> EndsWith(r, ".json")
    ensures Framed(r, BaseUrl + api + "/accounts/" + account + "/", Stem(endpointLabel), Suffix(countEndpoint))
  {
    FramedConcat(BaseUrl + api + "/accounts/" + account + "/", Stem(endpointLabel), Suffix(countEndpoint));
    EnterpriseEndpoint(api, account, endpointLabel) + Suffix(countEndpoint)
  }

  /** A generated counts endpoint is recognised as one by every counts
      test, and by `change_to_count_endpoint`, which leaves it unchanged. */
  lemma GenCountEndpointRecognised(api: string, account: string, endpointLabel: string)
    ensures var r := GenEndpoint(api, account, endpointLabel, true);
      HasCountsSegment(r) && HasCountsToken(r) && ChangeToCountEndpoint(r) == Ok(r)
  {
    CountsSuffix(EnterpriseEndpoint(api, account, endpointLabel));
  }


  /** A '.'-free label and the same label with ".json" name the same endpoint. */
  lemma LabelJsonSuffixIgnored(api: string, account: string, endpointLabel: string, countEndpoint: bool)
    requires forall i :: 0 <= i < |endpointLabel| ==> endpointLabel[i] != '.'
    ensures Stem(endpointLabel + ".json") == endpointLabel
    ensures GenEndpoint(api, account, endpointLabel, countEndpoint) == GenEndpoint(api, account, endpointLabel + ".json", countEndpoint)
  {
    var l := endpointLabel + ".json";
    assert l == endpointLabel + ['.'] + "json";
    assert EndsWith(l, ".json");
    SplitAppend(endpointLabel, '.', "json", {'.'});
    SplitNoDelims(endpointLabel, {'.'});
    assert !EndsWith(endpointLabel, ".json") by {
      if |endpointLabel| >= 5 {
        assert endpointLabel[|endpointLabel| - 5..][0] == endpointLabel[|endpointLabel| - 5];
      }
    }
  }

  const PremiumBaseUrl: string := "https://api.twitter.com/1.1/tweets/search/30day/"

  /** `_gen_premium_endpoint`: the premium URL depends on the label only. */
  function PremiumEndpoint(endpointLabel: string): string {
    PremiumBaseUrl + endpointLabel
  }

  /** twittersearch's `gen_endpoint`: the enterprise or premium URL followed
      by the counts or data suffix; any other kind raises `ValueError`. */
  function GenEndpointForKind(kind: string, api: string, account: string, endpointLabel: string, countEndpoint: bool): (r: Result<string>)
    ensures r.Err? <==> kind != "enterprise" && kind != "premium"
    ensures r.Err? ==> r.error == ValueError
    ensures kind == "enterprise" ==> r == Ok(GenEndpoint(api, account, endpointLabel, countEndpoint))
    ensures kind == "premium" ==> r.Ok? && StartsWith(r.value, PremiumBaseUrl + endpointLabel)
    ensures kind == "premium" ==> r.Ok? && Framed(r.value, PremiumBaseUrl, endpointLabel, Suffix(countEndpoint))
    ensures r.Ok? && countEndpoint ==> EndsWith(r.value, "/counts.json")
    ensures r.Ok? && !countEndpoint ==> EndsWith(r.value, ".json")
  {
    FramedConcat(PremiumBaseUrl, endpointLabel, Suffix(countEndpoint));
    var base :=
      if kind == "enterprise" then Ok(EnterpriseEndpoint(api, account, endpointLabel))
      else if kind == "premium" then Ok(PremiumEndpoint(endpointLabel))
      else Err(ValueError);
    if base.Err? then Err(ValueError)
    else
      Ok(base.value + Suffix(countEndpoint))
  }

  /** A premium endpoint ignores the search API and account name. */
  lemma PremiumIgnoresAccount(api1: string, account1: string, api2: string, account2: string, endpointLabel: string, countEndpoint: bool)
    ensures GenEndpointForKind("premium", api1, account1, endpointLabel, countEndpoint)
         == GenEndpointForKind("premium", api2, account2, endpointLabel, countEndpoint)
  {
  }

  /** The documented label "python.json" names the same endpoints as "python". */
  lemma DocumentedLabelStem(api: string, account: string, countEndpoint: bool)
    ensures Stem("python.json") == "python"
    ensures GenEndpoint(api, account, "python.json", countEndpoint) == GenEndpoint(api, account, "python", countEndpoint)
  {
    assert "python.json" == "python" + ".json";
    LabelJsonSuffixIgnored(api, account, "python", countEndpoint);
  }
}

=== FILE: names.dfy ===
/** `name_munger` of twittersearchapi/utils.py: a file-name prefix built from
    a rule. The rule is taken from a payload dict, from a JSON string that
    mentions "query", or is the string itself; runs of spaces become '_',
    ':' becomes '_', '"' becomes "_Q_", parentheses become "_p_", and the
    first 42 characters are kept, reduced to ASCII. Decoding JSON is a
    parameter of the model. */
module Names {
  import opened Wrappers
  import opened Values
  import opened Text
  import Collections

  /** What `name_munger` is given: a payload dict or a string. */
  datatype RuleInput = RuleDict(payload: Dict) | RuleText(text: string)

  const PrefixLength: nat := 42

  /** The characters that never survive into a file name prefix. */
  predicate Unsafe(c: char) {
    c == ' ' || c == ':' || c == '"' || c == '(' || c == ')'
  }

  /** The number of leading spaces of `s`. */
  function SpaceRun(s: string): (n: nat)
    ensures n <= |s|
    ensures forall i :: 0 <= i < n ==> s[i] == ' '
    ensures n == |s| || s[n] != ' '
  {
    if s != [] && s[0] == ' ' then 1 + SpaceRun(s[1..]) else 0
  }

  /** `re.sub(' +', '_', s)`: each maximal run of spaces becomes one '_'. */
  function SquashSpaces(s: string): (r: string)
    ensures ' ' !in r
    ensures |r| <= |s|
    decreases |s|
  {
    if s == [] then []
    else if s[0] == ' ' then "_" + SquashSpaces(s[SpaceRun(s)..])
    else [s[0]] + SquashSpaces(s[1..])
  }

  /** A string without spaces is left alone. */
  lemma {:induction false} SquashPlain(s: string)
    requires ' ' !in s
    ensures SquashSpaces(s) == s
  {
    if s != [] {
      assert ' ' !in s[1..];
      SquashPlain(s[1..]);
    }
  }

  /** The leading run of a join is that of its first part, unless the run
      crosses the seam. */
  lemma {:induction false} SpaceRunAppend(a: string, b: string)
    requires SpaceRun(a) < |a| || b == [] || b[0] != ' '
    ensures SpaceRun(a + b) == SpaceRun(a)
  {
    if a == [] {
      assert a + b == b;
    } else if a[0] == ' ' {
      assert (a + b)[1..] == a[1..] + b;
      SpaceRunAppend(a[1..], b);
    }
  }

  lemma Associate(x: string, y: string, z: string)
    ensures x + (y + z) == (x + y) + z
  {
  }

  /** Squashing is piecewise across a seam that no run of spaces crosses. */
  lemma {:induction false} SquashAppend(a: string, b: string)
    requires a == [] || b == [] || a[|a| - 1] != ' ' || b[0] != ' '
    ensures SquashSpaces(a + b) == SquashSpaces(a) + SquashSpaces(b)
    decreases |a|, 1
  {
    if a == [] {
      assert a + b == b;
    } else if a[0] == ' ' {
      SquashAppendAtRun(a, b);
    } else {
      SquashAppendAtWord(a, b);
    }
  }

  lemma {:induction false} SquashAppendAtRun(a: string, b: string)
    requires a != [] && a[0] == ' '
    requires b == [] || a[|a| - 1] != ' ' || b[0] != ' '
    ensures SquashSpaces(a + b) == SquashSpaces(a) + SquashSpaces(b)
    decreases |a|, 0
  {
    var k := SpaceRun(a);
    SpaceRunAppend(a, b);
    var rest := a[k..];
    assert (a + b)[0] == ' ' && (a + b)[k..] == rest + b;
    assert rest == [] || b == [] || rest[|rest| - 1] != ' ' || b[0] != ' ';
    calc {
      SquashSpaces(a + b);
      "_" + SquashSpaces(rest + b);
      { SquashAppend(rest, b); }
      "_" + (SquashSpaces(rest) + SquashSpaces(b));
      { Associate("_", SquashSpaces(rest), SquashSpaces(b)); }
      ("_" + SquashSpaces(rest)) + SquashSpaces(b);
    }
  }

  lemma {:induction false} SquashAppendAtWord(a: string, b: string)
    requires a != [] && a[0] != ' '
    requires b == [] || a[|a| - 1] != ' ' || b[0] != ' '
    ensures SquashSpaces(a + b) == SquashSpaces(a) + SquashSpaces(b)
    decreases |a|, 0
  {
    var rest := a[1..];
    assert (a + b)[0] == a[0] && (a + b)[1..] == rest + b;
    calc {
      SquashSpaces(a + b);
      [a[0]] + SquashSpaces(rest + b);
      { SquashAppend(rest, b); }
      [a[0]] + (SquashSpaces(rest) + SquashSpaces(b));
      { Associate([a[0]], SquashSpaces(rest), SquashSpaces(b)); }
      ([a[0]] + SquashSpaces(rest)) + SquashSpaces(b);
    }
  }

  /** A string of spaces is one run. */
  lemma {:induction false} AllSpacesRun(run: string)
    requires forall i :: 0 <= i < |run| ==> run[i] == ' '
    ensures SpaceRun(run) == |run|
  {
    if run != [] {
      AllSpacesRun(run[1..]);
    }
  }

  /** A run of spaces before a word start is one '_'. */
  lemma LeadingRun(run: string, b: string)
    requires |run| >= 1 && forall i :: 0 <= i < |run| ==> run[i] == ' '
    requires b == [] || b[0] != ' '
    ensures SquashSpaces(run + b) == "_" + SquashSpaces(b)
  {
    AllSpacesRun(run);
    SpaceRunAppend(run, b);
    assert (run + b)[0] == ' ' && (run + b)[|run|..] == b;
  }

  /** A run of spaces between a word end and a word start is one '_'. */
  lemma SquashRun(a: string, run: string, b: string)
    requires |run| >= 1 && forall i :: 0 <= i < |run| ==> run[i] == ' '
    requires a == [] || a[|a| - 1] != ' '
    requires b == [] || b[0] != ' '
    ensures SquashSpaces(a + run + b) == SquashSpaces(a) + "_" + SquashSpaces(b)
  {
    Associate(a, run, b);
    LeadingRun(run, b);
    SquashAppend(a, run + b);
    calc {
      SquashSpaces(a + (run + b));
      SquashSpaces(a) + SquashSpaces(run + b);
      SquashSpaces(a) + ("_" + SquashSpaces(b));
      { Associate(SquashSpaces(a), "_", SquashSpaces(b)); }
      SquashSpaces(a) + "_" + SquashSpaces(b);
    }
  }

  /** The replacement of one character. */
  function Escape(c: char): (r: string)
    ensures forall i :: 0 <= i < |r| ==> !Unsafe(r[i]) || r == [c]
  {
    if c == ':' then "_"
    else if c == '"' then "_Q_"
    else if c == '(' || c == ')' then "_p_"
    else [c]
  }

  /** Every character replaced in one pass. */
  function EscapeAll(s: string): (r: string)
    ensures (forall i :: 0 <= i < |s| ==> s[i] != ':' && s[i] != '"' && s[i] != '(' && s[i] != ')') ==> r == s
    ensures ' ' !in s ==> forall i :: 0 <= i < |r| ==> !Unsafe(r[i])
  {
    if s == [] then []
    else Escape(s[0]) + EscapeAll(s[1..])
  }

  /** The four chained `str.replace` calls of the source. */
  function ReplaceUnsafe(s: string): string {
    ReplaceChar(ReplaceChar(ReplaceChar(ReplaceChar(s, ':', "_"), '"', "_Q_"), '(', "_p_"), ')', "_p_")
  }

  /** No replacement introduces a character a later one replaces, so the
      chain is a single pass over the characters. */
  lemma {:induction false} ReplaceChainIsOnePass(s: string)
    ensures ReplaceUnsafe(s) == EscapeAll(s)
  {
    if s != [] {
      ReplaceChainIsOnePass(s[1..]);
      var h := [s[0]];
      assert s == h + s[1..];
      var s1 := ReplaceChar(s, ':', "_");
      ReplaceAppend(h, s[1..], ':', "_");
      var h1 := ReplaceChar(h, ':', "_");
      var t1 := ReplaceChar(s[1..], ':', "_");
      ReplaceAppend(h1, t1, '"', "_Q_");
      var h2 := ReplaceChar(h1, '"', "_Q_");
      var t2 := ReplaceChar(t1, '"', "_Q_");
      ReplaceAppend(h2, t2, '(', "_p_");
      var h3 := ReplaceChar(h2, '(', "_p_");
      var t3 := ReplaceChar(t2, '(', "_p_");
      ReplaceAppend(h3, t3, ')', "_p_");
      HeadEscapes(s[0]);
    }
  }

  /** The chain applied to one character is its escape. */
  lemma HeadEscapes(c: char)
    ensures ReplaceUnsafe([c]) == Escape(c)
  {
    var h := [c];
    if c == ':' {
      assert ReplaceChar(h, ':', "_") == "_";
      ReplaceAbsent("_", '"', "_Q_");
      ReplaceAbsent("_", '(', "_p_");
      ReplaceAbsent("_", ')', "_p_");
    } else if c == '"' {
      ReplaceAbsent(h, ':', "_");
      assert ReplaceChar(h, '"', "_Q_") == "_Q_";
      ReplaceAbsent("_Q_", '(', "_p_");
      ReplaceAbsent("_Q_", ')', "_p_");
    } else if c == '(' {
      ReplaceAbsent(h, ':', "_");
      ReplaceAbsent(h, '"', "_Q_");
      assert ReplaceChar(h, '(', "_p_") == "_p_";
      ReplaceAbsent("_p_", ')', "_p_");
    } else if c == ')' {
      ReplaceAbsent(h, ':', "_");
      ReplaceAbsent(h, '"', "_Q_");
      ReplaceAbsent(h, '(', "_p_");
      assert ReplaceChar(h, ')', "_p_") == "_p_";
    } else {
      ReplaceAbsent(h, ':', "_");
      ReplaceAbsent(h, '"', "_Q_");
      ReplaceAbsent(h, '(', "_p_");
      ReplaceAbsent(h, ')', "_p_");
    }
  }

  /** `.encode("ascii", "ignore").decode()`: non-ASCII characters dropped.
      The NFKD normalisation before it is not modelled. */
  function AsciiPart(s: string): (r: string)
    ensures IsAscii(r) && |r| <= |s|
    ensures IsAscii(s) ==> r == s
    ensures forall i :: 0 <= i < |r| ==> r[i] in s
  {
    if s == [] then []
    else (if s[0] as int < 128 then [s[0]] else []) + AsciiPart(s[1..])
  }

  /** `payload["query"]` as the string `re.sub` needs: `KeyError` when it is
      missing, `TypeError` when it is not a string. */
  function QueryText(payload: Dict): (r: Result<string>)
    ensures r.Err? <==> "query" !in payload || !payload["query"].JStr?
    ensures r.Ok? ==> r.value == payload["query"].s
    ensures r.Err? ==> r.error == (if "query" in payload then TypeError else KeyError)
  {
    if "query" !in payload then Err(KeyError)
    else if !payload["query"].JStr? then Err(TypeError)
    else Ok(payload["query"].s)
  }

  /** The rule `name_munger` works on: a dict's "query"; for a string that
      contains "query" anywhere, the "query" of its JSON decoding (`decode`
      stands for `json.loads` and fails with its `ValueError`); any other
      string as it is. */
  function RuleOf(input: RuleInput, decode: string -> Result<Dict>): (r: Result<string>)
    ensures input.RuleDict? ==> r == QueryText(input.payload)
    ensures input.RuleText? && !Contains(input.text, "query") ==> r == Ok(input.text)
    ensures input.RuleText? && Contains(input.text, "query") ==>
      r == (if decode(input.text).Ok? then QueryText(decode(input.text).value) else Err(decode(input.text).error))
  {
    match input
    case RuleDict(payload) => QueryText(payload)
    case RuleText(text) =>
      if Contains(text, "query") then
        var payload :- decode(text);
        QueryText(payload)
      else Ok(text)
  }

  /** The substituted rule, before truncation. */
  function Substituted(rule: string): string {
    ReplaceUnsafe(SquashSpaces(rule))
  }

  /** The file name prefix of a rule: the first 42 characters of the
      substituted rule with everything but ASCII dropped. NFKD is taken as
      the identity, which it is on ASCII text; a non-ASCII character is
      dropped here where Python may first decompose it, so the length bound
      and the absence of unsafe characters are promised for ASCII rules
      only. */
  function Munge(rule: string): (name: string)
    ensures IsAscii(name)
    ensures IsAscii(rule) ==> |name| <= PrefixLength
    ensures IsAscii(rule) ==> forall i :: 0 <= i < |name| ==> !Unsafe(name[i])
    ensures IsAscii(rule) ==> name == Collections.FirstN(PrefixLength, Substituted(rule))
  {
    var squashed := SquashSpaces(rule);
    ReplaceChainIsOnePass(squashed);
    var escaped := ReplaceUnsafe(squashed);
    var prefix := Collections.FirstN(PrefixLength, escaped);
    assert forall i :: 0 <= i < |prefix| ==> prefix[i] == escaped[i];
    AsciiSurvives(rule);
    AsciiPart(prefix)
  }

  /** `name_munger`. */
  function NameMunger(input: RuleInput, decode: string -> Result<Dict>): (r: Result<string>)
    ensures r.Err? <==> RuleOf(input, decode).Err?
    ensures r.Err? ==> r.error == RuleOf(input, decode).error
    ensures r.Ok? ==> r.value == Munge(RuleOf(input, decode).value)
  {
    var rule :- RuleOf(input, decode);
    Ok(Munge(rule))
  }

  /** Squashing and escaping add only ASCII characters. */
  lemma AsciiSurvives(rule: string)
    ensures IsAscii(rule) ==> IsAscii(Substituted(rule))
  {
    if IsAscii(rule) {
      SquashKeepsAscii(rule);
      ReplaceChainIsOnePass(SquashSpaces(rule));
      EscapeKeepsAscii(SquashSpaces(rule));
    }
  }

  lemma {:induction false} SquashKeepsAscii(s: string)
    requires IsAscii(s)
    ensures IsAscii(SquashSpaces(s))
    decreases |s|
  {
    if s != [] {
      if s[0] == ' ' {
        SquashKeepsAscii(s[SpaceRun(s)..]);
      } else {
        SquashKeepsAscii(s[1..]);
      }
    }
  }

  lemma {:induction false} EscapeKeepsAscii(s: string)
    requires IsAscii(s)
    ensures IsAscii(EscapeAll(s))
  {
    if s != [] {
      EscapeKeepsAscii(s[1..]);
    }
  }

  /** Substitution leaves a rule without unsafe characters alone. */
  lemma SafeSubstituted(rule: string)
    requires forall i :: 0 <= i < |rule| ==> !Unsafe(rule[i])
    ensures Substituted(rule) == rule
  {
    assert ' ' !in rule;
    SquashPlain(rule);
    ReplaceChainIsOnePass(rule);
  }

  /** A string rule that is already safe and short is its own prefix. */
  lemma SafeRuleIsItsOwnName(rule: string, decode: string -> Result<Dict>)
    requires IsAscii(rule) && |rule| <= PrefixLength && !Contains(rule, "query")
    requires forall i :: 0 <= i < |rule| ==> !Unsafe(rule[i])
    ensures NameMunger(RuleText(rule), decode) == Ok(rule)
  {
    SafeSubstituted(rule);
    assert Munge(rule) == Collections.FirstN(PrefixLength, rule);
  }

  /** A dict and the JSON string that decodes to it name the same file. */
  lemma JsonStringLikeDict(text: string, decode: string -> Result<Dict>)
    requires Contains(text, "query") && decode(text).Ok?
    ensures NameMunger(RuleText(text), decode) == NameMunger(RuleDict(decode(text).value), decode)
  {
  }
}

=== FILE: payloads.dfy ===
/** Rule payloads: `gen_rule_payload`, `infer_endpoint` and
    `validate_count_api` (searchtweets/api_utils.py), and the revision of
    `gen_rule_payload` in twittersearch/api_utils.py and
    twittersearchapi/utils.py whose date guards are swapped. A payload is the
    dict before `json.dumps`. */
module Payloads {
  import opened Wrappers
  import opened Values
  import opened Text
  import Dates
  import opened Endpoints

  /** `out` is the `YYYYmmDDHHMM` form of the date written in `v`. */
  predicate Converted(v: Json, out: Json) {
    && v.JStr?
    && out.JStr?
    && |out.s| == 12
    && AllDigits(out.s)
    && Dates.Read(v.s).Some?
    && Dates.Read(v.s) == Dates.ParseCompact(out.s)
  }

  /** `convert_utc_time` applied to a payload argument: a falsy argument
      gives `None`; a date string its compact form, or `ValueError` when
      `strptime` rejects it; any other truthy value is not iterable, so
      `set(datetime_str)` raises `TypeError`. */
  function ConvertArg(v: Json): (r: Result<Json>)
    ensures !Truthy(v) ==> r == Ok(JNull)
    ensures Truthy(v) && r.Ok? ==> Converted(v, r.value)
    ensures r.Err? <==> Truthy(v) && (!v.JStr? || Dates.Read(v.s).None?)
    ensures r.Err? ==> r.error == (if v.JStr? then ValueError else TypeError)
  {
    if !Truthy(v) then Ok(JNull)
    else if !v.JStr? then Err(TypeError)
    else
      match Dates.ConvertUtcTime(Some(v.s))
      case Err(e) => Err(e)
      case Ok(out) => Ok(if out.Some? then JStr(out.value) else JNull)
  }

  /** The count buckets the counts API accepts. */
  predicate ValidBucket(b: Json) {
    b == JStr("day") || b == JStr("hour") || b == JStr("minute")
  }

  /** Every key a generated payload can hold. */
  const PayloadKeys: set<string> := {"query", "maxResults", "toDate", "fromDate", "bucket", "tag"}

  /** The whitespace-collapsed rule under "query". */
  predicate QueryOf(p: Dict, rule: string) {
    && "query" in p
    && p["query"].JStr?
    && Words(p["query"].s) == Words(rule)
    && SingleSpaced(p["query"].s)
  }

  /** The exception `gen_rule_payload` raises first: the end date is
      converted before the start date, and the bucket is checked last. */
  function PayloadError(fromDate: Json, toDate: Json, bucket: Json): Option<PyError> {
    if ConvertArg(toDate).Err? then Some(ConvertArg(toDate).error)
    else if ConvertArg(fromDate).Err? then Some(ConvertArg(fromDate).error)
    else if Truthy(bucket) && !ValidBucket(bucket) then Some(ValueError)
    else None
  }

  /** The payload dict once every argument has been checked: the query,
      then "maxResults" unless a bucket replaces it, each date under its own
      key when its guard holds, and the tag when given. */
  function Assemble(rule: string, maxResults: int, to: Json, from: Json, hasTo: bool, hasFrom: bool,
                    bucket: Json, tag: Json): (p: Dict)
    ensures p.Keys <= PayloadKeys
    ensures QueryOf(p, rule)
    ensures ("maxResults" in p <==> !Truthy(bucket)) && ("maxResults" in p ==> p["maxResults"] == JInt(maxResults))
    ensures ("toDate" in p <==> hasTo) && ("toDate" in p ==> p["toDate"] == to)
    ensures ("fromDate" in p <==> hasFrom) && ("fromDate" in p ==> p["fromDate"] == from)
    ensures ("bucket" in p <==> Truthy(bucket)) && ("bucket" in p ==> p["bucket"] == bucket)
    ensures ("tag" in p <==> Truthy(tag)) && ("tag" in p ==> p["tag"] == tag)
  {
    var base := map["query" := JStr(CollapseWhitespace(rule)), "maxResults" := JInt(maxResults)];
    var withTo := if hasTo then base["toDate" := to] else base;
    var withFrom := if hasFrom then withTo["fromDate" := from] else withTo;
    var withBucket := if Truthy(bucket) then (withFrom - {"maxResults"})["bucket" := bucket] else withFrom;
    if Truthy(tag) then withBucket["tag" := tag] else withBucket
  }

  /** searchtweets' `gen_rule_payload`: the rule with its whitespace
      collapsed, `maxResults`, each given date converted under its own key,
      a valid bucket in place of `maxResults`, and the tag when given. */
  function GenRulePayload(rule: string, resultsPerCall: int, fromDate: Json, toDate: Json, bucket: Json, tag: Json): (r: Result<Dict>)
    ensures r.Err? <==> PayloadError(fromDate, toDate, bucket).Some?
    ensures r.Err? ==> r.error == PayloadError(fromDate, toDate, bucket).value
    ensures r.Ok? ==> var p := r.value;
      && p.Keys <= PayloadKeys
      && QueryOf(p, rule)
      && ("maxResults" in p <==> !Truthy(bucket))
      && ("maxResults" in p ==> p["maxResults"] == JInt(resultsPerCall))
      && ("toDate" in p <==> Truthy(toDate))
      && ("toDate" in p ==> Converted(toDate, p["toDate"]))
      && ("fromDate" in p <==> Truthy(fromDate))
      && ("fromDate" in p ==> Converted(fromDate, p["fromDate"]))
      && ("bucket" in p <==> Truthy(bucket))
      && ("bucket" in p ==> p["bucket"] == bucket && ValidBucket(bucket))
      && ("tag" in p <==> Truthy(tag))
      && ("tag" in p ==> p["tag"] == tag)
  {
    var to :- ConvertArg(toDate);
    var from :- ConvertArg(fromDate);
    if Truthy(bucket) && !ValidBucket(bucket) then Err(ValueError)
    else Ok(Assemble(rule, resultsPerCall, to, from, Truthy(toDate), Truthy(fromDate), bucket, tag))
  }

  /** The exception the swapped revision raises first: `to_date` is
      converted only when `from_date` is truthy, `from_date` only when
      `to_date` is, and the bucket is checked last. */
  function SwappedPayloadError(fromDate: Json, toDate: Json, bucket: Json): Option<PyError> {
    if Truthy(fromDate) && ConvertArg(toDate).Err? then Some(ConvertArg(toDate).error)
    else if Truthy(toDate) && ConvertArg(fromDate).Err? then Some(ConvertArg(fromDate).error)
    else if Truthy(bucket) && !ValidBucket(bucket) then Some(ValueError)
    else None
  }

  /** `gen_rule_payload` as written in twittersearch/api_utils.py and
      twittersearchapi/utils.py: the "toDate" key is guarded by `from_date`
      and the "fromDate" key by `to_date`. So a lone start date is never
      converted (an unreadable one raises nothing), and a lone end date
      makes `convert_utc_time(None)` store `None` under "fromDate". */
  function GenRulePayloadSwapped(rule: string, maxResults: int, fromDate: Json, toDate: Json, bucket: Json): (r: Result<Dict>)
    ensures r.Err? <==> SwappedPayloadError(fromDate, toDate, bucket).Some?
    ensures r.Err? ==> r.error == SwappedPayloadError(fromDate, toDate, bucket).value
    ensures r.Ok? ==> var p := r.value;
      && p.Keys <= PayloadKeys - {"tag"}
      && QueryOf(p, rule)
      && ("toDate" in p <==> Truthy(fromDate))
      && ("fromDate" in p <==> Truthy(toDate))
      && ("toDate" in p && !Truthy(toDate) ==> p["toDate"] == JNull)
      && ("toDate" in p && Truthy(toDate) ==> Converted(toDate, p["toDate"]))
      && ("fromDate" in p && !Truthy(fromDate) ==> p["fromDate"] == JNull)
      && ("fromDate" in p && Truthy(fromDate) ==> Converted(fromDate, p["fromDate"]))
      && ("bucket" in p <==> Truthy(bucket))
      && ("bucket" in p ==> p["bucket"] == bucket && ValidBucket(bucket))
      && ("maxResults" in p <==> !Truthy(bucket))
      && ("maxResults" in p ==> p["maxResults"] == JInt(maxResults))
  {
    var to :- if Truthy(fromDate) then ConvertArg(toDate) else Ok(JNull);
    var from :- if Truthy(toDate) then ConvertArg(fromDate) else Ok(JNull);
    if Truthy(bucket) && !ValidBucket(bucket) then Err(ValueError)
    else Ok(Assemble(rule, maxResults, to, from, Truthy(fromDate), Truthy(toDate), bucket, JNull))
  }

  /** When both dates or neither are given, the swapped guards do no harm:
      the two revisions build the same payload. */
  lemma SwappedAgreesWhenBothOrNeither(rule: string, maxResults: int, fromDate: Json, toDate: Json, bucket: Json)
    requires Truthy(fromDate) == Truthy(toDate)
    ensures GenRulePayloadSwapped(rule, maxResults, fromDate, toDate, bucket)
         == GenRulePayload(rule, maxResults, fromDate, toDate, bucket, JNull)
  {
    if !Truthy(fromDate) {
      assert ConvertArg(fromDate) == Ok(JNull) && ConvertArg(toDate) == Ok(JNull);
    }
  }

  /** With only a start date, the swapped guards drop the start date and
      send `"toDate": null`; the corrected payload keeps the start date and
      has no end date. */
  lemma SwappedDropsStartDate(rule: string, maxResults: int, start: Dates.Stamp)
    requires Dates.Valid(start) && start.hour == 0 && start.minute == 0
    ensures var fromDate := JStr(Dates.RenderDate(start));
      var swapped := GenRulePayloadSwapped(rule, maxResults, fromDate, JNull, JNull);
      var corrected := GenRulePayload(rule, maxResults, fromDate, JNull, JNull, JNull);
      && swapped.Ok? && corrected.Ok?
      && "fromDate" !in swapped.value && swapped.value["toDate"] == JNull
      && "toDate" !in corrected.value
      && corrected.value["fromDate"] == JStr(Dates.Format(start))
  {
    var fromDate := JStr(Dates.RenderDate(start));
    ConvertRenderedDate(start);
    assert GenRulePayloadSwapped(rule, maxResults, fromDate, JNull, JNull)
        == Ok(Assemble(rule, maxResults, JNull, JNull, true, false, JNull, JNull));
    assert GenRulePayload(rule, maxResults, fromDate, JNull, JNull, JNull)
        == Ok(Assemble(rule, maxResults, JNull, JStr(Dates.Format(start)), false, true, JNull, JNull));
  }

  /** With no end date, the swapped revision never converts the start date:
      any start date, readable or not, is accepted and dropped, while the
      corrected revision fails exactly when the start date cannot be read. */
  lemma SwappedSkipsStartDateCheck(rule: string, maxResults: int, fromDate: Json)
    ensures var swapped := GenRulePayloadSwapped(rule, maxResults, fromDate, JNull, JNull);
      && swapped.Ok?
      && "fromDate" !in swapped.value
      && (Truthy(fromDate) ==> swapped.value["toDate"] == JNull)
    ensures GenRulePayload(rule, maxResults, fromDate, JNull, JNull, JNull).Err? <==> ConvertArg(fromDate).Err?
  {
  }

  /** A rendered midnight date converts to its compact form. */
  lemma ConvertRenderedDate(start: Dates.Stamp)
    requires Dates.Valid(start) && start.hour == 0 && start.minute == 0
    ensures Truthy(JStr(Dates.RenderDate(start)))
    ensures ConvertArg(JStr(Dates.RenderDate(start))) == Ok(JStr(Dates.Format(start)))
  {
    Dates.FormsAgree(start);
  }

  /** The concrete input: `from_date="2017-08-21"` and no `to_date`, for
      any rule. */
  lemma SwappedGuardsExample(rule: string)
    ensures var swapped := GenRulePayloadSwapped(rule, 500, JStr("2017-08-21"), JNull, JNull);
      swapped.Ok? && "fromDate" !in swapped.value && swapped.value["toDate"] == JNull
    ensures var corrected := GenRulePayload(rule, 500, JStr("2017-08-21"), JNull, JNull, JNull);
      corrected.Ok? && corrected.value["fromDate"] == JStr("201708210000") && "toDate" !in corrected.value
  {
    var t := Dates.Stamp(2017, 8, 21, 0, 0);
    Dates.YearDigits();
    Dates.FieldDigits();
    assert Dates.RenderDate(t) == "2017-08-21";
    assert Dates.Format(t) == "201708210000";
    SwappedDropsStartDate(rule, 500, t);
  }

  /** `infer_endpoint`: "counts" when the payload carries a truthy bucket. */
  function InferEndpoint(p: Dict): string {
    if Truthy(Get(p, "bucket")) then "counts" else "search"
  }

  /** A generated payload is sent to the counts API exactly when a bucket
      was asked for. */
  lemma InferEndpointOfPayload(rule: string, resultsPerCall: int, fromDate: Json, toDate: Json, bucket: Json, tag: Json)
    requires GenRulePayload(rule, resultsPerCall, fromDate, toDate, bucket, tag).Ok?
    ensures InferEndpoint(GenRulePayload(rule, resultsPerCall, fromDate, toDate, bucket, tag).value)
         == (if Truthy(bucket) then "counts" else "search")
  {
  }

  /** `validate_count_api`: `ValueError` when the payload has a bucket (any
      value but `None`) and no '/'-segment of the endpoint is "counts.json". */
  function ValidateCountApi(p: Dict, endpoint: string): (r: Outcome)
    ensures r.Fail? <==> Get(p, "bucket") != JNull && !HasCountsSegment(endpoint)
    ensures r.Fail? ==> r.error == ValueError
  {
    if !HasCountsSegment(endpoint) && Get(p, "bucket") != JNull then Fail(ValueError) else Pass
  }

  /** Any payload passes against an endpoint rewritten by
      `change_to_count_endpoint` or generated for the counts API; a payload
      without a bucket passes against any endpoint. */
  lemma CountEndpointsValidate(p: Dict, url: string, api: string, account: string, endpointLabel: string)
    ensures ChangeToCountEndpoint(url).Ok? && ChangeToCountEndpoint(url).value != url ==>
      ValidateCountApi(p, ChangeToCountEndpoint(url).value) == Pass
    ensures ValidateCountApi(p, GenEndpoint(api, account, endpointLabel, true)) == Pass
    ensures "bucket" !in p ==> ValidateCountApi(p, url) == Pass
  {
    GenCountEndpointRecognised(api, account, endpointLabel);
  }

  /** `change_to_count_endpoint` keeps a URL whose last token is "counts"
      without ".json", and `validate_count_api` then rejects every payload
      with a bucket: the two tests of a counts URL disagree. */
  lemma CountTestsDisagree(p: Dict, x: string)
    requires "bucket" in p && p["bucket"] != JNull
    requires forall i :: 0 <= i < |x| ==> x[i] != '/' && x[i] != ':' && x[i] != '.'
    requires x != "" && x != "https" && x != "counts.json"
    ensures var url := x + "/counts";
      ChangeToCountEndpoint(url) == Ok(url) && ValidateCountApi(p, url).Fail?
  {
    BareCountsIsCountEndpoint(x);
    BareCountsLacksSegment(x);
  }

  /** The last token of `x/counts` is "counts". */
  lemma BareCountsIsCountEndpoint(x: string)
    requires forall i :: 0 <= i < |x| ==> x[i] != '/' && x[i] != ':' && x[i] != '.'
    requires x != "" && x != "https"
    ensures IsCountEndpoint(x + "/counts")
  {
    var url := x + "/counts";
    assert url == x + ['/'] + "counts";
    SplitPlainTail(x, "counts", {'/', ':'});
    SplitNoDelims(x, {'/', ':'});
    SignificantAppend([x], "counts");
    SplitNoDelims("counts", {'.'});
  }

  /** `x/counts` has no "counts.json" segment. */
  lemma BareCountsLacksSegment(x: string)
    requires forall i :: 0 <= i < |x| ==> x[i] != '/' && x[i] != ':' && x[i] != '.'
    requires x != "counts.json"
    ensures !HasCountsSegment(x + "/counts")
  {
    var url := x + "/counts";
    assert url == x + ['/'] + "counts";
    SplitPlainTail(x, "counts", {'/'});
    SplitNoDelims(x, {'/'});
    assert SplitOn(url, {'/'}) == [x, "counts"];
  }
}

=== FILE: resultstream.dfy ===
/** The pagination engine: `ResultStream` of searchtweets/result_stream.py,
    of twittersearchapi/result_stream.py and of
    twittersearchapi/twitter_search_api.py, with `collect_results`. The three
    classes differ only in a few parameters, gathered in a `Revision`.

    The network is a finite oracle: the stream's n-th request is answered by
    `exchanges[n]`, itself the sequence of attempts the `retry` decorator
    makes for that request. What the caller receives (the yielded items),
    what is sent (one payload per request), and what is left behind (the
    session, the held page, the sleeps) make up a `StreamRun`. */
module ResultStream {
  import opened Wrappers
  import opened Values
  import Collections
  import opened Endpoints
  import opened Payloads
  import opened Sessions
  import opened Retry

  /** A decoded response body: its "results" list (absent: `None`) and its
      "next" token (absent: `None`). */
  datatype Body<T> = Body(results: Option<seq<T>>, next: Json)

  /** The attempts made for one request: `ex(j)` is what the j-th attempt
      answers or raises. */
  type Exchange<T> = nat -> Attempt<Body<T>>

  /** A yielded item: passed through `Tweet`, or handed on as it came (the
      identity transform of `check_counts` and of `tweetify=False`). */
  datatype Emitted<T> = AsTweet(raw: T) | AsIs(raw: T)

  /** What tells the three `ResultStream` classes apart. */
  datatype Revision = Revision(
    requestCap: bool,     // `n_requests <= max_requests` guards paging
    closesSession: bool,  // `stream` closes the session and drops the page
    backoff: Backoff,     // the `retry` sleep schedule
    bearerAuth: bool)     // `make_session` takes a bearer token

  /** searchtweets/result_stream.py. */
  const SearchTweets := Revision(true, true, Quadratic, true)
  /** twittersearchapi/result_stream.py. */
  const TwitterSearchApiStream := Revision(false, true, EverySecond, false)
  /** twittersearchapi/twitter_search_api.py. */
  const TwitterSearchApi := Revision(false, false, EverySecond, false)

  /** The attributes `stream` reads, after the constructor has normalised them. */
  datatype StreamConfig = StreamConfig(
    endpoint: string,
    payload: Dict,
    username: Json,
    password: Json,
    bearerToken: Json,
    maxResults: int,
    tweetify: bool,
    maxRequests: int)

  /** Everything a run of `stream` leaves observable. */
  datatype StreamRun<T> = StreamRun(
    emitted: seq<Emitted<T>>,  // the items yielded, in order
    sent: seq<Dict>,           // the payload of each request, in order
    outcome: Outcome,          // normal end, or the exception that escaped
    session: Option<Session>,  // `self.session`
    sessionsOpened: nat,       // calls of `make_session`
    sessionClosed: bool,       // the last session has been closed
    holdsPage: bool,           // `self.current_tweets` is not `None`
    sleeps: seq<nat>)          // the retry sleeps, in order

  /** `init_session`: the revision's `make_session`. */
  function OpenSession(rev: Revision, cfg: StreamConfig): (r: Result<Session>)
    ensures r.Err? <==> rev.bearerAuth && cfg.password == JNull && cfg.bearerToken == JNull
    ensures r.Err? ==> r.error == KeyError
    ensures !rev.bearerAuth ==> r == Ok(MakeBasicSession(cfg.username, cfg.password))
  {
    if rev.bearerAuth then MakeSession(cfg.username, cfg.password, cfg.bearerToken)
    else Ok(MakeBasicSession(cfg.username, cfg.password))
  }

  /** What one request yields once `retry` is done with it. */
  type Answer<T> = Retried<Body<T>>

  /** The answer to each request of the oracle. */
  function Answers<T>(exchanges: seq<Exchange<T>>, backoff: Backoff): (r: seq<Answer<T>>)
    ensures |r| == |exchanges|
  {
    seq(|exchanges|, i requires 0 <= i < |exchanges| => Retry.Retry(exchanges[i], backoff))
  }

  /** The rest of `execute_request`: the decoded body, or the exception the
      request raised; a body without "results" raises `KeyError` at
      `resp["results"]`. */
  function Page<T>(a: Answer<T>): (r: Result<Body<T>>)
    ensures r.Ok? ==> r.value.results.Some?
  {
    var body :- a.result;
    if body.results.None? then Err(KeyError) else Ok(body)
  }

  /** The items of a page; a failed page contributes none. */
  function PageItems<T>(a: Answer<T>): seq<T> {
    if Page(a).Ok? then Page(a).value.results.value else []
  }

  /** The "next" token of a page, `None` for a failed one. */
  function NextOf<T>(a: Answer<T>): Json {
    if Page(a).Ok? then Page(a).value.next else JNull
  }

  /** The items of the first `n` pages, concatenated in order. */
  function ItemsUpTo<T>(answers: seq<Answer<T>>, n: nat): seq<T>
    requires n <= |answers|
  {
    if n == 0 then [] else ItemsUpTo(answers, n - 1) + PageItems(answers[n - 1])
  }

  /** The retry sleeps of the first `n` requests, in order. */
  function SleepsUpTo<T>(answers: seq<Answer<T>>, n: nat): seq<nat>
    requires n <= |answers|
  {
    if n == 0 then [] else SleepsUpTo(answers, n - 1) + answers[n - 1].sleeps
  }

  /** The paging test after the i-th page (from 0): the page arrived, its
      "next" is truthy, fewer than `max_results` items have been yielded, and
      in searchtweets `n_requests` (now i + 1) is at most `max_requests`. */
  predicate Continues<T>(rev: Revision, cfg: StreamConfig, answers: seq<Answer<T>>, i: nat)
    requires i < |answers|
  {
    && Page(answers[i]).Ok?
    && Truthy(NextOf(answers[i]))
    && |Collections.FirstN(cfg.maxResults, ItemsUpTo(answers, i + 1))| < cfg.maxResults
    && (rev.requestCap ==> i + 1 <= cfg.maxRequests)
  }

  /** The stream ends within the oracle: some page stops it. */
  predicate Terminates<T>(rev: Revision, cfg: StreamConfig, answers: seq<Answer<T>>) {
    exists k :: 0 <= k < |answers| && !Continues(rev, cfg, answers, k)
  }

  /** `k` requests are made: every page before the k-th continues the
      stream and the k-th stops it. */
  predicate StopsAt<T>(rev: Revision, cfg: StreamConfig, answers: seq<Answer<T>>, k: nat) {
    && 1 <= k <= |answers|
    && (forall i :: 0 <= i < k - 1 ==> Continues(rev, cfg, answers, i))
    && !Continues(rev, cfg, answers, k - 1)
  }

  /** The number of requests of a stream started at page `i`: one more than
      the index of the first page from `i` on that stops it. */
  function RequestsFrom<T>(rev: Revision, cfg: StreamConfig, answers: seq<Answer<T>>, i: nat): (k: nat)
    requires i < |answers|
    requires exists j :: i <= j < |answers| && !Continues(rev, cfg, answers, j)
    ensures i < k <= |answers|
    ensures forall j :: i <= j < k - 1 ==> Continues(rev, cfg, answers, j)
    ensures !Continues(rev, cfg, answers, k - 1)
    decreases |answers| - i
  {
    if !Continues(rev, cfg, answers, i) then i + 1
    else RequestsFrom(rev, cfg, answers, i + 1)
  }

  /** The number of requests a terminating stream makes. */
  function Requests<T>(rev: Revision, cfg: StreamConfig, answers: seq<Answer<T>>): (k: nat)
    requires Terminates(rev, cfg, answers)
    ensures StopsAt(rev, cfg, answers, k)
  {
    RequestsFrom(rev, cfg, answers, 0)
  }

  /** The stop is unique: `Requests` is the only count `StopsAt` admits. */
  lemma StopsAtUnique<T>(rev: Revision, cfg: StreamConfig, answers: seq<Answer<T>>, k: nat)
    requires StopsAt(rev, cfg, answers, k)
    ensures Terminates(rev, cfg, answers)
    ensures k == Requests(rev, cfg, answers)
  {
  }

  /** `execute_request` refreshes the session before the request made when
      `n_requests` is a positive multiple of 20 (the test `n > 1` excludes 0). */
  predicate Refreshes(n: nat) {
    n % 20 == 0 && n > 1
  }

  /** The refreshes before the first `n` requests. */
  function RefreshesBefore(n: nat): nat {
    if n == 0 then 0 else RefreshesBefore(n - 1) + (if Refreshes(n - 1) then 1 else 0)
  }

  /** One session per 20 requests: after `n` requests, `n - 1` div 20 refreshes. */
  lemma {:induction false} RefreshCount(n: nat)
    requires n >= 1
    ensures RefreshesBefore(n) == (n - 1) / 20
  {
    if n > 1 {
      RefreshCount(n - 1);
    }
  }

  /** The item transform of a yielded item. */
  function Mark<T>(x: T, asIs: bool): Emitted<T> {
    if asIs then AsIs(x) else AsTweet(x)
  }

  /** The items as yielded, in order. */
  function Tag<T>(xs: seq<T>, asIs: bool): (r: seq<Emitted<T>>)
    ensures |r| == |xs|
    ensures forall i :: 0 <= i < |xs| ==> r[i] == Mark(xs[i], asIs) && r[i].raw == xs[i]
  {
    seq(|xs|, i requires 0 <= i < |xs| => Mark(xs[i], asIs))
  }

  /** `check_counts` together with `tweetify`: items go through `Tweet` only
      when tweetify is set and "counts" is not a '/'- or '.'-token of the
      endpoint. */
  predicate PassesThrough(cfg: StreamConfig) {
    !cfg.tweetify || HasCountsToken(cfg.endpoint)
  }

  /** Below the cap, one more item is yielded as it is. */
  lemma FirstNExtend<T>(n: int, xs: seq<T>, x: T)
    requires |Collections.FirstN(n, xs)| < n
    ensures Collections.FirstN(n, xs + [x]) == Collections.FirstN(n, xs) + [x]
  {
  }

  /** At the cap, further items change nothing. */
  lemma FirstNSaturated<T>(n: int, xs: seq<T>, ys: seq<T>)
    requires |Collections.FirstN(n, xs)| >= n
    ensures Collections.FirstN(n, xs + ys) == Collections.FirstN(n, xs)
  {
    if n > 0 {
      assert (xs + ys)[..n] == xs[..n];
    }
  }

  /** A longer input gives a longer (or equal) truncation. */
  lemma FirstNMonotone<T>(n: int, xs: seq<T>, ys: seq<T>)
    requires xs <= ys
    ensures Collections.FirstN(n, xs) <= Collections.FirstN(n, ys)
  {
  }

  /** Tagging one more item appends its mark. */
  lemma TagAppend<T>(xs: seq<T>, x: T, asIs: bool)
    ensures Tag(xs + [x], asIs) == Tag(xs, asIs) + [Mark(x, asIs)]
  {
  }

  /** One item of a page yielded below the cap. */
  lemma EmitOne<T>(n: int, seen: seq<T>, page: seq<T>, i: nat, taken: seq<T>, asIs: bool)
    requires i < |page| && taken == Collections.FirstN(n, seen + page[..i]) && |taken| < n
    ensures taken + [page[i]] == Collections.FirstN(n, seen + page[..i + 1])
    ensures Tag(taken + [page[i]], asIs) == Tag(taken, asIs) + [Mark(page[i], asIs)]
  {
    FirstNExtend(n, seen + page[..i], page[i]);
    assert seen + page[..i + 1] == (seen + page[..i]) + [page[i]];
    TagAppend(taken, page[i], asIs);
  }

  /** The inner `for` loop of `stream`: yield the page's items one by one
      while fewer than `max_results` have been yielded. */
  method EmitPage<T>(page: seq<T>, asIs: bool, maxResults: int, emitted: seq<Emitted<T>>, ghost seen: seq<T>)
    returns (out: seq<Emitted<T>>)
    requires emitted == Tag(Collections.FirstN(maxResults, seen), asIs)
    ensures out == Tag(Collections.FirstN(maxResults, seen + page), asIs)
  {
    out := emitted;
    var totalResults := |emitted|;
    ghost var taken := Collections.FirstN(maxResults, seen);
    assert seen + page[..0] == seen;
    var i := 0;
    while i < |page|
      invariant 0 <= i <= |page|
      invariant taken == Collections.FirstN(maxResults, seen + page[..i])
      invariant out == Tag(taken, asIs)
      invariant totalResults == |taken|
    {
      if totalResults >= maxResults {
        FirstNSaturated(maxResults, seen + page[..i], page[i..]);
        assert seen + page[..i] + page[i..] == seen + page;
        return;
      }
      EmitOne(maxResults, seen, page, i, taken, asIs);
      out := out + [Mark(page[i], asIs)];
      taken := taken + [page[i]];
      totalResults := totalResults + 1;
      i := i + 1;
    }
    assert page[..i] == page;
  }

  /** Merging `{"next": token}` replaces exactly the "next" key. */
  lemma MergeNext(payload: Dict, token: Json)
    ensures Collections.Merge(payload, map["next" := token]) == payload["next" := token]
  {
    var m := Collections.Merge(payload, map["next" := token]);
    assert m.Keys == payload["next" := token].Keys;
  }

  /** The payload of the i-th request: the original one, with "next" set to
      the token of the page before from the second request on. */
  function PayloadFor<T>(cfg: StreamConfig, answers: seq<Answer<T>>, i: nat): (p: Dict)
    requires i < |answers|
    ensures forall k :: k != "next" && k in cfg.payload ==> k in p && p[k] == cfg.payload[k]
    ensures forall k :: k in p && k != "next" ==> k in cfg.payload
  {
    if i == 0 then cfg.payload else cfg.payload["next" := NextOf(answers[i - 1])]
  }

  /** What the paging loop has produced: the items yielded, the payloads
      sent, the retry sleeps, and the number of sessions made. */
  datatype Progress<T> = Progress(emitted: seq<Emitted<T>>, sent: seq<Dict>, sleeps: seq<nat>, sessions: nat)

  /** `p` is what the first `n` requests produce. */
  ghost predicate Reached<T>(rev: Revision, cfg: StreamConfig, answers: seq<Answer<T>>, asIs: bool, n: nat, p: Progress<T>)
    requires n <= |answers|
  {
    && |p.sent| == n
    && (forall i :: 0 <= i < n ==> p.sent[i] == PayloadFor(cfg, answers, i))
    && p.emitted == Tag(Collections.FirstN(cfg.maxResults, ItemsUpTo(answers, n)), asIs)
    && p.sleeps == SleepsUpTo(answers, n)
    && p.sessions == 1 + RefreshesBefore(n)
  }

  /** One `execute_request` and its inner loop extend the progress by one
      request. */
  lemma Advance<T>(rev: Revision, cfg: StreamConfig, answers: seq<Answer<T>>, asIs: bool, n: nat, p: Progress<T>, q: Progress<T>)
    requires n < |answers|
    requires Reached(rev, cfg, answers, asIs, n, p)
    requires q.emitted == Tag(Collections.FirstN(cfg.maxResults, ItemsUpTo(answers, n) + PageItems(answers[n])), asIs)
    requires q.sent == p.sent + [PayloadFor(cfg, answers, n)]
    requires q.sleeps == p.sleeps + answers[n].sleeps
    requires q.sessions == p.sessions + (if Refreshes(n) then 1 else 0)
    ensures Reached(rev, cfg, answers, asIs, n + 1, q)
  {
  }

  /** The source's paging test, on its counters, is `Continues`. */
  lemma PagingTest<T>(rev: Revision, cfg: StreamConfig, answers: seq<Answer<T>>, asIs: bool, n: nat, q: Progress<T>)
    requires n < |answers|
    requires Page(answers[n]).Ok?
    requires Reached(rev, cfg, answers, asIs, n + 1, q)
    ensures Continues(rev, cfg, answers, n) <==>
      && Truthy(Page(answers[n]).value.next)
      && |q.emitted| < cfg.maxResults
      && (!rev.requestCap || n + 1 <= cfg.maxRequests)
  {
  }

  /** Paging merges the page's token into the payload just sent. */
  lemma PayloadStep<T>(cfg: StreamConfig, answers: seq<Answer<T>>, n: nat)
    requires n + 1 < |answers|
    requires Page(answers[n]).Ok?
    ensures Collections.Merge(PayloadFor(cfg, answers, n), map["next" := Page(answers[n]).value.next])
         == PayloadFor(cfg, answers, n + 1)
  {
    var next := Page(answers[n]).value.next;
    MergeNext(PayloadFor(cfg, answers, n), next);
    if n > 0 {
      assert cfg.payload["next" := NextOf(answers[n - 1])]["next" := next] == cfg.payload["next" := next];
    }
  }

  /** One pass of the paging loop: `execute_request` for the n-th request
      (refresh, request with retries, decode), the inner `for` loop, and the
      paging test `go`; `failure` is the exception the request raised. */
  method Step<T>(rev: Revision, cfg: StreamConfig, answers: seq<Answer<T>>, asIs: bool, n: nat, p: Progress<T>,
                 payload: Dict, ghost stop: nat)
    returns (q: Progress<T>, nextPayload: Dict, go: bool, failure: Option<PyError>)
    requires n <= stop < |answers| && !Continues(rev, cfg, answers, stop)
    requires Reached(rev, cfg, answers, asIs, n, p)
    requires payload == PayloadFor(cfg, answers, n)
    ensures Reached(rev, cfg, answers, asIs, n + 1, q)
    ensures go <==> Continues(rev, cfg, answers, n)
    ensures go ==> n < stop && nextPayload == PayloadFor(cfg, answers, n + 1)
    ensures failure == (if Page(answers[n]).Err? then Some(Page(answers[n]).error) else None)
  {
    var sessions := if n % 20 == 0 && n > 1 then p.sessions + 1 else p.sessions;
    var retried := answers[n];
    var page := Page(retried);
    if page.Err? {
      assert ItemsUpTo(answers, n) + PageItems(answers[n]) == ItemsUpTo(answers, n);
      q := Progress(p.emitted, p.sent + [payload], p.sleeps + retried.sleeps, sessions);
      Advance(rev, cfg, answers, asIs, n, p, q);
      return q, payload, false, Some(page.error);
    }
    q, nextPayload, go := StepPage(rev, cfg, answers, asIs, n, p, payload, sessions, stop);
    failure := None;
  }

  /** The rest of `Step` for a decoded page: its items are yielded, and the
      paging test decides whether the next payload is sent. */
  method StepPage<T>(rev: Revision, cfg: StreamConfig, answers: seq<Answer<T>>, asIs: bool, n: nat, p: Progress<T>,
                     payload: Dict, sessions: nat, ghost stop: nat)
    returns (q: Progress<T>, nextPayload: Dict, go: bool)
    requires n <= stop < |answers| && !Continues(rev, cfg, answers, stop)
    requires Reached(rev, cfg, answers, asIs, n, p)
    requires payload == PayloadFor(cfg, answers, n)
    requires Page(answers[n]).Ok?
    requires sessions == (if n % 20 == 0 && n > 1 then p.sessions + 1 else p.sessions)
    ensures Reached(rev, cfg, answers, asIs, n + 1, q)
    ensures go <==> Continues(rev, cfg, answers, n)
    ensures go ==> n < stop && nextPayload == PayloadFor(cfg, answers, n + 1)
  {
    var page := Page(answers[n]).value;
    var next := page.next;
    var emitted := EmitPage(page.results.value, asIs, cfg.maxResults, p.emitted, ItemsUpTo(answers, n));
    q := Progress(emitted, p.sent + [payload], p.sleeps + answers[n].sleeps, sessions);
    Advance(rev, cfg, answers, asIs, n, p, q);
    PagingTest(rev, cfg, answers, asIs, n, q);
    go := Truthy(next) && |emitted| < cfg.maxResults && (!rev.requestCap || n + 1 <= cfg.maxRequests);
    nextPayload := payload;
    if go {
      PayloadStep(cfg, answers, n);
      nextPayload := Collections.Merge(payload, map["next" := next]);
    }
  }

  /** The paging loop of `stream`: the number of requests `k`, what they
      produced, and the exception of the k-th request if it raised one. */
  method Pages<T>(rev: Revision, cfg: StreamConfig, answers: seq<Answer<T>>, asIs: bool)
    returns (k: nat, p: Progress<T>, failure: Option<PyError>)
    requires Terminates(rev, cfg, answers)
    ensures StopsAt(rev, cfg, answers, k)
    ensures Reached(rev, cfg, answers, asIs, k, p)
    ensures failure == (if Page(answers[k - 1]).Err? then Some(Page(answers[k - 1]).error) else None)
  {
    p := Progress([], [], [], 1);
    var payload := cfg.payload;
    ghost var stop :| 0 <= stop < |answers| && !Continues(rev, cfg, answers, stop);
    var n := 0;
    while true
      invariant n <= stop < |answers|
      invariant forall i :: 0 <= i < n ==> Continues(rev, cfg, answers, i)
      invariant Reached(rev, cfg, answers, asIs, n, p)
      invariant payload == PayloadFor(cfg, answers, n)
      decreases |answers| - n
    {
      var q, nextPayload, go, raised := Step(rev, cfg, answers, asIs, n, p, payload, stop);
      if !go {
        return n + 1, q, raised;
      }
      p, payload, n := q, nextPayload, n + 1;
    }
  }

  /** `stream` run to its end, or to the exception that escapes it.

      searchtweets' `make_session` may raise `KeyError` before any request.
      Otherwise exactly `Requests` requests are made, the i-th with
      `PayloadFor(i)`; the yielded items are the concatenated pages cut to
      `max_results`; the exception of the last request, if any, escapes,
      leaving the session open; a normal end closes it in the revisions that
      do so. */
  method Stream<T>(rev: Revision, cfg: StreamConfig, exchanges: seq<Exchange<T>>) returns (run: StreamRun<T>)
    requires Terminates(rev, cfg, Answers(exchanges, rev.backoff))
    ensures OpenSession(rev, cfg).Err? ==>
      run == StreamRun([], [], Fail(OpenSession(rev, cfg).error), None, 0, false, false, [])
    ensures OpenSession(rev, cfg).Ok? ==>
      var answers := Answers(exchanges, rev.backoff);
      var k := Requests(rev, cfg, answers);
      && |run.sent| == k
      && (forall i :: 0 <= i < k ==> run.sent[i] == PayloadFor(cfg, answers, i))
      && run.emitted == Tag(Collections.FirstN(cfg.maxResults, ItemsUpTo(answers, k)), PassesThrough(cfg))
      && (Page(answers[k - 1]).Err? ==> run.outcome == Fail(Page(answers[k - 1]).error))
      && (Page(answers[k - 1]).Ok? ==> run.outcome == Pass)
      && run.session == Some(OpenSession(rev, cfg).value)
      && run.sessionsOpened == 1 + RefreshesBefore(k)
      && run.sessionClosed == (rev.closesSession && run.outcome.Pass?)
      && run.holdsPage == (if run.outcome.Pass? then !rev.closesSession else k >= 2)
      && run.sleeps == SleepsUpTo(answers, k)
  {
    var made := OpenSession(rev, cfg);
    if made.Err? {
      return StreamRun([], [], Fail(made.error), None, 0, false, false, []);
    }
    // every request goes through `retry`
    var answers := Answers(exchanges, rev.backoff);
    var k, p, failure := Pages(rev, cfg, answers, PassesThrough(cfg));
    StopsAtUnique(rev, cfg, answers, k);
    if failure.Some? {
      run := StreamRun(p.emitted, p.sent, Fail(failure.value), Some(made.value), p.sessions, false, k >= 2, p.sleeps);
    } else {
      // `self.current_tweets = None` and `self.session.close()`, where the revision does so
      run := StreamRun(p.emitted, p.sent, Pass, Some(made.value), p.sessions, rev.closesSession, !rev.closesSession, p.sleeps);
    }
  }

  /** The items yielded never exceed `max_results`, and each further
      request can only extend them: `total_results` never decreases. */
  lemma {:induction false} ItemsGrow<T>(answers: seq<Answer<T>>, m: nat, n: nat)
    requires m <= n <= |answers|
    ensures ItemsUpTo(answers, m) <= ItemsUpTo(answers, n)
    decreases n - m
  {
    if m < n {
      ItemsGrow(answers, m, n - 1);
    }
  }

  lemma EmittedGrow<T>(cfg: StreamConfig, answers: seq<Answer<T>>, asIs: bool, m: nat, n: nat)
    requires m <= n <= |answers|
    ensures Tag(Collections.FirstN(cfg.maxResults, ItemsUpTo(answers, m)), asIs)
         <= Tag(Collections.FirstN(cfg.maxResults, ItemsUpTo(answers, n)), asIs)
    ensures |Tag(Collections.FirstN(cfg.maxResults, ItemsUpTo(answers, n)), asIs)| <= if cfg.maxResults < 0 then 0 else cfg.maxResults
  {
    ItemsGrow(answers, m, n);
    FirstNMonotone(cfg.maxResults, ItemsUpTo(answers, m), ItemsUpTo(answers, n));
  }

  /** A page without a truthy "next" ends the stream. */
  lemma StopsWithoutNext<T>(rev: Revision, cfg: StreamConfig, answers: seq<Answer<T>>, i: nat, k: nat)
    requires i < |answers| && !Truthy(NextOf(answers[i]))
    requires StopsAt(rev, cfg, answers, k)
    ensures k <= i + 1
  {
    assert i < k - 1 ==> Continues(rev, cfg, answers, i);
  }

  /** With the request cap, at most `max(1, max_requests + 1)` requests are
      made: `n_requests <= max_requests` lets one more through than the
      "hard cutoff" the class documents. */
  lemma RequestCapBound<T>(rev: Revision, cfg: StreamConfig, answers: seq<Answer<T>>, k: nat)
    requires rev.requestCap && StopsAt(rev, cfg, answers, k)
    ensures k <= if cfg.maxRequests < 0 then 1 else cfg.maxRequests + 1
  {
    if k >= 2 {
      assert Continues(rev, cfg, answers, k - 2);
    }
  }

  /** A page before the last that fills less than `max_results` leaves the
      gathered items short of it. */
  lemma ShortOfMax<T>(cfg: StreamConfig, answers: seq<Answer<T>>, i: nat)
    requires i < |answers| && |ItemsUpTo(answers, |answers|)| < cfg.maxResults
    ensures |Collections.FirstN(cfg.maxResults, ItemsUpTo(answers, i + 1))| < cfg.maxResults
  {
    ItemsGrow(answers, i + 1, |answers|);
  }

  /** The bound is reached: against a server that always has a next page and
      never fills `max_results`, the capped stream makes exactly
      `max_requests + 1` requests. */
  lemma CapAllowsOneExtraRequest<T>(rev: Revision, cfg: StreamConfig, answers: seq<Answer<T>>)
    requires rev.requestCap && 0 <= cfg.maxRequests < |answers|
    requires forall i :: 0 <= i < |answers| ==> Page(answers[i]).Ok? && Truthy(NextOf(answers[i]))
    requires |ItemsUpTo(answers, |answers|)| < cfg.maxResults
    ensures Terminates(rev, cfg, answers)
    ensures Requests(rev, cfg, answers) == cfg.maxRequests + 1
  {
    forall i | 0 <= i < cfg.maxRequests
      ensures Continues(rev, cfg, answers, i)
    {
      ShortOfMax(cfg, answers, i);
    }
    ShortOfMax(cfg, answers, cfg.maxRequests);
    StopsAtUnique(rev, cfg, answers, cfg.maxRequests + 1);
  }

  /** Two runs whose requests end alike, whatever their sleeps. */
  ghost predicate SameResults<T>(a: seq<Answer<T>>, b: seq<Answer<T>>) {
    |a| == |b| && forall i :: 0 <= i < |a| ==> a[i].result == b[i].result
  }

  /** Pages, and so the items gathered, depend only on each request's end. */
  lemma {:induction false} SameResultsSameItems<T>(a: seq<Answer<T>>, b: seq<Answer<T>>, n: nat)
    requires SameResults(a, b) && n <= |a|
    ensures ItemsUpTo(a, n) == ItemsUpTo(b, n)
  {
    if n > 0 {
      SameResultsSameItems(a, b, n - 1);
      assert Page(a[n - 1]) == Page(b[n - 1]);
    }
  }

  /** The backoff schedule leaves every request's end unchanged. */
  lemma BackoffKeepsResults<T>(exchanges: seq<Exchange<T>>)
    ensures SameResults(Answers(exchanges, Quadratic), Answers(exchanges, EverySecond))
  {
    forall i | 0 <= i < |exchanges|
      ensures Answers(exchanges, Quadratic)[i].result == Answers(exchanges, EverySecond)[i].result
    {
      BackoffOnlyChangesSleeps(exchanges[i]);
    }
  }

  /** Where the request cap cannot bite, runs with the same request ends
      continue after the same pages in all three revisions. */
  lemma SameResultsSamePaging<T>(cfg: StreamConfig, a: seq<Answer<T>>, b: seq<Answer<T>>, i: nat)
    requires SameResults(a, b) && cfg.maxRequests >= |a| && i < |a|
    ensures Continues(SearchTweets, cfg, a, i) <==> Continues(TwitterSearchApiStream, cfg, b, i)
    ensures Continues(TwitterSearchApiStream, cfg, b, i) <==> Continues(TwitterSearchApi, cfg, b, i)
  {
    SameResultsSameItems(a, b, i + 1);
    assert Page(a[i]) == Page(b[i]);
  }

  /** So the searchtweets stream and the twittersearchapi streams make the
      same requests and yield the same items, the backoff aside. */
  lemma CapIsTheOnlyDifference<T>(cfg: StreamConfig, exchanges: seq<Exchange<T>>, i: nat)
    requires cfg.maxRequests >= |exchanges| && i < |exchanges|
    ensures Continues(SearchTweets, cfg, Answers(exchanges, Quadratic), i)
       <==> Continues(TwitterSearchApiStream, cfg, Answers(exchanges, EverySecond), i)
    ensures Continues(TwitterSearchApiStream, cfg, Answers(exchanges, EverySecond), i)
       <==> Continues(TwitterSearchApi, cfg, Answers(exchanges, EverySecond), i)
  {
    BackoffKeepsResults(exchanges);
    SameResultsSamePaging(cfg, Answers(exchanges, Quadratic), Answers(exchanges, EverySecond), i);
  }

  /** The arguments `collect_results` forwards to `ResultStream` besides the
      rule and `max_results`. */
  datatype StreamArgs = StreamArgs(
    endpoint: string,
    username: Json,
    password: Json,
    bearerToken: Json,
    tweetify: bool,
    maxRequests: Option<int>)

  /** The "magic numbers" the constructor substitutes. */
  const UnboundedResults: int := 1_000_000_000_000_000
  const UnboundedRequests: int := 1_000_000_000

  /** searchtweets' `ResultStream.__init__`: a `max_results` that is not an
      int (bools are ints in Python) becomes 10**15, a missing
      `max_requests` 10**9, and the endpoint is passed through
      `change_to_count_endpoint` when `infer_endpoint` says "counts", which
      raises `IndexError` for an endpoint without tokens. */
  function NewStream(args: StreamArgs, payload: Dict, maxResults: Json): (r: Result<StreamConfig>)
    ensures r.Err? <==> Truthy(Get(payload, "bucket")) && EndpointTokens(args.endpoint) == []
    ensures r.Err? ==> r.error == IndexError
    ensures r.Ok? ==>
      && r.value.payload == payload
      && r.value.tweetify == args.tweetify
      && (!Truthy(Get(payload, "bucket")) ==> r.value.endpoint == args.endpoint)
      && (Truthy(Get(payload, "bucket")) ==> Ok(r.value.endpoint) == ChangeToCountEndpoint(args.endpoint))
      && (Truthy(Get(payload, "bucket")) ==> IsCountEndpoint(r.value.endpoint))
      && (IsCountEndpoint(args.endpoint) ==> r.value.endpoint == args.endpoint)
      && (maxResults.JInt? ==> r.value.maxResults == maxResults.i)
      && (maxResults.JBool? ==> r.value.maxResults == if maxResults.b then 1 else 0)
      && (maxResults.JNull? || maxResults.JStr? ==> r.value.maxResults == UnboundedResults)
      && (args.maxRequests.Some? ==> r.value.maxRequests == args.maxRequests.value)
      && (args.maxRequests.None? ==> r.value.maxRequests == UnboundedRequests)
  {
    var limit := match maxResults
      case JInt(i) => i
      case JBool(b) => if b then 1 else 0
      case _ => UnboundedResults;
    var requests := if args.maxRequests.Some? then args.maxRequests.value else UnboundedRequests;
    var endpoint :- if InferEndpoint(payload) == "counts" then ChangeToCountEndpoint(args.endpoint) else Ok(args.endpoint);
    Ok(StreamConfig(endpoint, payload, args.username, args.password, args.bearerToken, limit, args.tweetify, requests))
  }

  /** `max_requests` as the paging test uses it: `None` selects the
      default, and a bool compares as the int it is. */
  function RequestCapOf(v: Json): Result<Option<int>> {
    match v
    case JNull => Ok(None)
    case JInt(i) => Ok(Some(i))
    case JBool(b) => Ok(Some(if b then 1 else 0))
    case JStr(_) => Err(TypeError)
  }

  /** The keyword arguments `collect_results` splats into `ResultStream`.
      The call already passes `rule_payload` and `max_results`, so a dict
      repeating either raises `TypeError`, as does one without the
      required "endpoint"; any other unknown key lands in `**kwargs`.
      Missing keys take the constructor's defaults. */
  function StreamArgsOf(d: Dict): (r: Result<StreamArgs>)
    ensures "endpoint" !in d ==> r == Err(TypeError)
    ensures "rule_payload" in d || "max_results" in d ==> r == Err(TypeError)
    ensures r.Err? ==> r.error == TypeError
    ensures r.Ok? <==>
      && "endpoint" in d && d["endpoint"].JStr?
      && "rule_payload" !in d && "max_results" !in d
      && !Get(d, "max_requests").JStr?
    ensures r.Ok? ==>
      && r.value.endpoint == d["endpoint"].s
      && r.value.username == Get(d, "username")
      && r.value.password == Get(d, "password")
      && r.value.bearerToken == Get(d, "bearer_token")
      && r.value.tweetify == ("tweetify" !in d || Truthy(d["tweetify"]))
      && (Get(d, "max_requests") == JNull <==> r.value.maxRequests.None?)
      && (Get(d, "max_requests").JInt? ==> r.value.maxRequests == Some(Get(d, "max_requests").i))
  {
    if "endpoint" !in d || "rule_payload" in d || "max_results" in d then Err(TypeError)
    else if !d["endpoint"].JStr? then Err(TypeError)
    else
      var cap :- RequestCapOf(Get(d, "max_requests"));
      var tweetify := if "tweetify" in d then Truthy(d["tweetify"]) else true;
      Ok(StreamArgs(d["endpoint"].s, Get(d, "username"), Get(d, "password"), Get(d, "bearer_token"), tweetify, cap))
  }

  /** A counts payload aimed at a search endpoint is redirected to a URL
      that both `check_counts` and `validate_count_api` recognise, so its
      items are yielded as they come. */
  lemma CountsPayloadStreamsCounts(args: StreamArgs, payload: Dict, maxResults: Json)
    requires Truthy(Get(payload, "bucket")) && !IsCountEndpoint(args.endpoint)
    requires NewStream(args, payload, maxResults).Ok?
    ensures var cfg := NewStream(args, payload, maxResults).value;
      PassesThrough(cfg) && ValidateCountApi(payload, cfg.endpoint) == Pass
  {
  }

  /** The twittersearchapi constructors: no normalisation, no endpoint
      rewriting, and no bearer token or request cap. */
  function NewApiStream(username: Json, password: Json, url: string, payload: Dict, maxTweets: int, tweetify: bool): (cfg: StreamConfig)
    ensures OpenSession(TwitterSearchApi, cfg) == Ok(MakeBasicSession(username, password))
    ensures cfg.endpoint == url && cfg.payload == payload && cfg.maxResults == maxTweets
  {
    StreamConfig(url, payload, username, password, JNull, maxTweets, tweetify, UnboundedRequests)
  }

  /** The run of a stream not yet started. */
  function Unstarted<T>(): StreamRun<T> {
    StreamRun([], [], Pass, None, 0, false, false, [])
  }

  /** twittersearchapi/twitter_search_api.py's `end_stream`: drop the held
      page and close the session; with no session yet, `None.close()` raises
      `AttributeError`. */
  function EndStream<T>(run: StreamRun<T>): (r: Result<StreamRun<T>>)
    ensures r.Err? <==> run.session.None?
    ensures r.Err? ==> r.error == AttributeError
    ensures r.Ok? ==> r.value.sessionClosed && !r.value.holdsPage
    ensures r.Ok? ==> r.value.emitted == run.emitted && r.value.sent == run.sent && r.value.session == run.session
  {
    if run.session.None? then Err(AttributeError)
    else Ok(run.(sessionClosed := true, holdsPage := false))
  }

  /** Ending twice is ending once, and ending before streaming fails. */
  lemma EndStreamLaws<T>(run: StreamRun<T>)
    ensures EndStream(run).Ok? ==> EndStream(EndStream(run).value) == EndStream(run)
    ensures EndStream(Unstarted<T>()) == Err(AttributeError)
  {
  }

  /** The stream `collect_results` constructs: `KeyError` without stream
      arguments, `TypeError` when they cannot be splatted into the
      constructor, and otherwise the constructor's result. */
  function CollectedStream(rule: Dict, maxResults: Json, streamArgs: Option<Dict>): (r: Result<StreamConfig>)
    ensures streamArgs.None? ==> r == Err(KeyError)
    ensures streamArgs.Some? && StreamArgsOf(streamArgs.value).Err? ==> r == Err(TypeError)
    ensures streamArgs.Some? && StreamArgsOf(streamArgs.value).Ok? ==>
      r == NewStream(StreamArgsOf(streamArgs.value).value, rule, maxResults)
  {
    if streamArgs.None? then Err(KeyError)
    else
      var args :- StreamArgsOf(streamArgs.value);
      NewStream(args, rule, maxResults)
  }

  /** `collect_results`: the error of constructing the stream, or the list
      of everything the searchtweets stream yields, unless an exception
      escapes it. */
  method CollectResults<T>(rule: Dict, maxResults: Json, streamArgs: Option<Dict>, exchanges: seq<Exchange<T>>)
    returns (r: Result<seq<Emitted<T>>>)
    requires CollectedStream(rule, maxResults, streamArgs).Ok? ==>
      Terminates(SearchTweets, CollectedStream(rule, maxResults, streamArgs).value, Answers(exchanges, Quadratic))
    ensures streamArgs.None? ==> r == Err(KeyError)
    ensures streamArgs.Some? && StreamArgsOf(streamArgs.value).Err? ==> r == Err(TypeError)
    ensures CollectedStream(rule, maxResults, streamArgs).Err? ==>
      r == Err(CollectedStream(rule, maxResults, streamArgs).error)
    ensures CollectedStream(rule, maxResults, streamArgs).Ok? ==>
      var cfg := CollectedStream(rule, maxResults, streamArgs).value;
      var answers := Answers(exchanges, Quadratic);
      var k := Requests(SearchTweets, cfg, answers);
      && (OpenSession(SearchTweets, cfg).Err? ==> r == Err(KeyError))
      && (OpenSession(SearchTweets, cfg).Ok? && Page(answers[k - 1]).Err? ==> r == Err(Page(answers[k - 1]).error))
      && (OpenSession(SearchTweets, cfg).Ok? && Page(answers[k - 1]).Ok? ==>
            r == Ok(Tag(Collections.FirstN(cfg.maxResults, ItemsUpTo(answers, k)), PassesThrough(cfg))))
  {
    var made := CollectedStream(rule, maxResults, streamArgs);
    if made.Err? {
      return Err(made.error);
    }
    var run := Stream(SearchTweets, made.value, exchanges);
    if run.outcome.Fail? {
      return Err(run.outcome.error);
    }
    return Ok(run.emitted);
  }
}

=== FILE: retry.dfy ===
/** The `retry` decorator: searchtweets/result_stream.py (sleeps of
    tries² seconds), twittersearchapi/utils.py and
    twittersearchapi/result_stream.py (sleeps of one second). The decorated
    call is an oracle: `call(j)` is what the j-th attempt (from 0) returns or
    raises. Sleeps are recorded, not slept. */
module Retry {
  import opened Wrappers

  /** One attempt: a response with a status code and a body, or an
      exception raised by the call (`ConnectionError`, `HTTPError`, ...). */
  datatype Attempt<R> = Answered(status: int, body: R) | Raised(error: PyError)

  /** How long to sleep before the next attempt. */
  datatype Backoff = Quadratic | EverySecond

  const MaxTries: nat := 3

  /** The keys of `GNIP_RESP_CODES`, as status codes. */
  const KnownStatusCodes: set<int> := {200, 400, 401, 404, 422, 429, 500, 502, 503}

  /** The sleep after `tries` has been incremented. */
  function SleepAfter(backoff: Backoff, tries: nat): nat {
    match backoff
    case Quadratic => tries * tries
    case EverySecond => 1
  }

  /** What the decorated function returns or raises, how many attempts it
      made, and the sleeps between them in order. */
  datatype Retried<R> = Retried(result: Result<R>, calls: nat, sleeps: seq<nat>)

  /** The retry loop entered with `tries` retries already spent. */
  function RetryFrom<R>(call: nat -> Attempt<R>, backoff: Backoff, tries: nat): (r: Retried<R>)
    requires tries <= MaxTries
    ensures 1 <= r.calls <= MaxTries - tries + 1
    ensures |r.sleeps| == r.calls - 1
    ensures forall j :: 0 <= j < |r.sleeps| ==> r.sleeps[j] == SleepAfter(backoff, tries + j + 1)
    ensures forall j :: tries <= j < tries + r.calls - 1 ==> call(j).Answered? && call(j).status != 200
    ensures var last := call(tries + r.calls - 1);
      && (last.Raised? ==> r.result == Err(last.error))
      && (last.Answered? && last.status == 200 ==> r.result == Ok(last.body))
      && (last.Answered? && last.status != 200 ==>
            && tries + r.calls - 1 == MaxTries
            && r.result == Err(if last.status in KnownStatusCodes then HttpError else KeyError))
    decreases MaxTries - tries
  {
    match call(tries)
    case Raised(e) => Retried(Err(e), 1, [])
    case Answered(status, body) =>
      if status != 200 && tries < MaxTries then
        var rest := RetryFrom(call, backoff, tries + 1);
        Retried(rest.result, rest.calls + 1, [SleepAfter(backoff, tries + 1)] + rest.sleeps)
      else if status == 200 then Retried(Ok(body), 1, [])
      else if status !in KnownStatusCodes then Retried(Err(KeyError), 1, [])
      else Retried(Err(HttpError), 1, [])
  }

  /** `retried_func`: the first 200 response within four attempts; an
      exception from an attempt at once; after three retries a non-200
      status raises `HTTPError`, or `KeyError` when the status is not a key
      of `GNIP_RESP_CODES`. */
  function Retry<R>(call: nat -> Attempt<R>, backoff: Backoff): (r: Retried<R>)
    ensures 1 <= r.calls <= MaxTries + 1
    ensures |r.sleeps| == r.calls - 1
    ensures forall j :: 0 <= j < |r.sleeps| ==> r.sleeps[j] == SleepAfter(backoff, j + 1)
    ensures forall j :: 0 <= j < r.calls - 1 ==> call(j).Answered? && call(j).status != 200
    ensures var last := call(r.calls - 1);
      && (last.Raised? ==> r.result == Err(last.error))
      && (last.Answered? && last.status == 200 ==> r.result == Ok(last.body))
      && (last.Answered? && last.status != 200 ==>
            r.calls == MaxTries + 1 && r.result == Err(if last.status in KnownStatusCodes then HttpError else KeyError))
  {
    RetryFrom(call, backoff, 0)
  }

  /** With quadratic backoff the sleeps are a prefix of 1, 4, 9 seconds;
      with the one-second backoff they are all one second. */
  lemma SleepSchedules<R>(call: nat -> Attempt<R>)
    ensures Retry(call, Quadratic).sleeps <= [1, 4, 9]
    ensures forall j :: 0 <= j < |Retry(call, EverySecond).sleeps| ==> Retry(call, EverySecond).sleeps[j] == 1
  {
    var s := Retry(call, Quadratic).sleeps;
    assert |s| <= 3;
    assert forall j :: 0 <= j < |s| ==> s[j] == [1, 4, 9][j];
  }

  /** A call that keeps answering with a non-200 status is attempted four
      times, after sleeps of 1, 4 and 9 seconds (or three of one second). */
  lemma PersistentFailure<R>(call: nat -> Attempt<R>, backoff: Backoff)
    requires forall j :: 0 <= j <= MaxTries ==> call(j).Answered? && call(j).status != 200
    ensures Retry(call, backoff).calls == MaxTries + 1
    ensures backoff == Quadratic ==> Retry(call, backoff).sleeps == [1, 4, 9]
    ensures backoff == EverySecond ==> Retry(call, backoff).sleeps == [1, 1, 1]
    ensures Retry(call, backoff).result
         == Err(if call(MaxTries).status in KnownStatusCodes then HttpError else KeyError)
  {
    var r := Retry(call, backoff);
    assert call(r.calls - 1).Answered?;
  }

  /** A 200 on the first attempt is returned with no sleep. */
  lemma ImmediateSuccess<R>(call: nat -> Attempt<R>, backoff: Backoff)
    requires call(0).Answered? && call(0).status == 200
    ensures Retry(call, backoff) == Retried(Ok(call(0).body), 1, [])
  {
  }

  /** The schedule changes only the sleeps: the attempts made and the
      outcome are the same under either backoff. */
  lemma {:induction false} BackoffOnlyChangesSleepsFrom<R>(call: nat -> Attempt<R>, tries: nat)
    requires tries <= MaxTries
    ensures RetryFrom(call, Quadratic, tries).result == RetryFrom(call, EverySecond, tries).result
    ensures RetryFrom(call, Quadratic, tries).calls == RetryFrom(call, EverySecond, tries).calls
    decreases MaxTries - tries
  {
    if call(tries).Answered? && call(tries).status != 200 && tries < MaxTries {
      BackoffOnlyChangesSleepsFrom(call, tries + 1);
    }
  }

  lemma BackoffOnlyChangesSleeps<R>(call: nat -> Attempt<R>)
    ensures Retry(call, Quadratic).result == Retry(call, EverySecond).result
    ensures Retry(call, Quadratic).calls == Retry(call, EverySecond).calls
  {
    BackoffOnlyChangesSleepsFrom(call, 0);
  }
}

=== FILE: sessions.dfy ===
/** HTTP session configuration: `make_session` of searchtweets/result_stream.py
    (bearer token or basic authentication) and the basic-only `make_session`
    of twittersearchapi/result_stream.py and twittersearchapi/twitter_search_api.py.
    A session is its headers and its basic-authentication pair; the
    `requests.Session` object itself is outside the model. */
module Sessions {
  import opened Wrappers
  import opened Values
  import opened Text

  datatype BasicAuth = BasicAuth(username: Json, password: Json)

  datatype Session = Session(headers: map<string, string>, auth: Option<BasicAuth>)

  const GzipHeaders: map<string, string> := map["Accept-encoding" := "gzip"]

  const BearerPrefix: string := "Bearer "

  /** The twittersearchapi `make_session`: basic authentication with the
      gzip header, whatever the arguments. */
  function MakeBasicSession(username: Json, password: Json): (s: Session)
    ensures s.auth == Some(BasicAuth(username, password))
    ensures s.headers.Keys == {"Accept-encoding"} && s.headers["Accept-encoding"] == "gzip"
  {
    Session(GzipHeaders, Some(BasicAuth(username, password)))
  }

  /** searchtweets' `make_session`: `KeyError` when both the password and the
      bearer token are `None`; a truthy bearer token gives the header
      "Authorization: Bearer <token>" (section 2.1 of RFC 6750) and no basic
      authentication; otherwise basic authentication with only the gzip
      header. */
  function MakeSession(username: Json, password: Json, bearerToken: Json): (r: Result<Session>)
    ensures r.Err? <==> password == JNull && bearerToken == JNull
    ensures r.Err? ==> r.error == KeyError
    ensures r.Ok? ==> "Accept-encoding" in r.value.headers && r.value.headers["Accept-encoding"] == "gzip"
    ensures r.Ok? ==> ("Authorization" in r.value.headers <==> Truthy(bearerToken))
    ensures r.Ok? ==> (r.value.auth.None? <==> Truthy(bearerToken))
    ensures r.Ok? && Truthy(bearerToken) ==>
      && r.value.headers.Keys == {"Accept-encoding", "Authorization"}
      && StartsWith(r.value.headers["Authorization"], BearerPrefix)
      && r.value.headers["Authorization"][|BearerPrefix|..] == Show(bearerToken)
    ensures r.Ok? && !Truthy(bearerToken) ==> r.value == MakeBasicSession(username, password)
  {
    if password == JNull && bearerToken == JNull then Err(KeyError)
    else if Truthy(bearerToken) then
      var header := BearerPrefix + Show(bearerToken);
      assert header[|BearerPrefix|..] == Show(bearerToken);
      Ok(Session(GzipHeaders["Authorization" := header], None))
    else Ok(MakeBasicSession(username, password))
  }

  /** An empty bearer token is not `None`, so it suppresses the `KeyError`
      yet is falsy, so the session falls back to basic authentication with
      whatever password there is, even `None`. */
  lemma EmptyBearerFallsBackToBasic(username: Json)
    ensures MakeSession(username, JNull, JStr("")) == Ok(MakeBasicSession(username, JNull))
  {
  }

  /** The bearer token is the only thing that tells the two revisions apart:
      without one, searchtweets builds the twittersearchapi session. */
  lemma RevisionsAgreeWithoutBearer(username: Json, password: Json)
    requires password != JNull
    ensures MakeSession(username, password, JNull) == Ok(MakeBasicSession(username, password))
  {
  }
}

=== FILE: text.dfy ===
/** The pieces of Python's `str` behaviour the modelled code relies on:
    whitespace splitting (`str.split()`), single-character splitting
    (`str.split(c)` and `re.split` with a character class), joining,
    prefix/suffix/substring tests, character replacement and `int(str)`. */
module Text {
  import opened Wrappers

  /** Python's `str.isspace` for one character: the characters `str.split()`
      with no argument splits on. */
  predicate IsSpace(c: char) {
    || c == ' '
    || '\t' <= c <= '\r'
    || '\U{1C}' <= c <= '\U{1F}'
    || c == '\U{85}'
    || c == '\U{A0}'
    || c == '\U{1680}'
    || '\U{2000}' <= c <= '\U{200A}'
    || c == '\U{2028}'
    || c == '\U{2029}'
    || c == '\U{202F}'
    || c == '\U{205F}'
    || c == '\U{3000}'
  }

  /** A non-empty run of non-whitespace characters. */
  predicate IsWord(w: string) {
    |w| > 0 && forall i :: 0 <= i < |w| ==> !IsSpace(w[i])
  }

  /** Length of the longest whitespace-free prefix of `s`. */
  function WordLen(s: string): (n: nat)
    ensures n <= |s|
    ensures forall i :: 0 <= i < n ==> !IsSpace(s[i])
    ensures n < |s| ==> IsSpace(s[n])
  {
    if |s| == 0 || IsSpace(s[0]) then 0 else 1 + WordLen(s[1..])
  }

  /** Python's `s.split()`: the maximal whitespace-free runs of `s`, in order. */
  function Words(s: string): (ws: seq<string>)
    ensures forall i :: 0 <= i < |ws| ==> IsWord(ws[i])
    decreases |s|
  {
    if |s| == 0 then []
    else if IsSpace(s[0]) then Words(s[1..])
    else
      var n := WordLen(s);
      [s[..n]] + Words(s[n..])
  }

  /** Python's `sep.join(parts)`. */
  function Join(sep: string, parts: seq<string>): string {
    if |parts| == 0 then ""
    else if |parts| == 1 then parts[0]
    else parts[0] + sep + Join(sep, parts[1..])
  }

  /** Every whitespace character of `r` is a plain space standing alone
      between two non-whitespace characters: no leading, trailing or
      repeated whitespace. */
  predicate SingleSpaced(r: string) {
    forall i :: 0 <= i < |r| && IsSpace(r[i]) ==>
      && r[i] == ' '
      && 0 < i < |r| - 1
      && !IsSpace(r[i - 1])
      && !IsSpace(r[i + 1])
  }

  /** `' '.join(s.split())`: whitespace runs collapsed to one space and the
      ends trimmed. The words survive unchanged. */
  function CollapseWhitespace(s: string): (r: string)
    ensures Words(r) == Words(s)
    ensures SingleSpaced(r)
  {
    WordsOfJoin(Words(s));
    JoinSingleSpaced(Words(s));
    Join(" ", Words(s))
  }

  /** Collapsing whitespace twice is the same as collapsing it once. */
  lemma CollapseWhitespaceIdempotent(s: string)
    ensures CollapseWhitespace(CollapseWhitespace(s)) == CollapseWhitespace(s)
  {
  }

  lemma {:induction false} WordLenOfWord(w: string, t: string)
    requires IsWord(w)
    requires |t| == 0 || IsSpace(t[0])
    ensures WordLen(w + t) == |w|
  {
    if |w| == 1 {
      assert (w + t)[1..] == t;
    } else {
      assert (w + t)[1..] == w[1..] + t;
      WordLenOfWord(w[1..], t);
    }
  }

  /** A word on its own splits into itself. */
  lemma WordsOfWord(w: string)
    requires IsWord(w)
    ensures Words(w) == [w]
  {
    WordLenOfWord(w, "");
    assert w + "" == w;
    assert w[..|w|] == w;
    assert w[|w|..] == "";
  }

  /** A word followed by a space splits off as the first word. */
  lemma WordsOfSpaced(w: string, rest: string)
    requires IsWord(w)
    ensures Words(w + " " + rest) == [w] + Words(rest)
  {
    var s := w + " " + rest;
    assert s == w + (" " + rest);
    WordLenOfWord(w, " " + rest);
    assert s[..|w|] == w;
    assert s[|w|..] == " " + rest;
    assert (" " + rest)[1..] == rest;
  }

  /** Splitting a space-joined list of words gives the words back. */
  lemma {:induction false} WordsOfJoin(ws: seq<string>)
    requires forall i :: 0 <= i < |ws| ==> IsWord(ws[i])
    ensures Words(Join(" ", ws)) == ws
    decreases |ws|
  {
    if |ws| == 1 {
      WordsOfWord(ws[0]);
    } else if |ws| > 1 {
      WordsOfSpaced(ws[0], Join(" ", ws[1..]));
      WordsOfJoin(ws[1..]);
      assert ws == [ws[0]] + ws[1..];
    }
  }

  lemma {:induction false} JoinSingleSpaced(ws: seq<string>)
    requires forall i :: 0 <= i < |ws| ==> IsWord(ws[i])
    ensures SingleSpaced(Join(" ", ws))
    ensures |ws| > 0 ==> var j := Join(" ", ws); |j| > 0 && !IsSpace(j[0]) && !IsSpace(j[|j| - 1])
    decreases |ws|
  {
    if |ws| <= 1 {
    } else {
      var w := ws[0];
      var rest := Join(" ", ws[1..]);
      JoinSingleSpaced(ws[1..]);
      var j := w + " " + rest;
      assert Join(" ", ws) == j;
      forall i | 0 <= i < |j| && IsSpace(j[i])
        ensures j[i] == ' ' && 0 < i < |j| - 1 && !IsSpace(j[i - 1]) && !IsSpace(j[i + 1])
      {
        if i == |w| {
          assert j[i + 1] == rest[0];
          assert j[i - 1] == w[|w| - 1];
        } else if i > |w| {
          var k := i - |w| - 1;
          assert j[i] == rest[k];
          assert j[i + 1] == rest[k + 1];
          if k == 0 {
          } else {
            assert j[i - 1] == rest[k - 1];
          }
        }
      }
    }
  }

  /** Python's `s.split(c)` generalised to a set of single-character
      delimiters, as `re.split("[...]", s)` does: every delimiter ends a piece,
      empty pieces are kept, so there is always one more piece than delimiters. */
  function SplitOn(s: string, delims: set<char>): (parts: seq<string>)
    ensures |parts| >= 1
    ensures forall i, j :: 0 <= i < |parts| && 0 <= j < |parts[i]| ==> parts[i][j] !in delims
  {
    if |s| == 0 then [""]
    else
      var rest := SplitOn(s[1..], delims);
      if s[0] in delims then [""] + rest
      else [[s[0]] + rest[0]] + rest[1..]
  }

  /** Joining the pieces of a split on `c` with `c` restores the string. */
  lemma {:induction false} JoinSplit(s: string, c: char)
    ensures Join([c], SplitOn(s, {c})) == s
    decreases |s|
  {
    if |s| > 0 {
      var rest := SplitOn(s[1..], {c});
      JoinSplit(s[1..], c);
      if s[0] == c {
        assert SplitOn(s, {c}) == [""] + rest;
        assert ([""] + rest)[1..] == rest;
        assert s == [c] + s[1..];
      } else if |rest| == 1 {
        assert s == [s[0]] + s[1..];
      } else {
        var parts := SplitOn(s, {c});
        assert parts[1..] == rest[1..];
        assert Join([c], rest) == rest[0] + [c] + Join([c], rest[1..]);
        assert s == [s[0]] + s[1..];
      }
    }
  }

  /** The first character of a split string either ends an empty piece or
      begins the first piece of the rest. */
  function SplitCons(x: char, rest: seq<string>, delims: set<char>): (parts: seq<string>)
    requires |rest| >= 1
    ensures |parts| >= 1
  {
    if x in delims then [""] + rest else [[x] + rest[0]] + rest[1..]
  }

  lemma SplitUnfold(s: string, delims: set<char>)
    requires |s| > 0
    ensures SplitOn(s, delims) == SplitCons(s[0], SplitOn(s[1..], delims), delims)
  {
  }

  /** Pieces appended after the first are untouched by a leading character. */
  lemma SplitConsAppend(x: char, front: seq<string>, back: seq<string>, delims: set<char>)
    requires |front| >= 1
    ensures SplitCons(x, front + back, delims) == SplitCons(x, front, delims) + back
  {
    if x in delims {
      assert [""] + (front + back) == ([""] + front) + back;
    } else {
      assert (front + back)[1..] == front[1..] + back;
    }
  }

  /** Splitting at a delimiter splits independently on both sides of it. */
  lemma {:induction false} SplitAppend(a: string, c: char, b: string, delims: set<char>)
    requires c in delims
    ensures SplitOn(a + [c] + b, delims) == SplitOn(a, delims) + SplitOn(b, delims)
    decreases |a|
  {
    if |a| == 0 {
      assert a + [c] + b == [c] + b;
      assert ([c] + b)[1..] == b;
    } else {
      var s := a + [c] + b;
      assert s[0] == a[0] && s[1..] == a[1..] + [c] + b;
      SplitAppend(a[1..], c, b, delims);
      SplitUnfold(s, delims);
      SplitUnfold(a, delims);
      SplitConsAppend(a[0], SplitOn(a[1..], delims), SplitOn(b, delims), delims);
    }
  }

  /** A string free of delimiters is a single piece. */
  lemma {:induction false} SplitNoDelims(s: string, delims: set<char>)
    requires forall i :: 0 <= i < |s| ==> s[i] !in delims
    ensures SplitOn(s, delims) == [s]
    decreases |s|
  {
    if |s| > 0 {
      SplitNoDelims(s[1..], delims);
      assert s == [s[0]] + s[1..];
    }
  }

  /** Appending one more part to a join appends the separator and the part. */
  lemma {:induction false} JoinSnoc(sep: string, xs: seq<string>, y: string)
    requires |xs| >= 1
    ensures Join(sep, xs + [y]) == Join(sep, xs) + sep + y
    decreases |xs|
  {
    if |xs| == 1 {
      assert (xs + [y])[1..] == [y];
    } else {
      assert (xs + [y])[1..] == xs[1..] + [y];
      JoinSnoc(sep, xs[1..], y);
    }
  }

  /** Splitting a join of delimiter-free parts on a set holding the
      separator gives the parts back. */
  lemma {:induction false} SplitJoin(xs: seq<string>, c: char, delims: set<char>)
    requires |xs| >= 1 && c in delims
    requires forall i, j :: 0 <= i < |xs| && 0 <= j < |xs[i]| ==> xs[i][j] !in delims
    ensures SplitOn(Join([c], xs), delims) == xs
    decreases |xs|
  {
    if |xs| == 1 {
      SplitNoDelims(xs[0], delims);
    } else {
      SplitJoin(xs[1..], c, delims);
      SplitAppend(xs[0], c, Join([c], xs[1..]), delims);
      SplitNoDelims(xs[0], delims);
      assert xs == [xs[0]] + xs[1..];
    }
  }

  /** The first piece of a split is a prefix of the string. */
  lemma {:induction false} SplitHeadIsPrefix(s: string, delims: set<char>)
    ensures StartsWith(s, SplitOn(s, delims)[0])
    decreases |s|
  {
    if |s| > 0 {
      SplitHeadIsPrefix(s[1..], delims);
      SplitUnfold(s, delims);
      var rest := SplitOn(s[1..], delims);
      if s[0] !in delims {
        assert s[..1 + |rest[0]|] == [s[0]] + s[1..][..|rest[0]|];
      }
    }
  }

  predicate StartsWith(s: string, prefix: string) {
    |prefix| <= |s| && s[..|prefix|] == prefix
  }

  predicate EndsWith(s: string, suffix: string) {
    |suffix| <= |s| && s[|s| - |suffix|..] == suffix
  }

  /** Python's `sub in s` for strings. */
  predicate Contains(s: string, sub: string)
    decreases |s|
  {
    if |s| < |sub| then false
    else StartsWith(s, sub) || (|s| > 0 && Contains(s[1..], sub))
  }

  /** What follows a prefix is the rest of the string. */
  lemma AfterPrefix(a: string, b: string)
    ensures (a + b)[|a|..] == b
    ensures (a + b)[|a|..|a + b|] == b
  {
  }

  /** Python's `s.replace(c, r)` for a single character `c`. */
  function ReplaceChar(s: string, c: char, r: string): string {
    if |s| == 0 then ""
    else (if s[0] == c then r else [s[0]]) + ReplaceChar(s[1..], c, r)
  }

  lemma ReplaceAbsent(s: string, c: char, r: string)
    requires c !in s
    ensures ReplaceChar(s, c, r) == s
  {
    if |s| > 0 {
      assert c !in s[1..];
      ReplaceAbsent(s[1..], c, r);
    }
  }

  lemma ReplaceAppend(a: string, b: string, c: char, r: string)
    ensures ReplaceChar(a + b, c, r) == ReplaceChar(a, c, r) + ReplaceChar(b, c, r)
  {
    if |a| == 0 {
      assert a + b == b;
    } else {
      assert (a + b)[1..] == a[1..] + b;
      ReplaceAppend(a[1..], b, c, r);
    }
  }

  /** Python's `str.lower` on ASCII letters. */
  function Lower(s: string): (r: string)
    ensures |r| == |s|
  {
    seq(|s|, i requires 0 <= i < |s| => LowerChar(s[i]))
  }

  function LowerChar(c: char): char {
    if 'A' <= c <= 'Z' then (c as int + 32) as char else c
  }

  predicate IsAscii(s: string) {
    forall i :: 0 <= i < |s| ==> s[i] as int < 128
  }

  predicate IsDigit(c: char) {
    '0' <= c <= '9'
  }

  predicate AllDigits(s: string) {
    forall i :: 0 <= i < |s| ==> IsDigit(s[i])
  }

  /** The number a string of decimal digits denotes. */
  function DigitsValue(s: string): (n: nat)
    requires AllDigits(s)
  {
    if |s| == 0 then 0
    else DigitsValue(s[..|s| - 1]) * 10 + (s[|s| - 1] as int - '0' as int)
  }

  /** `s.strip()`: leading and trailing whitespace removed. */
  function Strip(s: string): string
    decreases |s|
  {
    if |s| > 0 && IsSpace(s[0]) then Strip(s[1..])
    else if |s| > 0 && IsSpace(s[|s| - 1]) then Strip(s[..|s| - 1])
    else s
  }

  /** Python's `int(s)` on a string: optional surrounding whitespace, an
      optional sign and at least one ASCII digit; anything else raises
      `ValueError`. */
  function ParseInt(s: string): (r: Result<int>)
    ensures r.Err? ==> r.error == ValueError
  {
    var t := Strip(s);
    var negative := |t| > 0 && t[0] == '-';
    var digits := if |t| > 0 && (t[0] == '-' || t[0] == '+') then t[1..] else t;
    if |digits| == 0 || !AllDigits(digits) then Err(ValueError)
    else
      var magnitude: int := DigitsValue(digits);
      Ok(if negative then -magnitude else magnitude)
  }

  /** `str(n)` for a natural number: its decimal digits, no leading zeros. */
  function Decimal(n: nat): (s: string)
    ensures |s| >= 1 && AllDigits(s)
    ensures DigitsValue(s) == n
    decreases n
  {
    if n < 10 then [('0' as int + n) as char]
    else
      var s := Decimal(n / 10) + [('0' as int + n % 10) as char];
      assert s[..|s| - 1] == Decimal(n / 10);
      s
  }

  /** `str(i)` for an integer. */
  function IntText(i: int): string {
    if i < 0 then "-" + Decimal(-i) else Decimal(i)
  }

  /** A string that starts and ends with a non-space is its own strip. */
  lemma StripTrimmed(s: string)
    requires |s| > 0 && !IsSpace(s[0]) && !IsSpace(s[|s| - 1])
    ensures Strip(s) == s
  {
  }

  /** `int(str(i)) == i`: parsing an integer's text gives the integer back. */
  lemma ParseIntText(i: int)
    ensures ParseInt(IntText(i)) == Ok(i)
  {
    var t := IntText(i);
    StripTrimmed(t);
    if i < 0 {
      assert t[1..] == Decimal(-i);
    }
  }
}

=== FILE: values.dfy ===
/** The scalar JSON values that appear in request payloads and configuration
    dictionaries, and Python's notion of truthiness for them. */
module Values {
  import opened Wrappers
  import opened Text

  /** A JSON scalar; `JNull` is Python's `None`. */
  datatype Json = JNull | JBool(b: bool) | JInt(i: int) | JStr(s: string)

  /** A Python dict with string keys and JSON scalar values. */
  type Dict = map<string, Json>

  /** Python truthiness of a JSON scalar. */
  predicate Truthy(v: Json) {
    match v
    case JNull => false
    case JBool(b) => b
    case JInt(i) => i != 0
    case JStr(s) => s != ""
  }

  /** Python truthiness of an argument that is either a string or `None`. */
  predicate Given(s: Option<string>) {
    s.Some? && s.value != ""
  }

  /** `d.get(k)`: the value under `k`, or `None` when the key is absent. */
  function Get(d: Dict, k: string): Json {
    if k in d then d[k] else JNull
  }

  /** A string-or-`None` as a JSON scalar. */
  function FromOption(s: Option<string>): Json {
    if s.Some? then JStr(s.value) else JNull
  }

  /** Python's `int(v)`: `None` raises `TypeError`, a bool is 0 or 1, a
      string is parsed as a decimal literal. */
  function ToInt(v: Json): (r: Result<int>)
    ensures r.Err? && r.error == TypeError <==> v.JNull?
    ensures r.Err? ==> r.error == TypeError || r.error == ValueError
    ensures v.JInt? ==> r == Ok(v.i)
    ensures v.JBool? ==> r == Ok(if v.b then 1 else 0)
    ensures v.JStr? ==> r == ParseInt(v.s)
  {
    match v
    case JNull => Err(TypeError)
    case JBool(b) => Ok(if b then 1 else 0)
    case JInt(i) => Ok(i)
    case JStr(s) => ParseInt(s)
  }

  /** Python's `str(v)`, as `str.format` renders a field. */
  function Show(v: Json): string {
    match v
    case JNull => "None"
    case JBool(b) => if b then "True" else "False"
    case JInt(i) => IntText(i)
    case JStr(s) => s
  }
}

=== FILE: versioning.dfy ===
/** `parse_version` of setup.py: the first match of the regular expression
    `\d+.\d+.\d+` in a line, or `KeyError` when there is none. The '.' of the
    pattern is unescaped, so it matches any character but a newline. The
    match is found the way Python's backtracking engine finds it: the
    leftmost start position, and at that position the longest first group
    that lets the rest match, then the longest second group, then the
    longest third group. Digits are the ASCII digits. */
module Versioning {
  import opened Wrappers
  import opened Text

  /** `s[i..j]` is a non-empty run of digits: one `\d+`. */
  predicate Digits(s: string, i: int, j: int) {
    0 <= i < j <= |s| && forall k :: i <= k < j ==> IsDigit(s[k])
  }

  /** `s[k]` is matched by an unescaped '.'. */
  predicate Sep(s: string, k: int) {
    0 <= k < |s| && s[k] != '\n'
  }

  /** `s[b..e]` is matched by `.\d+`. */
  predicate Rest(s: string, b: int, e: int) {
    Sep(s, b) && Digits(s, b + 1, e)
  }

  /** `s[a..e]` is matched by `.\d+.\d+` with the second '.' at `b`. */
  predicate Mid(s: string, a: int, b: int, e: int) {
    Sep(s, a) && Digits(s, a + 1, b) && Rest(s, b, e)
  }

  /** `s[p..e]` is matched by `\d+.\d+.\d+` with its separators at `a` and `b`. */
  predicate Shape(s: string, p: int, a: int, b: int, e: int) {
    Digits(s, p, a) && Mid(s, a, b, e)
  }

  /** The last group stopped where the digits stop. */
  predicate Greedy(s: string, e: nat) {
    e >= |s| || !IsDigit(s[e])
  }

  /** A match: where it starts, where its separators are, where it ends. */
  datatype Found = Found(start: nat, a: nat, b: nat, end: nat)

  /** The number of digits from `q` on. */
  function Run(s: string, q: nat): (n: nat)
    ensures q + n <= |s| || n == 0
    ensures forall k :: q <= k < q + n ==> IsDigit(s[k])
    ensures q + n >= |s| || !IsDigit(s[q + n])
    decreases |s| - q
  {
    if q < |s| && IsDigit(s[q]) then 1 + Run(s, q + 1) else 0
  }

  /** A run of digits never reaches past the run starting at the same place. */
  lemma RunBounds(s: string, q: nat, j: nat)
    requires Digits(s, q, j)
    ensures j <= q + Run(s, q)
  {
  }

  /** A run of digits stops before the first non-digit after its start. */
  lemma DigitsStopAt(s: string, i: int, j: int, k: int)
    requires Digits(s, i, j) && i <= k < |s| && !IsDigit(s[k])
    ensures j <= k
  {
  }

  /** The last `\d+`: greedy, and nothing follows it in the pattern. */
  function Last(s: string, q: nat): (r: Option<nat>)
    ensures r.Some? ==> Digits(s, q, r.value) && Greedy(s, r.value)
    ensures r.None? ==> forall e :: !Digits(s, q, e)
  {
    if q < |s| && IsDigit(s[q]) then Some(q + Run(s, q)) else None
  }

  /** The second group tried from `n` digits down to one. */
  function Second(s: string, q: nat, n: nat): (r: Option<(nat, nat)>)
    requires n == 0 || Digits(s, q, q + n)
    ensures r.Some? ==> q < r.value.0 <= q + n && Digits(s, q, r.value.0) && Rest(s, r.value.0, r.value.1)
    ensures r.Some? ==> Greedy(s, r.value.1)
    ensures r.Some? ==> forall b, e :: r.value.0 < b <= q + n ==> !Rest(s, b, e)
    ensures r.None? ==> forall b, e :: q < b <= q + n ==> !Rest(s, b, e)
  {
    if n == 0 then None
    else
      var b := q + n;
      if Sep(s, b) && Last(s, b + 1).Some? then Some((b, Last(s, b + 1).value))
      else
        assert forall e :: !Rest(s, b, e);
        Second(s, q, n - 1)
  }

  /** The first group tried from `n` digits down to one. */
  function First(s: string, p: nat, n: nat): (r: Option<Found>)
    requires n == 0 || Digits(s, p, p + n)
    ensures r.Some? ==> r.value.start == p && p < r.value.a <= p + n
    ensures r.Some? ==> Shape(s, p, r.value.a, r.value.b, r.value.end) && Greedy(s, r.value.end)
    ensures r.Some? ==> forall a, b, e :: r.value.a < a <= p + n ==> !Mid(s, a, b, e)
    ensures r.Some? ==> forall b, e :: Mid(s, r.value.a, b, e) ==> b <= r.value.b
    ensures r.None? ==> forall a, b, e :: p < a <= p + n ==> !Mid(s, a, b, e)
  {
    if n == 0 then None
    else
      var a := p + n;
      if !Sep(s, a) then First(s, p, n - 1)
      else
        var second := Second(s, a + 1, Run(s, a + 1));
        SecondCovers(s, a);
        if second.Some? then Some(Found(p, a, second.value.0, second.value.1))
        else First(s, p, n - 1)
  }

  /** Every second group at `a` is within the lengths tried. */
  lemma SecondCovers(s: string, a: nat)
    ensures forall b, e :: Mid(s, a, b, e) ==> b <= a + 1 + Run(s, a + 1)
  {
    forall b, e | Mid(s, a, b, e)
      ensures b <= a + 1 + Run(s, a + 1)
    {
      RunBounds(s, a + 1, b);
    }
  }

  /** The match the engine finds at `p`, if any: the longest first group
      that lets the rest match, then the longest second group. */
  function MatchAt(s: string, p: nat): (r: Option<Found>)
    ensures r.Some? ==> r.value.start == p && Shape(s, p, r.value.a, r.value.b, r.value.end)
    ensures r.Some? ==> Greedy(s, r.value.end)
    ensures r.Some? ==> forall a, b, e :: Shape(s, p, a, b, e) ==> a <= r.value.a
    ensures r.Some? ==> forall b, e :: Mid(s, r.value.a, b, e) ==> b <= r.value.b
    ensures r.None? ==> forall a, b, e :: !Shape(s, p, a, b, e)
  {
    var r := First(s, p, Run(s, p));
    forall a, b, e | Shape(s, p, a, b, e)
      ensures a <= p + Run(s, p)
    {
      RunBounds(s, p, a);
    }
    r
  }

  /** The scan of `re.findall` from position `p`: the first position where
      a match starts. */
  function Search(s: string, p: nat): (r: Option<Found>)
    ensures r.Some? ==> p <= r.value.start && r == MatchAt(s, r.value.start)
    ensures r.Some? ==> forall q, a, b, e :: p <= q < r.value.start ==> !Shape(s, q, a, b, e)
    ensures r.None? ==> forall q, a, b, e :: p <= q ==> !Shape(s, q, a, b, e)
    decreases |s| - p
  {
    if p >= |s| then None
    else if MatchAt(s, p).Some? then MatchAt(s, p)
    else Search(s, p + 1)
  }

  /** `parse_version`. */
  function ParseVersion(s: string): (r: Result<string>)
    ensures r.Err? <==> forall p, a, b, e :: !Shape(s, p, a, b, e)
    ensures r.Err? ==> r.error == KeyError
    ensures r.Ok? ==> exists p, a, b, e ::
      && Shape(s, p, a, b, e)
      && r.value == s[p..e]
      && (forall q, a', b', e' :: q < p ==> !Shape(s, q, a', b', e'))
  {
    match Search(s, 0)
    case None => Err(KeyError)
    case Some(m) =>
      assert Shape(s, m.start, m.a, m.b, m.end);
      Ok(s[m.start..m.end])
  }

  /** What is returned is at least five characters long, starts and ends
      with a digit, and no digit follows it. */
  lemma VersionIsDigitsAtBothEnds(s: string)
    requires ParseVersion(s).Ok?
    ensures var v := ParseVersion(s).value;
      |v| >= 5 && IsDigit(v[0]) && IsDigit(v[|v| - 1])
    ensures var m := Search(s, 0).value;
      ParseVersion(s).value == s[m.start..m.end] && Greedy(s, m.end)
  {
  }

  /** At a start where the three numbers are each followed by a non-digit,
      the engine matches exactly those numbers. */
  lemma MatchAtDelimited(s: string, p: nat, a: nat, b: nat, e: nat)
    requires Shape(s, p, a, b, e) && !IsDigit(s[a]) && !IsDigit(s[b]) && Greedy(s, e)
    ensures MatchAt(s, p) == Some(Found(p, a, b, e))
  {
    var m := MatchAt(s, p).value;
    DigitsStopAt(s, p, m.a, a);
    DigitsStopAt(s, a + 1, m.b, b);
    if m.end < e {
      DigitsStopAt(s, b + 1, e, m.end);
    }
    if e < m.end {
      DigitsStopAt(s, b + 1, m.end, e);
    }
  }

  /** No match starts among leading non-digits. */
  lemma NoMatchInText(s: string, p: nat)
    requires p <= |s| && forall i :: 0 <= i < p ==> !IsDigit(s[i])
    ensures forall q, a, b, e :: q < p ==> !Shape(s, q, a, b, e)
  {
    forall q, a, b, e | 0 <= q < p
      ensures !Shape(s, q, a, b, e)
    {
      assert !IsDigit(s[q]);
    }
  }

  /** The positions of the parts of a version line. */
  lemma VersionLineParts(prefix: string, version: string, x: string, c: char, y: string, d: char, z: string)
    requires forall i :: 0 <= i < |prefix| ==> !IsDigit(prefix[i])
    requires Digits(x, 0, |x|) && Digits(y, 0, |y|) && Digits(z, 0, |z|)
    requires c != '\n' && d != '\n' && !IsDigit(c) && !IsDigit(d)
    requires version == x + [c] + y + [d] + z
    ensures var s := prefix + version;
      var p, a := |prefix|, |prefix| + |x|;
      var b := a + 1 + |y|;
      && Shape(s, p, a, b, |s|) && !IsDigit(s[a]) && !IsDigit(s[b])
      && (forall i :: 0 <= i < p ==> !IsDigit(s[i]))
  {
    var s := prefix + version;
    var p := |prefix|;
    var a := p + |x|;
    var b := a + 1 + |y|;
    assert forall k :: p <= k < a ==> s[k] == x[k - p];
    assert forall k :: a + 1 <= k < b ==> s[k] == y[k - a - 1];
    assert forall k :: b + 1 <= k < |s| ==> s[k] == z[k - b - 1];
    assert forall i :: 0 <= i < p ==> s[i] == prefix[i];
  }

  /** A delimited version after text without digits is what is returned. */
  lemma ParsesDelimited(s: string, p: nat, a: nat, b: nat, e: nat)
    requires Shape(s, p, a, b, e) && !IsDigit(s[a]) && !IsDigit(s[b]) && Greedy(s, e)
    requires forall i :: 0 <= i < p ==> !IsDigit(s[i])
    ensures ParseVersion(s) == Ok(s[p..e])
  {
    NoMatchInText(s, p);
    MatchAtDelimited(s, p, a, b, e);
    var r := Search(s, 0);
    assert r.Some?;
    assert r.value.start == p;
  }

  /** A version with any single non-digits between its three numbers is
      found in full, whatever non-digit text precedes it. */
  lemma FindsVersion(prefix: string, x: string, c: char, y: string, d: char, z: string)
    requires forall i :: 0 <= i < |prefix| ==> !IsDigit(prefix[i])
    requires Digits(x, 0, |x|) && Digits(y, 0, |y|) && Digits(z, 0, |z|)
    requires c != '\n' && d != '\n' && !IsDigit(c) && !IsDigit(d)
    ensures ParseVersion(prefix + (x + [c] + y + [d] + z)) == Ok(x + [c] + y + [d] + z)
  {
    var version := x + [c] + y + [d] + z;
    var s := prefix + version;
    var p := |prefix|;
    VersionLineParts(prefix, version, x, c, y, d, z);
    ParsesDelimited(s, p, p + |x|, p + |x| + 1 + |y|, |s|);
    AfterPrefix(prefix, version);
  }

  /** The unescaped '.' accepts any separator: "1-2-3" is a version. */
  lemma AnySeparator()
    ensures ParseVersion("1-2-3") == Ok("1-2-3")
  {
    var v := "1" + ['-'] + "2" + ['-'] + "3";
    assert v == ['1', '-', '2', '-', '3'];
    assert "" + v == v;
    FindsVersion("", "1", '-', "2", '-', "3");
  }

  /** A line with fewer than five characters has no version, so
      `KeyError` is raised. */
  lemma NoVersionInShortLine(s: string)
    requires |s| < 5
    ensures ParseVersion(s) == Err(KeyError)
  {
    forall p, a, b, e | Shape(s, p, a, b, e)
      ensures e - p >= 5
    {
    }
  }
}

=== FILE: wrappers.dfy ===
/** Failure-carrying datatypes shared by every module of the model.
    Python exceptions become `Err` values of `Result`; the exception classes
    the modelled code raises are enumerated by `PyError`. */
module Wrappers {

  datatype Option<+T> = None | Some(value: T)

  /** The Python exception classes raised by the modelled functions.
      `HttpError` and `ConnectionError` stand for the `requests` exceptions
      of the same names. */
  datatype PyError =
    | KeyError
    | ValueError
    | TypeError
    | IndexError
    | AttributeError
    | HttpError
    | ConnectionError

  /** A value, or the exception raised instead of returning it. */
  datatype Result<+T> = Ok(value: T) | Err(error: PyError) {
    predicate IsFailure() { Err? }

    function PropagateFailure<U>(): Result<U>
      requires Err?
    {
      Err(error)
    }

    function Extract(): T
      requires Ok?
    {
      value
    }
  }

  /** The outcome of a Python function that returns nothing or raises. */
  datatype Outcome = Pass | Fail(error: PyError)
}
